=== FILE: README.md ===
# Virtual try-on back end: a Dafny model of its decision logic

This project models the decision and transform logic of an Express back end
for a virtual try-on service, and proves properties of that model. A
mini-program client submits a person photo and garment photos. The server
validates the request. It inlines images that live on the server's own
uploads directory as base64 `data:` URIs, forwards the job to a remote
image-synthesis provider, records the task, and later queries or polls the
provider for its status. Around this pipeline sit several pieces that are
also modelled:

- the error-response conventions;
- the statistics aggregations over task status and try-on mode;
- user and administrator account rules;
- an image registry;
- the environment-configuration service, with its `.env` reader and writer.

Everything is pure. The HTTP calls, the database, the file system and the
clock are parameters:

- a provider answer is a value, or a function from the request sent;
- file bytes are a map from file name to bytes;
- "now" is an integer;
- stored rows are sequences or maps.

The modules follow the source files:

| module | file | what it models |
|---|---|---|
| `Wrappers`, `Js` | — | `Option`/`Result`; JavaScript values, truthiness and `\|\|` |
| `Strings`, `Urls`, `Base64` | — | string helpers, a scheme/host/path URL splitter standing for `new URL`, `path.basename`/`extname`, RFC 4648 base64 |
| `Validator` | `utils/validator.js` | URL, image-URL, resolution and task-id predicates, `validateAiTryonParams` |
| `ImageProxy` | `utils/imageProxy.js` | `isLocalUrl`, `getLocalPathFromUrl`, the MIME table, data URIs (RFC 2397 section 3), `processImageUrl` |
| `ErrorHandler` | `utils/errorHandler.js` | `ERROR_CODES`, `formatErrorResponse`, `handleDashscopeError`, status descriptions, `createSuccessResponse`, `errorMiddleware` |
| `TaskStatus`, `TryonTask` | `models/TryonTask.js` | the status vocabulary as a closed enum, the task row, its defaults and the `task_id`-keyed table |
| `TryonService` | `services/TryonService.js` | `createTask`, `updateTaskStatus`, `getTaskStats`, `createHistoryRecord`, `deleteTask(s)` |
| `AiTryon` | `routes/aiTryon.js` | the create-task pipeline, the task-status record mapping, the poller |
| `Counting`, `StatsService` | `services/StatsService.js` | grouped-count sums, real-time buckets, mode counters, stat types, summaries |
| `UserService`, `Pagination` | `services/UserService.js` | `findOrCreateUser`, not-found guards, user statistics, paging |
| `ImageService` | `services/ImageService.js` | image rows, `extractFilenameFromUrl`, the second MIME table, `findOrCreateImageFromUrl` |
| `AdminService` | `services/AdminService.js` | `hasPermission`, `login`/`verifyToken` status gate, `deleteAdmin`, `createAdmin` |
| `EnvFile`, `EnvService` | `services/EnvService.js` | the `.env` line parser and writer, masking, sensitivity, value validation, import |
| `InitEnvConfigs` | `scripts/init-env-configs.js` | `readEnvFile` and the create/update/skip loop |

The code is modelled as written. In particular:

- every RUNNING report stamps a new `start_time`;
- nothing guards a finished task against later updates;
- the poller stops at the first failed query;
- the poller reports CANCELED and UNKNOWN as a timeout;
- any `http://172.` URL counts as local.

## Model

| member | source | states |
|---|---|---|
| Validator.ImageUrlIff | utils/validator.js:26-36 | an image URL is a valid URL whose lower-cased text contains jpg/jpeg/png/bmp/heic/webp anywhere; the dotted spellings add nothing |
| Validator.ImageUrlIsUrl | utils/validator.js:26-28 | an image URL is a non-empty string parsing with protocol `http:` or `https:` |
| Validator.ResolutionIff | utils/validator.js:43-46 | the resolution check holds exactly for the numbers -1, 1024 and 1280 |
| Validator.ValidateAiTryonParams | utils/validator.js:62-95 | valid iff all seven checks pass; otherwise the message of the first failing check in the fixed order, never empty |
| Validator.MessagesDistinct | utils/validator.js:62-93 | the seven rejection messages are pairwise distinct, so a rejection identifies its check |
| Validator.NoGarmentNeverValid | utils/validator.js:71-73 | a request with neither garment is rejected, with the no-garment message once the person URL is fine |
| Validator.DefaultsNeverReject | utils/validator.js:58-59 | omitting resolution and restore_face validates the same as sending -1 and true, and never yields their errors |
| Validator.NullIsNotDefaulted | utils/validator.js:84-91 | an explicit null resolution or restore_face is not defaulted and is rejected |
| Validator.TaskIdIff | utils/validator.js:103-109 | a task id is valid iff it is a string of 11 to 99 characters; the UUID branch is subsumed |
| ImageProxy.NonStringNotLocal | utils/imageProxy.js:41 | an empty or non-string value is never local |
| ImageProxy.Any172IsLocal | utils/imageProxy.js:47 | every `http://172.` URL is local, whatever follows |
| ImageProxy.HttpsPrivateNotLocal | utils/imageProxy.js:43-47 | an `https://` URL is local only through the `localhost`/`127.0.0.1` substrings |
| ImageProxy.GetLocalPathFromUrl | utils/imageProxy.js:55-69 | succeeds iff the URL parses with a pathname under `/uploads/`; the result is the pathname's basename; failures carry the `无法解析URL: ` prefix |
| ImageProxy.ProxyMimeType | utils/imageProxy.js:19-28 | the MIME type is one of four image types and contains no `;` |
| ImageProxy.DataUriRoundTrip | utils/imageProxy.js:16-29 | the data URI of a file parses back to the file's MIME type and exactly its bytes |
| ImageProxy.ProcessImageUrl | utils/imageProxy.js:76-91 | falsy and non-local values come back unchanged; a local one becomes a `data:` string, succeeding iff the path maps to an existing upload |
| ImageProxy.DataUriNotHttp | utils/imageProxy.js:29 | a data URI is never an `http:`/`https:` URL |
| ImageProxy.ResolvedIsInline | utils/imageProxy.js:79-88 | a resolved local image is no longer a fetchable URL and decodes to the upload's bytes |
| Base64.DecodeEncode | utils/imageProxy.js:16 | decoding the base64 text of any bytes gives the bytes back (section 4 of RFC 4648) |
| Base64.EncodeAlphabet | utils/imageProxy.js:16 | every character of the encoding is in the base64 alphabet or is padding |
| Base64.Encode | utils/imageProxy.js:16 | the encoding has 4·⌈n/3⌉ characters |
| ErrorHandler.TableWellFormed | utils/errorHandler.js:8-53 | every code table entry has an HTTP error status and a non-empty message |
| ErrorHandler.FormatErrorResponse | utils/errorHandler.js:61-71 | success is false and error is the given code; status from the table, else 500; message is the custom one when truthy, else the table default |
| ErrorHandler.HandleDashscopeError | utils/errorHandler.js:78-102 | with a provider body: its code, message and status, each with its default; without: ECONNABORTED→Timeout/408, ENOTFOUND/ECONNREFUSED→APIError/500, anything else→InternalError/500 |
| ErrorHandler.TransportErrorUsesTable | utils/errorHandler.js:93-101 | without a body the reply always uses one of the table's own codes with that code's status |
| ErrorHandler.StatusDescription | utils/errorHandler.js:107-125 | the eight statuses get their fixed text, which differs from the status; any other input is returned unchanged |
| ErrorHandler.DescribeInjective | utils/errorHandler.js:107-116 | distinct statuses have distinct descriptions |
| ErrorHandler.CreateSuccessResponse | utils/errorHandler.js:157-164 | success is true and data is carried unchanged; the message defaults to 操作成功 only when absent |
| ErrorHandler.ErrorMiddleware | utils/errorHandler.js:169-186 | defers iff headers were sent; otherwise a known code keeps its table status, and anything else is InternalError/500 |
| TaskStatus.ParseName | models/TryonTask.js:77-82 | each status name parses back to its status |
| TaskStatus.NameParse | models/TryonTask.js:77-82 | a string parses only when it is exactly a status name |
| TaskStatus.StatusGroups | routes/aiTryon.js:301-318 | in-progress and terminal statuses are disjoint; UNKNOWN and CANCELED are neither; the processing group is in-progress minus PENDING |
| TryonTask.ModeRoundTrip | models/TryonTask.js:60-64 | the mode column accepts exactly the four mode names |
| TryonTask.NewRow | models/TryonTask.js:65-143 | a fresh row is PENDING with resolution -1, restore_face true, image_count 0 and every optional column null |
| TryonTask.EmptyStoreValid | models/TryonTask.js:15-20 | the empty table satisfies the unique-`task_id` invariant |
| TryonService.FindImageId | services/TryonService.js:250-260 | no lookup for an absent URL; a failed or empty lookup yields null |
| TryonService.CreateTask | services/TryonService.js:16-59 | fails iff the `task_id` exists; otherwise inserts one PENDING row stamped `now`, with resolution −1 and restore_face true by default; each image id is its URL's lookup result (null for an absent URL or a failed lookup); image_count is 0 and the description, scheduled time, result and error columns are null |
| TryonService.CreatePreservesValid | models/TryonTask.js:148-151 | creating a task keeps primary keys distinct and `task_id` unique |
| TryonService.UpdateTaskStatus | services/TryonService.js:96-144 | fails with 任务不存在 iff the task is missing; the stored row is the old row with every supplied field written and no other column touched, except that RUNNING stamps start_time, SUCCEEDED/FAILED stamp end_time, and a result URL whose lookup finds a non-zero image id links that id; history exactly on SUCCEEDED |
| TryonService.UpdatePreservesValid | services/TryonService.js:132 | an update keeps the table well-formed |
| TryonService.RunningAfterFinishRestamps | services/TryonService.js:107-118 | a SUCCEEDED task can be set back to RUNNING, and each RUNNING report overwrites start_time |
| TryonService.SucceededRecordsHistory | services/TryonService.js:132-137 | a SUCCEEDED report always records a successful history entry with the task's mode, person image and (updated) result URL, timed whenever the submission time is known |
| TryonService.CreateHistoryRecord | services/TryonService.js:267-300 | top garment URL when present else bottom; success iff SUCCEEDED; processing time is ⌊(end−submit)/1000⌋, present iff both times are |
| TryonService.GetTaskStats | services/TryonService.js:206-234 | total is the sum of all counts; each bucket is the sum over its status names |
| TryonService.TaskStatsTotal | services/TryonService.js:206-234 | total equals the buckets plus the counts of statuses outside the six known ones |
| TryonService.DeleteTask | services/TryonService.js:309-341 | succeeds iff the user owns the task, and then removes exactly that row |
| TryonService.NotFoundIds | services/TryonService.js:363-364 | the not-found list holds exactly the requested ids the user does not own, in request order |
| TryonService.DeleteTasks | services/TryonService.js:349-389 | rejects a missing or empty list; deletes exactly the owned ids and reports the others |
| TryonService.DeletePartition | services/TryonService.js:363-376 | every requested id is either deleted or reported not found, never both |
| AiTryon.ResolvedReachable | routes/aiTryon.js:50-69 | a resolved image is the caller's own non-local value or a data URI of the named upload's bytes |
| AiTryon.ResolveAll | routes/aiTryon.js:54-74 | images are resolved in order person, top, bottom; the first failure is the one reported |
| AiTryon.ModeOf | routes/aiTryon.js:111-126 | outfit iff both garments, bottom iff only the bottom, top iff no bottom; never dress |
| AiTryon.ValidModeNamesGarments | routes/aiTryon.js:113-121 | on a validated body, top mode means exactly "top garment only": the default is never taken |
| AiTryon.CreateTaskHandler | routes/aiTryon.js:27-74 | validation, then the key, then the images: each failure replies before any request or write; a request is sent iff all three pass |
| AiTryon.Submit | routes/aiTryon.js:97-160 | the provider's answer alone decides the reply; an accepted task is stored unless `createTask` fails, which is swallowed |
| AiTryon.GateStatuses | routes/aiTryon.js:38-74 | a gate failure replies 400 for parameters and images, 500 for a missing key, and stores nothing |
| AiTryon.RequestShape | routes/aiTryon.js:76-94 | the request carries the resolved person image, each resolved garment iff truthy, and resolution/restore_face after their defaults |
| AiTryon.SentImagesReachable | routes/aiTryon.js:50-94 | no local URL reaches the provider: each local image is sent as inline data, non-local ones unchanged |
| AiTryon.PersistedKeepsOriginals | routes/aiTryon.js:128-140 | the stored task keeps the caller's original URLs (not data URIs), the provider's ids, PENDING status and the derived mode |
| AiTryon.TimeField | routes/aiTryon.js:208-210 | a provider date is present iff its text is non-empty |
| AiTryon.QueryError | routes/aiTryon.js:246-263 | a failed status query replies with the provider's code/message/status and their defaults, else InternalError/500 |
| AiTryon.QueryTimeoutIsInternal | routes/aiTryon.js:246-263 | a timed-out connection is Timeout/408 on submission but InternalError/500 on a status query |
| AiTryon.TaskStatusHandler | routes/aiTryon.js:170-265 | an empty id is 400 and a missing key is ConfigError/500, both before any query; the queried row, and no other row, gets the provider's submit and scheduled times, and the provider's status, description, image URL or null, image count or 0, code and message or null; a final status's end_time is the server's clock |
| AiTryon.StatusHandlerPreservesValid | routes/aiTryon.js:203-222 | querying a task keeps the task table's keys and ids well formed |
| AiTryon.Step | routes/aiTryon.js:300-338 | finish on SUCCEEDED/FAILED with success iff SUCCEEDED; re-poll iff an in-progress status and attempts < 20; a failed query is PollError; anything else times out with the counter |
| AiTryon.StepByStatus | routes/aiTryon.js:301-318 | read through the status enum: in-progress statuses re-poll, terminal ones finish, UNKNOWN/CANCELED/unlisted text time out |
| AiTryon.PollFrom | routes/aiTryon.js:276-338 | at most 21 queries; every query before the last reported an in-progress status, and the last one decided the reply |
| AiTryon.PollTask | routes/aiTryon.js:267-281 | a missing id is rejected before any query; otherwise 1 to 21 queries are made |
| AiTryon.StuckTaskTimesOut | routes/aiTryon.js:318-331 | a task forever in progress is queried exactly 21 times and times out with attempts 20 |
| AiTryon.FirstSettledDecides | routes/aiTryon.js:300-338 | the first answer that is not in progress ends polling after exactly that many queries and decides the reply |
| AiTryon.PollLoop | routes/aiTryon.js:276-338 | the iterative poll loop computes the same reply and query count as the step function |
| StatsService.RealtimeStatusStats | services/StatsService.js:96-121 | the processing bucket is the sum over the three processing statuses |
| StatsService.AssignedBuckets | services/StatsService.js:103-121 | PENDING, SUCCEEDED and FAILED hold the last grouped count for their status (assignment, not addition) |
| StatsService.RealtimeMatchesTaskStats | services/StatsService.js:96-121 | on a grouped result the real-time buckets equal the task service's buckets |
| StatsService.ModeStats | services/StatsService.js:124-133 | the four modes are always present, and each counter is the last grouped count for its mode, else zero |
| StatsService.ModeCounts | services/StatsService.js:124-133 | grouped over the mode enum, each mode counter is exactly that mode's count |
| StatsService.CheckStatType | services/StatsService.js:224-246 | accepts exactly daily, weekly and monthly, and rejects anything else with the fixed message |
| StatsService.StatTypeRoundTrip | services/StatsService.js:224-246 | every stat type's name is accepted as itself |
| StatsService.RoundDiv | services/StatsService.js:418-419 | the rounded average is the nearest integer, halves rounded up |
| StatsService.CalculateStatsSummary | services/StatsService.js:392-423 | null iff the list is empty; otherwise the period, sums and rounded per-day averages of the list |
| StatsService.RoundDivExact | services/StatsService.js:418-419 | an evenly dividing total averages to the exact quotient |
| StatsService.GetHistoryStats | services/StatsService.js:196-204 | fetches newest-first up to the limit, returns them oldest-first, and summarises the returned order |
| StatsService.HistoryAscending | services/StatsService.js:196-204 | the summary's period runs forward, from the oldest fetched day to the newest |
| UserService.FindByOpenid | services/UserService.js:20-22 | finds the user with that openid, or none exists |
| UserService.Merge | services/UserService.js:24-35 | each of nickname, avatar, city, province, country and language is replaced only by a truthy value, gender by anything but undefined; identity and status are kept; the login time is now |
| UserService.MergeIdempotent | services/UserService.js:24-35 | logging in again with the same profile changes nothing but the login time |
| UserService.FindOrCreateUser | services/UserService.js:15-58 | an existing openid is merged in place; a new one is appended with gender 0, language zh_CN and status 1 unless given |
| UserService.NoSecondUser | services/UserService.js:20-36 | logging in twice with one openid creates at most one user |
| UserService.GetUserById | services/UserService.js:65-76 | succeeds iff the id exists, else fails with 用户不存在 |
| UserService.UpdateUserStatus | services/UserService.js:213-218 | only the status of the one existing user changes; a missing id fails |
| UserService.GetUserStats | services/UserService.js:134-152 | total is all counts; SUCCEEDED, FAILED and the four in-progress statuses go to their buckets |
| UserService.UserStatsMatchTaskStats | services/UserService.js:134-152 | the user's pending bucket is the task statistics' pending plus processing |
| UserService.FilterMembers | services/UserService.js:176-183 | keeps exactly the users with the given status whose nickname or openid contains the keyword, letter case aside |
| UserService.FilterKeepsOrder | services/UserService.js:185-190 | the filter keeps the query's order: filtering a concatenation filters each part |
| UserService.FilterOne | services/UserService.js:176-183 | a single user is kept exactly when it matches |
| UserService.GetUserList | services/UserService.js:166-200 | position i of the page is matching user (page−1)·limit + i, the page is as long as the rows left allow up to limit, and pages are ⌈total/limit⌉ |
| Pagination.Pages | services/UserService.js:198 | with a positive limit the page count is the least number of pages covering the total |
| Pagination.PageOf | services/UserService.js:174-190 | a page has at most `limit` rows, taken in order from the offset |
| Pagination.RowOnPage | services/UserService.js:174-198 | row k is on page ⌊k/limit⌋+1, which is within the page count |
| Pagination.RowOnOnlyOnePage | services/UserService.js:174 | no other page holds row k |
| ImageService.SaveImage | services/ImageService.js:16-52 | fails with the NOT NULL violation iff `filename` or `file_path` is absent; otherwise appends one active row copying every given column, from the mini program unless a source is given |
| ImageService.GetImageById | services/ImageService.js:59-70 | a missing or soft-deleted row is not found |
| ImageService.GetImageByFilename | services/ImageService.js:77-90 | returns an active row with that name, or none exists |
| ImageService.DeleteImage | services/ImageService.js:232-245 | soft delete: only the one row's status changes |
| ImageService.DeletedIsMissing | services/ImageService.js:239 | a deleted image can no longer be fetched, though its row remains |
| ImageService.SegmentAfter | services/ImageService.js:146-148 | the text after a `/uploads/` marker, up to the next one or the end |
| ImageService.ExtractFilenameFromUrl | services/ImageService.js:140-159 | null for falsy input; the segment after the first `/uploads/`; otherwise the basename of the parsed path, or null |
| ImageService.MimeOfExt | services/ImageService.js:214-225 | one of five image types, image/jpeg by default |
| ImageService.MimeTablesAgree | services/ImageService.js:216-224 | the two MIME tables agree except on `.heic`, which only this one knows |
| ImageService.FindOrCreateImageFromUrl | services/ImageService.js:168-207 | null without a file name; an existing active row is reused; with no such row, a row is created exactly for an uploads URL of an existing file, and otherwise the result is null |
| ImageService.OnlyUploadsCreate | services/ImageService.js:180 | a URL without `/uploads/` never adds a row |
| AdminService.PermissionRules | services/AdminService.js:445-462 | super_admin may do everything; others only what the map grants with exactly `true`; a missing map gives false |
| AdminService.FindActive | services/AdminService.js:22-27 | finds an administrator with that username and status 1, or none exists |
| AdminService.Login | services/AdminService.js:19-54 | succeeds iff an active account exists and the password matches; both failures give 用户名或密码错误; no password is returned |
| AdminService.VerifyToken | services/AdminService.js:414-436 | succeeds iff the token's id names an active administrator, returned without the password; a missing or disabled account fails with 管理员账号不存在或已被禁用 |
| AdminService.DeleteAdmin | services/AdminService.js:293-331 | checks missing, super_admin, self in order; success only sets status 0 |
| AdminService.DeletedCannotAuthenticate | services/AdminService.js:419-429 | a deleted administrator can neither log in nor pass token verification |
| AdminService.CreateAdmin | services/AdminService.js:98-158 | rejects a taken username; defaults role to operator and status to 1; returns no password |
| AdminService.CreatedAdminCanLogin | services/AdminService.js:19-90 | an administrator created active logs in with its own password as the new row |
| EnvService.MaskSensitiveValue | services/EnvService.js:534-539 | `***` for a missing value or one of length ≤ 6; otherwise same length, first and last three characters kept, the middle starred |
| EnvService.MaskIdempotent | services/EnvService.js:534-539 | masking a masked value changes nothing |
| EnvService.SensitiveKeyIff | services/EnvService.js:546-551 | a key is sensitive iff its upper-cased form contains PASSWORD, SECRET, KEY or TOKEN; API_KEY adds nothing |
| EnvService.ValidateConfigValue | services/EnvService.js:271-317 | required rejects exactly falsy or blank values; boolean accepts only true/false/1/0 in any case; every rejection carries one of the fixed messages |
| EnvService.BooleanSpellings | services/EnvService.js:285-289 | a boolean config accepts a non-blank text iff it is one of the four spellings in any letter case |
| EnvService.BlankRejected | services/EnvService.js:274-276 | a required config rejects a value of white space only |
| EnvService.ImportKeys | services/EnvService.js:409-442 | one result or error per key; a stored value changes only to the file's value for an existing, differing key that did not throw |
| EnvService.ImportFromEnv | services/EnvService.js:385-455 | a failed read is an error with the import prefix; otherwise success + skipped + failed equals the number of parsed keys |
| EnvService.DistinctCard | services/EnvService.js:409 | the entries of the parsed object list each key once, so their count is the number of keys |
| EnvFile.StripQuotes | services/EnvService.js:399 | at most one character goes from each end, only a quote; an unquoted value is unchanged |
| EnvFile.ParseTrimmed | services/EnvService.js:396-401 | a trimmed line defines a key iff it is non-empty, not a comment and has `=` after a non-empty key; key and value come from around the first `=` |
| EnvFile.ParseTrimmedIsSplit | services/EnvService.js:397-399 | the split-on-every-`=`-and-rejoin of the code equals cutting at the first `=` |
| EnvFile.LastDefinition | services/EnvService.js:394-403 | reference meaning: the value of the last line defining a key, or none |
| EnvFile.FoldLastWins | services/EnvService.js:400 | folding the lines gives each key the value of its last defining line |
| EnvFile.ParseEnvLastWins | services/EnvService.js:391-403 | the parsed file maps each key to the value of its last defining line |
| EnvFile.CategoryName | services/EnvService.js:558-567 | the five known categories get a different display name; any other is returned unchanged |
| EnvFile.CategoryNameInjective | services/EnvService.js:558-567 | apart from the display names themselves, distinct categories get distinct headings, and a heading is a display name exactly for a known category |
| EnvFile.EnvText | services/EnvService.js:347-367 | the written file ends with a line break |
| EnvFile.RowLineParses | services/EnvService.js:361-401 | a `KEY=value` line reads back as exactly that key and value |
| EnvFile.HeaderInert | services/EnvService.js:347-349 | the header lines define nothing when read back |
| EnvFile.ChunkReadsBack | services/EnvService.js:352-367 | one row's lines set exactly its key to the written value |
| EnvFile.BodyReadsBack | services/EnvService.js:352-367 | the rows' lines give each key the written value of its last row |
| EnvFile.ReadsBack | services/EnvService.js:338-403 | reading a written file gives each key the written value of its last row, and nothing for other keys |
| EnvFile.CorrectedRoundTrip | services/EnvService.js:360-365 | with descriptions on their own comment lines, every key reads back as exactly its stored value |
| EnvFile.InlineDescriptionLeaks | services/EnvService.js:363-399 | as written, a described row reads back as value + ` # ` + description, not its value |
| EnvFile.InlineDescriptionExample | services/EnvService.js:363-365 | `PORT=3000 # 服务端口` reads back as `3000 # 服务端口` |
| InitEnvConfigs.ReadEnvFile | scripts/init-env-configs.js:202-226 | an unreadable file gives no variables; otherwise each key holds its last defining line's value, by the service's line rules |
| InitEnvConfigs.CandidateValue | scripts/init-env-configs.js:246 | the file's value if non-empty, else the predefined default if non-empty, else empty |
| InitEnvConfigs.InitOne | scripts/init-env-configs.js:240-280 | creates iff the key is missing; an existing row gets the metadata and is re-activated; its value changes iff the candidate is non-empty and differs; a failure before any write changes nothing |
| InitEnvConfigs.InitAll | scripts/init-env-configs.js:235-281 | every definition adds one to exactly one counter |
| InitEnvConfigs.InitAllFrame | scripts/init-env-configs.js:235-281 | rows are only added, every added row is named by a definition, and rows no definition names are untouched |
| InitEnvConfigs.SecondRunQuiet | scripts/init-env-configs.js:246-268 | a second run on the same file creates and updates nothing |

## Left out

- HTTP plumbing is left out: the axios requests and their 30 s and 10 s timeouts, the `setTimeout` between polls, Express routing and `res.json`. Provider answers are inputs. The poller is a step function over its attempt counter.
- The remaining routes of `routes/aiTryon.js` (capabilities, user tasks, stats, user, task deletion) only forward to the modelled services, so they are not modelled.
- The poll route's missing-key case is not modelled as a gate, because it has none: it queries the provider with whatever key is configured.
- `AiTryon.Body` does not model provider answers without an `output` object. In the code, reading a field of the missing object throws. On create-task and task-status the throw ends in the route's outer error reply, which is InternalError/500 because the error carries no provider body (routes/aiTryon.js:157-165 and 241-259). On poll-task it ends in the PollError/500 reply (routes/aiTryon.js:334-341).
- `ImageService.FindOrCreateImageFromUrl`: the stored `file_path` is shortened to `uploads/<name>`. The code stores the absolute path `path.join(__dirname, '..', 'uploads', filename)`, which depends on where the server is installed.
- `AiTryon.TaskRecord`: a falsy garment value that is not a string, such as `false` or `0`, is stored as null. A `user_id` that is not a number is stored as null too. The database's own casts are not modelled.
- `AiTryon.TimeField`: the provider's date strings are turned into times by a parameter. `new Date(s.replace(' ', 'T'))` is not modelled.
- `AiTryon.StatusUpdate`: a `usage` object without `image_count` is not modelled.
- The database is not modelled: Sequelize calls, query operators, associations, and `findAndCountAll`, which is modelled as a filter plus a slice. The task table is a map keyed by `task_id`; the other tables are sequences indexed by primary key.
- The file system is not modelled: the upload bytes are a map, and the `.env` text is a `Result<string>` for the read. The write and `fs.stat` are left out, and a file's existence is the map's domain.
- The clock and dates are not modelled: "now" is an integer, `toLocaleString` is a stamp string, and the date ranges of `generateStats` are left out.
- Floating point is not modelled: success rates and the average success rate.
- bcrypt and JWT are not modelled: a password check is an equality of hashes given by a parameter, and token verification is its decoded result.
- `Urls.ParseUrl` stands for the WHATWG `URL` constructor. It is a scheme/authority/path splitter, not the full standard parser.
- `EnvService.ValidateConfigValue`: `Number()`, `JSON.parse` and the user's regular-expression rule are outcomes given as parameters.
- JavaScript strings are sequences of UTF-16 code units. The model's strings are sequences of characters, so lengths in `maskSensitiveValue` and the task-id check agree only for text within the Basic Multilingual Plane.
- `Strings.Trim` removes ASCII white space, the no-break space U+00A0 and the byte-order mark U+FEFF. JavaScript's `trim` also removes the other Unicode space separators and the line terminators U+2028 and U+2029, which no configuration text here is expected to carry.
- Plain-object lookups by a key named like an `Object.prototype` member (`constructor`, `toString`) are not modelled. These affect the code tables and the `.env` object.
- `Object.entries` order is a parameter of `EnvService.ImportFromEnv`. It must list every parsed key once.
- Logging and the audit and change-history records are not modelled.
- Equality lookups in `where` clauses are exact string equality here. The `utf8mb4_unicode_ci` collation compares usernames (`AdminService.FindActive`, `Login`, `CreateAdmin`), openids (`UserService.FindByOpenid`), file names (`ImageService.GetImageByFilename`) and `task_id` keys case- and accent-insensitively, so `ADMIN` finds the row `admin` in the program but not in the model.
- `TryonService.ImageLookup` is a pure function standing for `findOrCreateImageFromUrl`. The image rows that a lookup may insert while a task is created or updated are not carried into the image table.
- Sequelize's validation of the `image_type` enum and of the column types of `saveImage`'s input is not modelled; `ImageService.ImageType` is a closed enum.
- EnvService.SensitiveKeyIff: upper-casing is ASCII-only. JavaScript's `toUpperCase` also maps characters such as `ſ` to `S` and `ß` to `SS`, so keys such as `ſecret` or `paßword` are masked by the code but not by the model.
- UserService.FilterMembers: `LIKE '%keyword%'` is modelled as a substring test with ASCII case folding. The `utf8mb4_unicode_ci` collation also folds non-ASCII letters and accents, and `%` and `_` inside the keyword act as wildcards; neither is modelled.

## Findings

| source | as written | input that shows it | evidently intended | confidence | as-written member | corrected member |
|---|---|---|---|---|---|---|
| services/EnvService.js:363-365 | the `.env` writer appends ` # description` on the value's own line, and the importer (lines 394-401) keeps everything after the first `=` as the value | a row `PORT` with value `3000` and description `服务端口` is written as `PORT=3000 # 服务端口` and imported back as `3000 # 服务端口` | a written file imports back to the stored values, for example with each description on a comment line of its own | high (not executed) | EnvFile.InlineDescriptionLeaks, EnvFile.InlineDescriptionExample | EnvFile.CorrectedRoundTrip |

=== FILE: admin_service.dfy ===
/** Administrator accounts (`services/AdminService.js`). The `admins` table
    is a sequence whose position `i` holds the row with primary key `i + 1`.
    Password hashing and comparison are parameters standing for bcrypt, and
    token signing/verification for JWT. */
module AdminService {
  import opened Wrappers
  import opened Js

  /** The `role` enum. */
  datatype Role = SuperAdmin | AdminRole | Operator

  function ParseRole(x: string): Option<Role> {
    if x == "super_admin" then Some(SuperAdmin)
    else if x == "admin" then Some(AdminRole)
    else if x == "operator" then Some(Operator)
    else None
  }

  /** The `permissions` JSON: resource to action to value. A resource entry
      that is not an object is the empty map, since reading a property of a
      primitive never yields `true`. */
  type Permissions = map<string, map<string, Value>>

  datatype Admin = Admin(
    id: nat,
    username: string,
    passwordHash: string,
    realName: Option<string>,
    email: Option<string>,
    phone: Option<string>,
    role: Role,
    permissions: Option<Permissions>,
    status: int,
    createdBy: Option<int>,
    lastLoginAt: Option<int>,
    lastLoginIp: Option<string>)

  /** An administrator as returned to callers: everything but the password. */
  datatype AdminView = AdminView(
    id: nat,
    username: string,
    realName: Option<string>,
    email: Option<string>,
    phone: Option<string>,
    role: Role,
    permissions: Option<Permissions>,
    status: int,
    createdBy: Option<int>,
    lastLoginAt: Option<int>,
    lastLoginIp: Option<string>)

  function View(a: Admin): AdminView {
    AdminView(a.id, a.username, a.realName, a.email, a.phone, a.role, a.permissions,
              a.status, a.createdBy, a.lastLoginAt, a.lastLoginIp)
  }

  /** Primary keys follow positions and usernames are unique. */
  predicate Valid(admins: seq<Admin>) {
    && (forall i :: 0 <= i < |admins| ==> admins[i].id == i + 1)
    && (forall i, j :: 0 <= i < j < |admins| ==> admins[i].username != admins[j].username)
  }

  /** `hasPermission`. `None` is a missing admin object, whose property
      read throws and is answered with `false`. */
  predicate HasPermission(admin: Option<AdminView>, resource: string, action: string)
  {
    && admin.Some?
    && (|| admin.value.role == SuperAdmin
        || (&& admin.value.permissions.Some?
            && resource in admin.value.permissions.value
            && action in admin.value.permissions.value[resource]
            && admin.value.permissions.value[resource][action] == Bool(true)))
  }

  /** A super administrator may do anything; anyone else only what the
      permission map grants with exactly `true` (not merely truthy). */
  lemma PermissionRules(a: AdminView, resource: string, action: string, v: Value)
    ensures a.role == SuperAdmin ==> HasPermission(Some(a), resource, action)
    ensures a.role != SuperAdmin && a.permissions == Some(map[resource := map[action := v]]) ==>
              (HasPermission(Some(a), resource, action) <==> v == Bool(true))
    ensures a.role != SuperAdmin && a.permissions.None? ==> !HasPermission(Some(a), resource, action)
  {
  }

  /** The first row with this username and status 1. */
  function FindActive(admins: seq<Admin>, username: string): (r: Option<nat>)
    ensures r.Some? ==> r.value < |admins| && admins[r.value].username == username && admins[r.value].status == 1
    ensures r.None? <==> forall i :: 0 <= i < |admins| ==> !(admins[i].username == username && admins[i].status == 1)
  {
    if admins == [] then None
    else if admins[0].username == username && admins[0].status == 1 then Some(0)
    else match FindActive(admins[1..], username)
      case None => None
      case Some(i) => Some(i + 1)
  }

  const ErrBadCredentials := "登录失败: 用户名或密码错误"

  /** `login` without the token and the audit log: only an active account
      with a matching password gets in, and it has its login time and
      address recorded. Both failures give one message. */
  function Login(admins: seq<Admin>, username: string, password: string, ip: Option<string>,
                 now: int, compare: (string, string) -> bool): (r: Result<(seq<Admin>, AdminView)>)
    requires Valid(admins)
    ensures r.Err? ==> r.error == ErrBadCredentials
    ensures r.Ok? <==> FindActive(admins, username).Some?
                       && compare(password, admins[FindActive(admins, username).value].passwordHash)
    ensures r.Ok? ==>
              var i := FindActive(admins, username).value;
              && Valid(r.value.0)
              && r.value.0 == admins[i := admins[i].(lastLoginAt := Some(now), lastLoginIp := ip)]
              && r.value.1 == View(r.value.0[i]) && r.value.1.status == 1
  {
    match FindActive(admins, username)
    case None => Err(ErrBadCredentials)
    case Some(i) =>
      if !compare(password, admins[i].passwordHash) then Err(ErrBadCredentials)
      else
        var a := admins[i].(lastLoginAt := Some(now), lastLoginIp := ip);
        Ok((admins[i := a], View(a)))
  }

  const ErrTokenAdminGone := "Token验证失败: 管理员账号不存在或已被禁用"

  /** `verifyToken` after the signature check: `decoded` is the id in the
      token or the verification error. */
  function VerifyToken(admins: seq<Admin>, decoded: Result<int>): (r: Result<AdminView>)
    requires Valid(admins)
    ensures r.Ok? <==> decoded.Ok? && 1 <= decoded.value <= |admins| && admins[decoded.value - 1].status == 1
    ensures r.Ok? ==> r.value == View(admins[decoded.value - 1]) && r.value.status == 1
    ensures decoded.Err? ==> r == Err("Token验证失败: " + decoded.error)
    ensures decoded.Ok? && r.Err? ==> r == Err(ErrTokenAdminGone)
  {
    match decoded
    case Err(e) => Err("Token验证失败: " + e)
    case Ok(id) =>
      if 1 <= id <= |admins| && admins[id - 1].status == 1 then Ok(View(admins[id - 1]))
      else Err(ErrTokenAdminGone)
  }

  const ErrAdminMissing := "删除管理员失败: 管理员不存在"
  const ErrDeleteSuper := "删除管理员失败: 不能删除超级管理员"
  const ErrDeleteSelf := "删除管理员失败: 不能删除自己"

  /** `deleteAdmin`: three guards in order (exists, not a super
      administrator, not oneself), then a soft delete. */
  function DeleteAdmin(admins: seq<Admin>, adminId: int, deletedBy: Option<int>): (r: Result<seq<Admin>>)
    requires Valid(admins)
    ensures !(1 <= adminId <= |admins|) ==> r == Err(ErrAdminMissing)
    ensures 1 <= adminId <= |admins| && admins[adminId - 1].role == SuperAdmin ==> r == Err(ErrDeleteSuper)
    ensures 1 <= adminId <= |admins| && admins[adminId - 1].role != SuperAdmin && deletedBy == Some(adminId) ==>
              r == Err(ErrDeleteSelf)
    ensures r.Ok? <==> 1 <= adminId <= |admins| && admins[adminId - 1].role != SuperAdmin && deletedBy != Some(adminId)
    ensures r.Ok? ==> Valid(r.value) && r.value == admins[adminId - 1 := admins[adminId - 1].(status := 0)]
  {
    if !(1 <= adminId <= |admins|) then Err(ErrAdminMissing)
    else if admins[adminId - 1].role == SuperAdmin then Err(ErrDeleteSuper)
    else if deletedBy == Some(adminId) then Err(ErrDeleteSelf)
    else Ok(admins[adminId - 1 := admins[adminId - 1].(status := 0)])
  }

  /** A deleted administrator can neither log in nor use an earlier token,
      whatever password is given. */
  lemma DeletedCannotAuthenticate(admins: seq<Admin>, adminId: int, deletedBy: Option<int>,
                                  password: string, ip: Option<string>, now: int,
                                  compare: (string, string) -> bool)
    requires Valid(admins) && DeleteAdmin(admins, adminId, deletedBy).Ok?
    ensures var after := DeleteAdmin(admins, adminId, deletedBy).value;
            && Login(after, admins[adminId - 1].username, password, ip, now, compare).Err?
            && VerifyToken(after, Ok(adminId)).Err?
  {
    var after := DeleteAdmin(admins, adminId, deletedBy).value;
    var name := admins[adminId - 1].username;
    forall i | 0 <= i < |after| ensures !(after[i].username == name && after[i].status == 1) {
      if i != adminId - 1 {
        assert after[i] == admins[i];
      }
    }
  }

  /** The fields `createAdmin` destructures; `None` is an absent property. */
  datatype AdminData = AdminData(
    username: Option<string>,
    password: Option<string>,
    realName: Option<string>,
    email: Option<string>,
    phone: Option<string>,
    role: Option<string>,
    permissions: Option<Permissions>,
    status: Option<int>)

  predicate UsernameTaken(admins: seq<Admin>, username: string) {
    exists i :: 0 <= i < |admins| && admins[i].username == username
  }

  /** `createAdmin` and `login` fit together: an administrator created
      active can log in with the password it was created with, as the new
      row, whenever the comparison accepts a password against its own
      hash. */
  lemma CreatedAdminCanLogin(admins: seq<Admin>, data: AdminData, createdBy: Option<int>,
                             hash: string -> string, ip: Option<string>, now: int,
                             compare: (string, string) -> bool)
    requires Valid(admins) && CreateAdmin(admins, data, createdBy, hash).Ok?
    requires data.status.None? || data.status == Some(1)
    requires compare(data.password.value, hash(data.password.value))
    ensures var after := CreateAdmin(admins, data, createdBy, hash).value.0;
            var r := Login(after, data.username.value, data.password.value, ip, now, compare);
            && r.Ok? && r.value.1.id == |admins| + 1 && r.value.1.username == data.username.value
  {
    var after := CreateAdmin(admins, data, createdBy, hash).value.0;
    var name := data.username.value;
    forall i | 0 <= i < |admins| ensures !(after[i].username == name && after[i].status == 1) {
      assert after[i] == admins[i];
    }
    assert FindActive(after, name) == Some(|admins|);
  }

  /** `createAdmin` without the audit log: a new username, a hashed
      password, and role `operator`, no permissions and status 1 unless
      given. A role outside the enum fails the column check. */
  function CreateAdmin(admins: seq<Admin>, data: AdminData, createdBy: Option<int>,
                       hash: string -> string): (r: Result<(seq<Admin>, AdminView)>)
    requires Valid(admins)
    ensures data.username.Some? && UsernameTaken(admins, data.username.value) ==>
              r == Err("创建管理员失败: 用户名已存在")
    ensures r.Ok? ==>
              && data.username.Some? && !UsernameTaken(admins, data.username.value) && data.password.Some?
              && Valid(r.value.0)
              && |r.value.0| == |admins| + 1 && r.value.0[..|admins|] == admins
              && var a := r.value.0[|admins|];
              && a.username == data.username.value && a.passwordHash == hash(data.password.value)
              && a.createdBy == createdBy
              && r.value.1 == View(a)
              && (data.role.None? ==> a.role == Operator)
              && (data.role.Some? ==> ParseRole(data.role.value) == Some(a.role))
              && a.status == (if data.status.Some? then data.status.value else 1)
              && a.permissions == Some(if data.permissions.Some? then data.permissions.value else map[])
    ensures (data.username.Some? && !UsernameTaken(admins, data.username.value) && data.password.Some?
             && (data.role.None? || ParseRole(data.role.value).Some?)) ==> r.Ok?
  {
    if data.username.None? then Err("创建管理员失败: WHERE parameter \"username\" has invalid \"undefined\" value")
    else if UsernameTaken(admins, data.username.value) then Err("创建管理员失败: 用户名已存在")
    else if data.password.None? then Err("创建管理员失败: data and salt arguments required")
    else
      var role := if data.role.None? then Some(Operator) else ParseRole(data.role.value);
      if role.None? then Err("创建管理员失败: Validation error")
      else
        var a := Admin(|admins| + 1, data.username.value, hash(data.password.value),
                       data.realName, data.email, data.phone, role.value,
                       Some(data.permissions.GetOr(map[])), data.status.GetOr(1),
                       createdBy, None, None);
        Ok((admins + [a], View(a)))
  }
}

=== FILE: ai_tryon.dfy ===
/** The decision logic of the try-on routes (`routes/aiTryon.js`): the
    create-task pipeline, the record written on a status query, and the
    poller. The provider's answers, the upload directory, the clock, the
    date parser and the task store are inputs; the HTTP calls, their
    timeouts and the timer between polls are not modelled. */
module AiTryon {
  import opened Wrappers
  import opened Js
  import opened ErrorHandler
  import TaskStatus
  import Validator
  import ImageProxy
  import opened Base64
  import TryonTask
  import TryonService

  const ProviderModel := "aitryon-plus"
  const ErrNoKey := "DASHSCOPE_API_KEY 未配置"
  const ErrImagePrefix := "图片处理失败: "
  const SubmittedMessage := "试衣任务创建成功"

  // ---------------------------------------------------------------------
  // create-task
  // ---------------------------------------------------------------------

  /** The fields of the create-task body the handler reads. */
  datatype Body = Body(person: Value, top: Value, bottom: Value,
                       resolution: Value, restoreFace: Value, userId: Value)

  function Params(b: Body): Validator.TryonParams {
    Validator.TryonParams(b.person, b.top, b.bottom, b.resolution, b.restoreFace)
  }

  /** The body posted to the provider. An absent garment is `None`. */
  datatype ProviderRequest = ProviderRequest(
    model: string, person: Value, top: Option<Value>, bottom: Option<Value>,
    resolution: Value, restoreFace: Value)

  /** The provider's answer to a submission: the new task, or the failure
      the HTTP client raised. */
  datatype SubmitAnswer =
    | Accepted(taskId: string, taskStatus: string, requestId: Option<string>)
    | Rejected(error: ProviderError)

  /** The `data` of a successful create-task reply. */
  datatype Receipt = Receipt(taskId: string, taskStatus: string, description: string,
                             requestId: Option<string>)

  datatype Reply = Failure(body: ErrorResponse) | Submitted(receipt: Receipt, message: string)

  /** What one create-task call produces: the reply, the request sent to the
      provider if any, and the task store afterwards. */
  datatype CreateOutcome = CreateOutcome(reply: Reply, sent: Option<ProviderRequest>,
                                         store: TryonTask.Store)

  /** The URL handed to the provider for one image: the upload inlined when
      the value is present and local, the value itself otherwise. */
  function Resolve(v: Value, files: map<string, seq<byte>>): Result<Value> {
    if Truthy(v) && ImageProxy.IsLocalUrl(v) then ImageProxy.ProcessImageUrl(v, files) else Ok(v)
  }

  /** What the provider can reach: a resolved image is either the caller's
      own value, which is then not a local URL, or a data URI that decodes
      to the bytes of the upload the local URL names. */
  lemma ResolvedReachable(v: Value, files: map<string, seq<byte>>)
    requires Resolve(v, files).Ok?
    ensures var r := Resolve(v, files).value;
            || (r == v && !ImageProxy.IsLocalUrl(v))
            || (ImageProxy.IsLocalUrl(v) && !Validator.IsValidUrl(r) &&
                var name := ImageProxy.GetLocalPathFromUrl(v.s).value;
                ImageProxy.ParseDataUri(r.s) == Some((ImageProxy.MimeOfFile(name), files[name])))
  {
    if Truthy(v) && ImageProxy.IsLocalUrl(v) {
      ImageProxy.ResolvedIsInline(v, files);
    }
  }

  /** The three images after resolution, in the order they are processed. */
  datatype Resolved = Resolved(person: Value, top: Value, bottom: Value)

  /** The image step: person, then top, then bottom; the first failure
      aborts with its message. */
  function ResolveAll(b: Body, files: map<string, seq<byte>>): (r: Result<Resolved>)
    ensures r.Ok? <==> Resolve(b.person, files).Ok? && Resolve(b.top, files).Ok? && Resolve(b.bottom, files).Ok?
    ensures r.Ok? ==> r.value == Resolved(Resolve(b.person, files).value, Resolve(b.top, files).value,
                                          Resolve(b.bottom, files).value)
    ensures r.Err? ==>
              if Resolve(b.person, files).Err? then r.error == Resolve(b.person, files).error
              else if Resolve(b.top, files).Err? then r.error == Resolve(b.top, files).error
              else r.error == Resolve(b.bottom, files).error
  {
    var person :- Resolve(b.person, files);
    var top :- Resolve(b.top, files);
    var bottom :- Resolve(b.bottom, files);
    Ok(Resolved(person, top, bottom))
  }

  /** The provider request: the resolved person image, each resolved
      garment only when truthy, and the parameters after their defaults. */
  function BuildRequest(b: Body, img: Resolved): ProviderRequest {
    ProviderRequest(ProviderModel, img.person,
                    if Truthy(img.top) then Some(img.top) else None,
                    if Truthy(img.bottom) then Some(img.bottom) else None,
                    Validator.DefaultResolution(b.resolution),
                    Validator.DefaultRestoreFace(b.restoreFace))
  }

  /** The try-on mode recorded for the task, decided on the caller's
      garment URLs. */
  function ModeOf(top: Value, bottom: Value): (m: TryonTask.TryonMode)
    ensures m == TryonTask.Outfit <==> Truthy(top) && Truthy(bottom)
    ensures m == TryonTask.Bottom <==> !Truthy(top) && Truthy(bottom)
    ensures m == TryonTask.Top <==> !Truthy(bottom)
    ensures m != TryonTask.Dress
  {
    var m :=
      if Truthy(top) && Truthy(bottom) then TryonTask.Outfit
      else if Truthy(top) && !Truthy(bottom) then TryonTask.Top
      else if !Truthy(top) && Truthy(bottom) then TryonTask.Bottom
      else TryonTask.Top;
    if Truthy(top) && !Truthy(bottom) then TryonTask.Top else m
  }

  /** On an accepted body the default `top` is never taken: a validated
      request names a garment, so the mode is `top` exactly when only the
      top garment is given. */
  lemma ValidModeNamesGarments(b: Body)
    requires Validator.ValidateAiTryonParams(Params(b)).Valid?
    ensures ModeOf(b.top, b.bottom) == TryonTask.Top <==> Truthy(b.top) && !Truthy(b.bottom)
  {
    assert Validator.CheckPasses(Params(b), 2);
  }

  /** A URL property as it reaches the store. */
  function UrlField(v: Value): Option<string> {
    if v.Str? then Some(v.s) else None
  }

  /** `req.body.user_id || null`. */
  function UserIdField(v: Value): Option<int> {
    if v.Num? && v.n != 0 then Some(v.n) else None
  }

  function IntField(v: Value): Option<int> {
    if v.Num? then Some(v.n) else None
  }

  function BoolField(v: Value): Option<bool> {
    if v.Bool? then Some(v.b) else None
  }

  /** The record handed to `createTask`: the caller's own URLs, the
      provider's identifiers and the parameters after their defaults. */
  function TaskRecord(b: Body, taskId: string, requestId: Option<string>): TryonService.TaskData {
    TryonService.TaskData(taskId, UserIdField(b.userId), UrlField(b.person), UrlField(b.top),
                          UrlField(b.bottom), ModeOf(b.top, b.bottom),
                          IntField(Validator.DefaultResolution(b.resolution)),
                          BoolField(Validator.DefaultRestoreFace(b.restoreFace)), requestId)
  }

  /** The part of `create-task` after the gates: the request goes out, the
      provider's answer decides the reply, and an accepted task is stored
      unless `createTask` fails, which does not change the reply. */
  function Submit(b: Body, img: Resolved, provider: ProviderRequest -> SubmitAnswer, st: TryonTask.Store,
                  now: int, lookup: TryonService.ImageLookup): (r: CreateOutcome)
    ensures r.sent == Some(BuildRequest(b, img))
    ensures r.reply.Submitted? <==> provider(BuildRequest(b, img)).Accepted?
    ensures provider(BuildRequest(b, img)).Rejected? ==>
              r.reply == Failure(HandleDashscopeError(provider(BuildRequest(b, img)).error)) && r.store == st
    ensures r.reply.Submitted? ==>
              var a := provider(BuildRequest(b, img));
              && r.reply.receipt == Receipt(a.taskId, a.taskStatus, StatusDescription(a.taskStatus), a.requestId)
              && r.reply.message == SubmittedMessage
              && var created := TryonService.CreateTask(st, TaskRecord(b, a.taskId, a.requestId), now, lookup);
                 r.store == (if created.Ok? then created.value.0 else st)
  {
    var req := BuildRequest(b, img);
    match provider(req)
    case Rejected(e) => CreateOutcome(Failure(HandleDashscopeError(e)), Some(req), st)
    case Accepted(id, status, rid) =>
      var created := TryonService.CreateTask(st, TaskRecord(b, id, rid), now, lookup);
      var st' := if created.Ok? then created.value.0 else st;
      CreateOutcome(Submitted(Receipt(id, status, StatusDescription(status), rid), SubmittedMessage),
                    Some(req), st')
  }

  /** The `create-task` handler. `apiKeySet` says whether the provider key is
      configured, `files` is the upload directory, `provider` answers the
      request it is sent, and `st`, `now` and `lookup` are what `createTask`
      works on. The gates come in order: validation, the key, the images;
      each failure replies before anything is sent or stored. */
  function CreateTaskHandler(b: Body, apiKeySet: bool, files: map<string, seq<byte>>,
                             provider: ProviderRequest -> SubmitAnswer, st: TryonTask.Store,
                             now: int, lookup: TryonService.ImageLookup): (r: CreateOutcome)
    ensures Validator.ValidateAiTryonParams(Params(b)).Invalid? ==>
              && r.sent.None? && r.store == st
              && r.reply == Failure(FormatErrorResponse("InvalidParameter",
                                                        Str(Validator.ValidateAiTryonParams(Params(b)).error)))
    ensures Validator.ValidateAiTryonParams(Params(b)).Valid? && !apiKeySet ==>
              && r.sent.None? && r.store == st
              && r.reply == Failure(FormatErrorResponse("ConfigError", Str(ErrNoKey)))
    ensures Validator.ValidateAiTryonParams(Params(b)).Valid? && apiKeySet && ResolveAll(b, files).Err? ==>
              && r.sent.None? && r.store == st
              && r.reply == Failure(FormatErrorResponse("InvalidParameter",
                                                        Str(ErrImagePrefix + ResolveAll(b, files).error)))
    ensures r.sent.Some? <==>
              Validator.ValidateAiTryonParams(Params(b)).Valid? && apiKeySet && ResolveAll(b, files).Ok?
    ensures r.sent.Some? ==> r == Submit(b, ResolveAll(b, files).value, provider, st, now, lookup)
  {
    match Validator.ValidateAiTryonParams(Params(b))
    case Invalid(e) => CreateOutcome(Failure(FormatErrorResponse("InvalidParameter", Str(e))), None, st)
    case Valid =>
      if !apiKeySet then CreateOutcome(Failure(FormatErrorResponse("ConfigError", Str(ErrNoKey))), None, st)
      else match ResolveAll(b, files)
        case Err(msg) =>
          CreateOutcome(Failure(FormatErrorResponse("InvalidParameter", Str(ErrImagePrefix + msg))), None, st)
        case Ok(img) => Submit(b, img, provider, st, now, lookup)
  }

  /** The gates' replies: the two parameter failures are 400s, a missing key
      is a 500. */
  lemma GateStatuses(b: Body, apiKeySet: bool, files: map<string, seq<byte>>,
                     provider: ProviderRequest -> SubmitAnswer, st: TryonTask.Store,
                     now: int, lookup: TryonService.ImageLookup)
    requires CreateTaskHandler(b, apiKeySet, files, provider, st, now, lookup).sent.None?
    ensures var r := CreateTaskHandler(b, apiKeySet, files, provider, st, now, lookup);
            && r.reply.Failure? && !r.reply.body.success && r.store == st
            && r.reply.body.status == (if Validator.ValidateAiTryonParams(Params(b)).Valid? && !apiKeySet
                                       then 500 else 400)
  {
    var v := Validator.ValidateAiTryonParams(Params(b));
    if v.Invalid? {
      ParameterFailureIs400(Str(v.error));
    } else if !apiKeySet {
      ConfigFailureIs500(Str(ErrNoKey));
    } else {
      ParameterFailureIs400(Str(ErrImagePrefix + ResolveAll(b, files).error));
    }
  }

  lemma ParameterFailureIs400(m: Value)
    ensures FormatErrorResponse("InvalidParameter", m).status == 400
  {
    assert ErrorCodes["InvalidParameter"].status == 400;
  }

  lemma ConfigFailureIs500(m: Value)
    ensures FormatErrorResponse("ConfigError", m).status == 500
  {
    assert ErrorCodes["ConfigError"].status == 500;
  }

  /** The request sent: the resolved person image, each resolved garment
      exactly when it is truthy, and the parameters after their defaults. */
  lemma RequestShape(b: Body, apiKeySet: bool, files: map<string, seq<byte>>,
                     provider: ProviderRequest -> SubmitAnswer, st: TryonTask.Store,
                     now: int, lookup: TryonService.ImageLookup)
    requires CreateTaskHandler(b, apiKeySet, files, provider, st, now, lookup).sent.Some?
    ensures var img := ResolveAll(b, files).value;
            var q := CreateTaskHandler(b, apiKeySet, files, provider, st, now, lookup).sent.value;
            && q.model == ProviderModel && q.person == img.person
            && (q.top.Some? <==> Truthy(img.top)) && (q.top.Some? ==> q.top.value == img.top)
            && (q.bottom.Some? <==> Truthy(img.bottom)) && (q.bottom.Some? ==> q.bottom.value == img.bottom)
            && q.resolution == Validator.DefaultResolution(b.resolution)
            && q.restoreFace == Validator.DefaultRestoreFace(b.restoreFace)
  {
  }

  /** Every image in a sent request is reachable by the provider: each
      local URL has been replaced by the upload's bytes. */
  lemma SentImagesReachable(b: Body, apiKeySet: bool, files: map<string, seq<byte>>,
                            provider: ProviderRequest -> SubmitAnswer, st: TryonTask.Store,
                            now: int, lookup: TryonService.ImageLookup)
    requires CreateTaskHandler(b, apiKeySet, files, provider, st, now, lookup).sent.Some?
    ensures var q := CreateTaskHandler(b, apiKeySet, files, provider, st, now, lookup).sent.value;
            && (ImageProxy.IsLocalUrl(b.person) ==> !Validator.IsValidUrl(q.person))
            && (!ImageProxy.IsLocalUrl(b.person) ==> q.person == b.person)
            && (q.top.Some? && ImageProxy.IsLocalUrl(b.top) ==> !Validator.IsValidUrl(q.top.value))
            && (q.bottom.Some? && ImageProxy.IsLocalUrl(b.bottom) ==> !Validator.IsValidUrl(q.bottom.value))
  {
    RequestShape(b, apiKeySet, files, provider, st, now, lookup);
    ResolvedReachable(b.person, files);
    ResolvedReachable(b.top, files);
    ResolvedReachable(b.bottom, files);
  }

  /** The stored task keeps the caller's original URLs, not the inlined
      data URIs sent to the provider, and starts PENDING with the mode the
      garments decide. */
  lemma PersistedKeepsOriginals(b: Body, apiKeySet: bool, files: map<string, seq<byte>>,
                                provider: ProviderRequest -> SubmitAnswer, st: TryonTask.Store,
                                now: int, lookup: TryonService.ImageLookup)
    requires CreateTaskHandler(b, apiKeySet, files, provider, st, now, lookup).store != st
    ensures var r := CreateTaskHandler(b, apiKeySet, files, provider, st, now, lookup);
            var a := provider(r.sent.value);
            && r.reply.Submitted? && a.Accepted? && a.taskId in r.store.rows
            && var t := r.store.rows[a.taskId];
               && t.personImageUrl == UrlField(b.person)
               && t.topGarmentUrl == UrlField(b.top) && t.bottomGarmentUrl == UrlField(b.bottom)
               && t.mode == ModeOf(b.top, b.bottom) && t.mode != TryonTask.Dress
               && TaskStatus.Parse(t.status) == Some(TaskStatus.Pending)
               && t.requestId == a.requestId && t.submitTime == Some(now)
  {
    var r := CreateTaskHandler(b, apiKeySet, files, provider, st, now, lookup);
    var a := provider(r.sent.value);
    var created := TryonService.CreateTask(st, TaskRecord(b, a.taskId, a.requestId), now, lookup);
    assert created.Ok?;
    assert created.value.0.rows == st.rows[a.taskId := created.value.1];
  }

  // ---------------------------------------------------------------------
  // task-status
  // ---------------------------------------------------------------------

  /** The `output` object of a provider task query; the date fields are the
      provider's raw strings. */
  datatype Output = Output(taskId: string, taskStatus: string, imageUrl: Option<string>,
                           submitTime: Option<string>, scheduledTime: Option<string>,
                           endTime: Option<string>, code: Option<string>, message: Option<string>)

  datatype Usage = Usage(imageCount: int)

  /** The provider's answer to a task query. */
  datatype QueryAnswer =
    | Answered(output: Output, usage: Option<Usage>, requestId: Option<string>)
    | QueryFailed(error: ProviderError)

  /** `usage ? usage.image_count : 0`. */
  function ImageCount(usage: Option<Usage>): int {
    if usage.Some? then usage.value.imageCount else 0
  }

  /** A provider date: parsed by `toTime` when present and non-empty. */
  function TimeField(s: Option<string>, toTime: string -> int): (r: Option<int>)
    ensures r.Some? <==> TruthyStr(s)
  {
    if TruthyStr(s) then Some(toTime(s.value)) else None
  }

  /** The update object built from a task query. Every field is supplied,
      so missing provider values overwrite stored ones with null (or 0). */
  function StatusUpdate(out: Output, usage: Option<Usage>, toTime: string -> int): TryonService.UpdateData {
    TryonService.UpdateData(
      TryonService.Set(out.taskStatus),
      TryonService.Set(Some(StatusDescription(out.taskStatus))),
      TryonService.Set(TimeField(out.submitTime, toTime)),
      TryonService.Set(TimeField(out.scheduledTime, toTime)),
      TryonService.Keep,
      TryonService.Set(TimeField(out.endTime, toTime)),
      TryonService.Set(OrNull(out.imageUrl)),
      TryonService.Keep,
      TryonService.Set(ImageCount(usage)),
      TryonService.Set(OrNull(out.code)),
      TryonService.Set(OrNull(out.message)))
  }

  /** The task fields echoed back to the caller. */
  datatype View = View(taskId: string, taskStatus: string, imageUrl: Option<string>,
                       submitTime: Option<string>, scheduledTime: Option<string>,
                       endTime: Option<string>, code: Option<string>, message: Option<string>)

  function ViewOf(out: Output): View {
    View(out.taskId, out.taskStatus, OrNull(out.imageUrl), out.submitTime, out.scheduledTime,
         out.endTime, OrNull(out.code), OrNull(out.message))
  }

  datatype StatusReply =
    | StatusFailure(body: ErrorResponse)
    | StatusOk(view: View, usage: Option<Usage>, requestId: Option<string>)

  const ErrNoTaskId := "任务ID是必需的"
  const ErrQueryFailed := "查询任务状态失败"

  /** The 400 reply to a request without a task id. */
  const MissingTaskId := ErrorResponse(false, Str("InvalidParameter"), Str(ErrNoTaskId), 400)

  /** The error reply of a failed task query: the provider's code, message
      and status when it answered with a body, else InternalError. Unlike
      `handleDashscopeError` it has no special case for transport codes. */
  function QueryError(e: ProviderError): (r: ErrorResponse)
    ensures !r.success && Truthy(r.error) && Truthy(r.message)
    ensures HasBody(e) ==>
              var body := e.response.value.data.value;
              && r.error == Or(body.code, Str("APIError"))
              && r.message == Or(body.message, Str(ErrQueryFailed))
              && r.status == (if e.response.value.status != 0 then e.response.value.status else 500)
    ensures !HasBody(e) ==> r.error == Str("InternalError") && r.status == 500
  {
    if HasBody(e) then
      var body := e.response.value.data.value;
      var status := e.response.value.status;
      ErrorResponse(false, Or(body.code, Str("APIError")), Or(body.message, Str(ErrQueryFailed)),
                    if status != 0 then status else 500)
    else ErrorResponse(false, Str("InternalError"), Or(e.message, Str("服务器内部错误")), 500)
  }

  /** A timed-out connection is reported as Timeout/408 when a task is
      submitted but as InternalError/500 when it is queried. */
  lemma QueryTimeoutIsInternal(e: ProviderError)
    requires !HasBody(e) && e.code == Str("ECONNABORTED")
    ensures HandleDashscopeError(e).status == 408 && QueryError(e).status == 500
    ensures HandleDashscopeError(e).error != QueryError(e).error
  {
  }

  /** The `task-status` handler: the reply and the task store afterwards.
      The stored row is keyed by the requested id; a failed update (no such
      row) is swallowed. */
  function TaskStatusHandler(taskId: string, apiKeySet: bool, answer: QueryAnswer, st: TryonTask.Store,
                             toTime: string -> int, now: int, lookup: TryonService.ImageLookup)
    : (r: (StatusReply, TryonTask.Store))
    ensures taskId == "" ==> r == (StatusFailure(MissingTaskId), st)
    ensures taskId != "" && !apiKeySet ==>
              r == (StatusFailure(ErrorResponse(false, Str("ConfigError"), Str(ErrNoKey), 500)), st)
    ensures r.0.StatusOk? <==> taskId != "" && apiKeySet && answer.Answered?
    ensures r.0.StatusOk? ==> r.0 == StatusOk(ViewOf(answer.output), answer.usage, answer.requestId)
    ensures taskId != "" && apiKeySet && answer.QueryFailed? ==> r.0 == StatusFailure(QueryError(answer.error))
    ensures r.1 != st ==> r.0.StatusOk? && taskId in st.rows
    ensures r.0.StatusOk? && taskId !in st.rows ==> r.1 == st
    // what the stored row records
    ensures r.0.StatusOk? && taskId in st.rows ==>
              var out := answer.output;
              && r.1.rows.Keys == st.rows.Keys
              && r.1.nextId == st.nextId
              && (forall k :: k in st.rows && k != taskId ==> r.1.rows[k] == st.rows[k])
              && var t := r.1.rows[taskId];
                 && t.id == st.rows[taskId].id && t.taskId == st.rows[taskId].taskId
                 && t.userId == st.rows[taskId].userId && t.mode == st.rows[taskId].mode
                 && t.status == out.taskStatus
                 && t.submitTime == TimeField(out.submitTime, toTime)
                 && t.scheduledTime == TimeField(out.scheduledTime, toTime)
                 && t.statusDescription == Some(StatusDescription(out.taskStatus))
                 && t.resultImageUrl == OrNull(out.imageUrl)
                 && t.imageCount == ImageCount(answer.usage)
                 && t.errorCode == OrNull(out.code) && t.errorMessage == OrNull(out.message)
                 && (out.taskStatus in {"SUCCEEDED", "FAILED"} ==> t.endTime == Some(now))
                 && (out.taskStatus !in {"SUCCEEDED", "FAILED"} ==> t.endTime == TimeField(out.endTime, toTime))
                 && (out.taskStatus == "RUNNING" ==> t.startTime == Some(now))
                 && (out.taskStatus != "RUNNING" ==> t.startTime == st.rows[taskId].startTime)
  {
    if taskId == "" then (StatusFailure(MissingTaskId), st)
    else if !apiKeySet then (StatusFailure(ErrorResponse(false, Str("ConfigError"), Str(ErrNoKey), 500)), st)
    else match answer
      case QueryFailed(e) => (StatusFailure(QueryError(e)), st)
      case Answered(out, usage, rid) =>
        var updated := TryonService.UpdateTaskStatus(st, taskId, StatusUpdate(out, usage, toTime), now, lookup);
        var st' := if updated.Ok? then updated.value.store else st;
        (StatusOk(ViewOf(out), usage, rid), st')
  }

  /** Querying a task keeps the task table well formed: it only rewrites
      the queried row, keeping its key and id. */
  lemma StatusHandlerPreservesValid(taskId: string, apiKeySet: bool, answer: QueryAnswer,
                                    st: TryonTask.Store, toTime: string -> int, now: int,
                                    lookup: TryonService.ImageLookup)
    requires TryonTask.Valid(st)
    ensures TryonTask.Valid(TaskStatusHandler(taskId, apiKeySet, answer, st, toTime, now, lookup).1)
  {
    if taskId != "" && apiKeySet && answer.Answered? {
      var upd := StatusUpdate(answer.output, answer.usage, toTime);
      if TryonService.UpdateTaskStatus(st, taskId, upd, now, lookup).Ok? {
        TryonService.UpdatePreservesValid(st, taskId, upd, now, lookup);
      }
    }
  }

  // ---------------------------------------------------------------------
  // poll-task
  // ---------------------------------------------------------------------

  const MaxAttempts: nat := 20
  const InProgressNames: set<string> := {"PENDING", "PRE-PROCESSING", "RUNNING", "POST-PROCESSING"}
  const ErrPollTimeout := "任务轮询超时，请稍后手动查询"

  /** How polling ends: a final status (`success` only for SUCCEEDED), a
      timeout carrying the attempt counter, or a failed query (PollError). */
  datatype PollReply =
    | Finished(success: bool, view: View, usage: Option<Usage>, requestId: Option<string>)
    | TimedOut(taskId: string, taskStatus: string, attempts: nat)
    | PollFailed

  /** One poll: stop with a reply, or schedule the next poll with the
      counter raised. */
  datatype PollStep = Done(reply: PollReply) | Again(attempts: nat)

  /** The decision taken on one query answer with `attempts` re-polls made. */
  function Step(attempts: nat, a: QueryAnswer): (r: PollStep)
    ensures r.Again? <==> a.Answered? && attempts < MaxAttempts && a.output.taskStatus in InProgressNames
    ensures r.Again? ==> r.attempts == attempts + 1
    ensures r == Done(PollFailed) <==> a.QueryFailed?
    ensures r.Done? && r.reply.Finished? <==> a.Answered? && a.output.taskStatus in {"SUCCEEDED", "FAILED"}
    ensures r.Done? && r.reply.Finished? ==>
              && (r.reply.success <==> a.output.taskStatus == "SUCCEEDED")
              && r.reply.view == ViewOf(a.output)
    ensures r.Done? && r.reply.TimedOut? ==>
              r.reply == TimedOut(a.output.taskId, a.output.taskStatus, attempts)
  {
    match a
    case QueryFailed(_) => Done(PollFailed)
    case Answered(out, usage, rid) =>
      var status := out.taskStatus;
      if status == "SUCCEEDED" || status == "FAILED" then
        Done(Finished(status == "SUCCEEDED", ViewOf(out), usage, rid))
      else if attempts < MaxAttempts && status in InProgressNames then Again(attempts + 1)
      else Done(TimedOut(out.taskId, status, attempts))
  }

  /** The step decision read through the status enum: in-progress statuses
      re-poll while the budget lasts, the two final ones finish, and
      UNKNOWN, CANCELED, any unlisted text or an exhausted budget time out. */
  lemma StepByStatus(attempts: nat, a: QueryAnswer)
    requires a.Answered?
    ensures var p := TaskStatus.Parse(a.output.taskStatus);
            && (Step(attempts, a).Again? <==> p.Some? && TaskStatus.InProgress(p.value) && attempts < MaxAttempts)
            && (Step(attempts, a).Done? && Step(attempts, a).reply.Finished? <==>
                  p.Some? && TaskStatus.IsTerminal(p.value))
            && (p == Some(TaskStatus.Canceled) || p == Some(TaskStatus.Unknown) || p.None? ==>
                  Step(attempts, a).Done? && Step(attempts, a).reply.TimedOut?)
  {
    TaskStatus.NameParse(a.output.taskStatus);
  }

  /** Polling from the `k`-th query on, where `answer(i)` is what the `i`-th
      query (counting from 0) returns. Yields the reply and the number of
      queries made in all: every query before the last reported an
      in-progress status, and the last one decided the reply. */
  function PollFrom(k: nat, answer: nat -> QueryAnswer): (r: (PollReply, nat))
    requires k <= MaxAttempts
    decreases MaxAttempts - k
    ensures k < r.1 <= MaxAttempts + 1
    ensures forall i :: k <= i < r.1 - 1 ==>
              answer(i).Answered? && answer(i).output.taskStatus in InProgressNames
    ensures Step(r.1 - 1, answer(r.1 - 1)) == Done(r.0)
  {
    match Step(k, answer(k))
    case Done(reply) => (reply, k + 1)
    case Again(next) => PollFrom(next, answer)
  }

  /** The `poll-task` handler: a missing id is rejected before any query. */
  function PollTask(taskId: string, answer: nat -> QueryAnswer): (r: Result<(PollReply, nat)>)
    ensures taskId == "" <==> r.Err?
    ensures r.Err? ==> r.error == ErrNoTaskId
    ensures r.Ok? ==> 1 <= r.value.1 <= MaxAttempts + 1
  {
    if taskId == "" then Err(ErrNoTaskId) else Ok(PollFrom(0, answer))
  }

  /** A task that never leaves the in-progress states is queried exactly
      21 times and reported as a timeout with the counter at 20. */
  lemma StuckTaskTimesOut(answer: nat -> QueryAnswer)
    requires forall i :: answer(i).Answered? && answer(i).output.taskStatus in InProgressNames
    ensures var r := PollFrom(0, answer);
            r.1 == MaxAttempts + 1 && r.0.TimedOut? && r.0.attempts == MaxAttempts
  {
  }

  /** The first final, unknown or failed answer ends polling: if the `j`-th
      query is the first whose status is not in progress, exactly `j + 1`
      queries are made and that answer decides the reply. */
  lemma FirstSettledDecides(answer: nat -> QueryAnswer, j: nat)
    requires j <= MaxAttempts
    requires forall i :: 0 <= i < j ==> answer(i).Answered? && answer(i).output.taskStatus in InProgressNames
    requires answer(j).QueryFailed? || answer(j).output.taskStatus !in InProgressNames
    ensures PollFrom(0, answer).1 == j + 1
    ensures Step(j, answer(j)) == Done(PollFrom(0, answer).0)
  {
  }

  /** The poll loop as the route runs it, one query per iteration. */
  method PollLoop(answer: nat -> QueryAnswer) returns (reply: PollReply, queries: nat)
    ensures (reply, queries) == PollFrom(0, answer)
    ensures queries <= MaxAttempts + 1
  {
    var attempts: nat := 0;
    queries := 0;
    while true
      invariant attempts <= MaxAttempts && queries == attempts
      invariant PollFrom(attempts, answer) == PollFrom(0, answer)
      decreases MaxAttempts - attempts
    {
      var step := Step(attempts, answer(attempts));
      queries := queries + 1;
      match step {
        case Done(r) =>
          reply := r;
          return;
        case Again(next) =>
          attempts := next;
      }
    }
  }
}

=== FILE: base64.dfy ===
/** Base64 with the standard alphabet and `=` padding, as section 4 of
    RFC 4648 defines it and as Node's `Buffer.toString('base64')` writes it. */
module Base64 {
  import opened Wrappers

  type byte = x: int | 0 <= x < 256
  type sextet = x: int | 0 <= x < 64

  /** The character for a 6-bit group (Table 1 of RFC 4648). */
  function EncodeSextet(n: sextet): (c: char)
    ensures c != '='
  {
    if n < 26 then ('A' as int + n) as char
    else if n < 52 then ('a' as int + (n - 26)) as char
    else if n < 62 then ('0' as int + (n - 52)) as char
    else if n == 62 then '+'
    else '/'
  }

  /** The 6-bit group a character stands for, or `None` outside the alphabet. */
  function DecodeChar(c: char): (r: Option<sextet>)
    ensures c == '=' ==> r.None?
  {
    if 'A' <= c <= 'Z' then Some(c as int - 'A' as int)
    else if 'a' <= c <= 'z' then Some(c as int - 'a' as int + 26)
    else if '0' <= c <= '9' then Some(c as int - '0' as int + 52)
    else if c == '+' then Some(62)
    else if c == '/' then Some(63)
    else None
  }

  lemma DecodeEncodeSextet(n: sextet)
    ensures DecodeChar(EncodeSextet(n)) == Some(n)
  {
  }

  /** The three bytes of a full quantum, split into four 6-bit groups. */
  function EncodeBlock(a: byte, b: byte, c: byte): (r: string)
    ensures |r| == 4
  {
    [EncodeSextet(a / 4), EncodeSextet((a % 4) * 16 + b / 16),
     EncodeSextet((b % 16) * 4 + c / 64), EncodeSextet(c % 64)]
  }

  /** `Buffer.from(bytes).toString('base64')`. */
  function Encode(bs: seq<byte>): (r: string)
    ensures |r| == (|bs| + 2) / 3 * 4
    decreases |bs|
  {
    if |bs| == 0 then []
    else if |bs| == 1 then
      [EncodeSextet(bs[0] / 4), EncodeSextet((bs[0] % 4) * 16), '=', '=']
    else if |bs| == 2 then
      [EncodeSextet(bs[0] / 4), EncodeSextet((bs[0] % 4) * 16 + bs[1] / 16),
       EncodeSextet((bs[1] % 16) * 4), '=']
    else EncodeBlock(bs[0], bs[1], bs[2]) + Encode(bs[3..])
  }

  function Byte0(s0: sextet, s1: sextet): byte { s0 * 4 + s1 / 16 }
  function Byte1(s1: sextet, s2: sextet): byte { (s1 % 16) * 16 + s2 / 4 }
  function Byte2(s2: sextet, s3: sextet): byte { (s2 % 4) * 64 + s3 }

  /** One four-character quantum: three bytes, or fewer when it ends in padding. */
  function DecodeQuad(q: string): (r: Option<seq<byte>>)
    requires |q| == 4
    ensures r.Some? ==> 1 <= |r.value| <= 3
    ensures r.Some? && |r.value| < 3 ==> q[3] == '='
  {
    var c0 := DecodeChar(q[0]);
    var c1 := DecodeChar(q[1]);
    var c2 := DecodeChar(q[2]);
    var c3 := DecodeChar(q[3]);
    if c0.None? || c1.None? then None
    else if q[2] == '=' then
      if q[3] == '=' then Some([Byte0(c0.value, c1.value)]) else None
    else if c2.None? then None
    else if q[3] == '=' then Some([Byte0(c0.value, c1.value), Byte1(c1.value, c2.value)])
    else if c3.None? then None
    else Some([Byte0(c0.value, c1.value), Byte1(c1.value, c2.value), Byte2(c2.value, c3.value)])
  }

  /** Decoding of a padded base64 text; padding may only close the last quantum. */
  function Decode(s: string): Option<seq<byte>>
    decreases |s|
  {
    if |s| == 0 then Some([])
    else if |s| < 4 then None
    else
      match DecodeQuad(s[..4])
      case None => None
      case Some(head) =>
        if |head| < 3 && |s| > 4 then None
        else
          match Decode(s[4..])
          case None => None
          case Some(tail) => Some(head + tail)
  }

  lemma BlockRoundTrip(a: byte, b: byte, c: byte)
    ensures DecodeQuad(EncodeBlock(a, b, c)) == Some([a, b, c])
  {
    var s0, s1, s2, s3 := a / 4, (a % 4) * 16 + b / 16, (b % 16) * 4 + c / 64, c % 64;
    DecodeEncodeSextet(s0);
    DecodeEncodeSextet(s1);
    DecodeEncodeSextet(s2);
    DecodeEncodeSextet(s3);
    assert s1 / 16 == a % 4 && s1 % 16 == b / 16;
    assert s2 / 4 == b % 16 && s2 % 4 == c / 64;
    assert Byte0(s0, s1) == a;
    assert Byte1(s1, s2) == b;
    assert Byte2(s2, s3) == c;
  }

  /** The quantum of a single trailing byte: two characters and two pads. */
  lemma OneByteRoundTrip(a: byte)
    ensures DecodeQuad([EncodeSextet(a / 4), EncodeSextet((a % 4) * 16), '=', '=']) == Some([a])
  {
    DecodeEncodeSextet(a / 4);
    DecodeEncodeSextet((a % 4) * 16);
    assert ((a % 4) * 16) / 16 == a % 4;
    assert Byte0(a / 4, (a % 4) * 16) == a;
  }

  /** The quantum of two trailing bytes: three characters and one pad. */
  lemma TwoBytesRoundTrip(a: byte, b: byte)
    ensures DecodeQuad([EncodeSextet(a / 4), EncodeSextet((a % 4) * 16 + b / 16),
                        EncodeSextet((b % 16) * 4), '=']) == Some([a, b])
  {
    var s1, s2 := (a % 4) * 16 + b / 16, (b % 16) * 4;
    DecodeEncodeSextet(a / 4);
    DecodeEncodeSextet(s1);
    DecodeEncodeSextet(s2);
    assert s1 / 16 == a % 4 && s1 % 16 == b / 16 && s2 / 4 == b % 16;
    assert Byte0(a / 4, s1) == a;
    assert Byte1(s1, s2) == b;
  }

  lemma TailRoundTrip(bs: seq<byte>)
    requires 1 <= |bs| <= 2
    ensures DecodeQuad(Encode(bs)) == Some(bs)
  {
    if |bs| == 1 {
      OneByteRoundTrip(bs[0]);
      assert bs == [bs[0]];
    } else {
      TwoBytesRoundTrip(bs[0], bs[1]);
      assert bs == [bs[0], bs[1]];
    }
  }

  /** The first quantum of an encoding: the padded tail, or a full block
      followed by the encoding of the rest. */
  lemma EncodeShape(bs: seq<byte>)
    requires bs != []
    ensures |bs| <= 2 ==> |Encode(bs)| == 4
    ensures |bs| > 2 ==> Encode(bs) == EncodeBlock(bs[0], bs[1], bs[2]) + Encode(bs[3..])
  {
  }

  lemma Cons3(bs: seq<byte>)
    requires |bs| >= 3
    ensures [bs[0], bs[1], bs[2]] + bs[3..] == bs
  {
  }

  /** Decoding one quantum in front of a decodable rest. */
  lemma DecodeCons(h: string, t: string, head: seq<byte>, tail: seq<byte>)
    requires |h| == 4 && DecodeQuad(h) == Some(head)
    requires |head| == 3 || t == []
    requires Decode(t) == Some(tail)
    ensures Decode(h + t) == Some(head + tail)
  {
    assert (h + t)[..4] == h;
    assert (h + t)[4..] == t;
  }

  /** Decoding an encoding gives back the bytes (RFC 4648, section 4). */
  lemma {:induction false} DecodeEncode(bs: seq<byte>)
    ensures Decode(Encode(bs)) == Some(bs)
    decreases |bs|
  {
    if |bs| == 0 {
    } else if |bs| <= 2 {
      var e := Encode(bs);
      EncodeShape(bs);
      TailRoundTrip(bs);
      DecodeCons(e, [], bs, []);
      assert e + [] == e;
      assert bs + [] == bs;
    } else {
      var rest := bs[3..];
      var block := EncodeBlock(bs[0], bs[1], bs[2]);
      EncodeShape(bs);
      BlockRoundTrip(bs[0], bs[1], bs[2]);
      DecodeEncode(rest);
      DecodeCons(block, Encode(rest), [bs[0], bs[1], bs[2]], rest);
      Cons3(bs);
    }
  }

  /** Every character of an encoding is in the alphabet or is padding. */
  lemma {:induction false} EncodeAlphabet(bs: seq<byte>)
    ensures forall i :: 0 <= i < |Encode(bs)| ==>
              DecodeChar(Encode(bs)[i]).Some? || Encode(bs)[i] == '='
    decreases |bs|
  {
    if |bs| > 2 {
      EncodeAlphabet(bs[3..]);
      var b := EncodeBlock(bs[0], bs[1], bs[2]);
      forall i | 0 <= i < 4 ensures DecodeChar(b[i]).Some? {
        DecodeEncodeSextet(if i == 0 then bs[0] / 4
                           else if i == 1 then (bs[0] % 4) * 16 + bs[1] / 16
                           else if i == 2 then (bs[1] % 16) * 4 + bs[2] / 64
                           else bs[2] % 64);
      }
    } else if |bs| == 2 {
      DecodeEncodeSextet(bs[0] / 4);
      DecodeEncodeSextet((bs[0] % 4) * 16 + bs[1] / 16);
      DecodeEncodeSextet((bs[1] % 16) * 4);
    } else if |bs| == 1 {
      DecodeEncodeSextet(bs[0] / 4);
      DecodeEncodeSextet((bs[0] % 4) * 16);
    }
  }
}

=== FILE: counting.dfy ===
/** Grouped counts as a `GROUP BY task_status` query returns them, and the
    reference sums the per-service bucketings are proved against. */
module Counting {
  /** One result row of a grouped count. */
  datatype GroupCount = GroupCount(key: string, count: nat)

  /** The sum of every row's count. */
  function SumAll(rows: seq<GroupCount>): nat {
    if rows == [] then 0 else rows[0].count + SumAll(rows[1..])
  }

  /** The sum of the counts of rows whose key is in `keys`. */
  function SumIn(rows: seq<GroupCount>, keys: set<string>): nat {
    if rows == [] then 0
    else (if rows[0].key in keys then rows[0].count else 0) + SumIn(rows[1..], keys)
  }

  /** The sum of the counts of rows whose key is not in `keys`. */
  function SumOutside(rows: seq<GroupCount>, keys: set<string>): nat {
    if rows == [] then 0
    else (if rows[0].key in keys then 0 else rows[0].count) + SumOutside(rows[1..], keys)
  }

  /** Every row is inside or outside a key set. */
  lemma {:induction false} SumSplit(rows: seq<GroupCount>, keys: set<string>)
    ensures SumAll(rows) == SumIn(rows, keys) + SumOutside(rows, keys)
  {
    if rows != [] {
      SumSplit(rows[1..], keys);
    }
  }

  /** Sums over disjoint key sets add up. */
  lemma {:induction false} SumUnion(rows: seq<GroupCount>, a: set<string>, b: set<string>)
    requires a !! b
    ensures SumIn(rows, a + b) == SumIn(rows, a) + SumIn(rows, b)
  {
    if rows != [] {
      SumUnion(rows[1..], a, b);
    }
  }
}

=== FILE: env_file.dfy ===
/** The `.env` text format the configuration service writes and reads back:
    the line parser shared by the import routine and the initialisation
    script, and the writer that regenerates the file from the active
    configuration rows. */
module EnvFile {
  import opened Wrappers
  import opened Js
  import opened Strings

  // ---------------------------------------------------------------------
  // Parsing
  // ---------------------------------------------------------------------

  predicate IsQuote(c: char) {
    c == '"' || c == '\''
  }

  /** `v.replace(/^["']|["']$/g, '')`: one quote of either kind is dropped
      from the front and one from the back; a lone quote leaves nothing. */
  function StripQuotes(v: string): (r: string)
    ensures |r| <= |v|
    ensures exists a: nat :: OccursAt(v, r, a) && a <= 1
    ensures v != [] && !IsQuote(v[0]) && !IsQuote(v[|v| - 1]) ==> r == v
    ensures v != [] && (IsQuote(v[0]) || IsQuote(v[|v| - 1])) ==> |r| < |v|
  {
    var a := if |v| > 0 && IsQuote(v[0]) then 1 else 0;
    var b := if |v| > a && IsQuote(v[|v| - 1]) then |v| - 1 else |v|;
    assert v[a..][..b - a] == v[a..b];
    assert OccursAt(v, v[a..b], a);
    v[a..b]
  }

  /** One line of the file: the trimmed line must be non-empty, must not
      start with `#`, and must hold an `=` after a non-empty key. The key is
      what precedes the first `=`, trimmed; the value is everything after it
      (later `=` included), untrimmed, with the quotes stripped. */
  function ParseLine(raw: string): Option<(string, string)> {
    ParseTrimmed(Trim(raw))
  }

  /** `ParseLine` after the `trim()`: the key is what precedes the first
      `=`, the value what follows it. */
  function ParseTrimmed(line: string): (r: Option<(string, string)>)
    ensures r.Some? <==> line != [] && line[0] != '#' && '=' in line && line[0] != '='
  {
    if line == [] || line[0] == '#' then None
    else
      match IndexOf(line, "=")
      case None =>
        CharAbsent(line, '=');
        None
      case Some(i) =>
        assert line[i..i + 1] == "=";
        assert line[0] == '=' ==> line[0..1] == "=";
        if i == 0 then None
        else
          Some((Trim(line[..i]), StripQuotes(line[i + 1..])))
  }

  /** The code splits the line on every `=`, keeps the first piece as the
      key and re-joins the rest; that is the cut at the first `=`, and a
      line without `=` or with an empty key defines nothing. */
  lemma ParseTrimmedIsSplit(line: string)
    requires line != [] && line[0] != '#'
    ensures var parts := Split(line, '=');
            ParseTrimmed(line)
            == if parts[0] != [] && |parts| > 1
               then Some((Trim(parts[0]), StripQuotes(Join(parts[1..], '='))))
               else None
  {
    SplitAtFirst(line);
  }

  /** `split('=')` cut at the first `=`: the first piece is the text before
      it, and the remaining pieces re-joined give the text after it. */
  lemma SplitAtFirst(line: string)
    ensures var parts := Split(line, '=');
            ('=' in line <==> |parts| > 1)
            && ('=' in line ==>
                  var i := IndexOf(line, "=").value;
                  i < |line| && parts[0] == line[..i] && Join(parts[1..], '=') == line[i + 1..])
  {
    CharAbsent(line, '=');
    match IndexOf(line, "=")
    case None =>
      assert Split(line, '=') == [line];
    case Some(i) =>
      assert line[i..i + 1] == "=";
      assert line[i] == '=';
      var rest := Split(line[i + 1..], '=');
      assert Split(line, '=') == [line[..i]] + rest;
      assert Split(line, '=')[1..] == rest;
      JoinSplit(line[i + 1..], '=');
  }

  /** Applies one parsed line: `envVars[key] = value`, so a later line for
      the same key overwrites an earlier one. */
  function Apply(env: map<string, string>, entry: Option<(string, string)>): map<string, string> {
    match entry
    case None => env
    case Some((k, v)) => env[k := v]
  }

  /** The parse of every line, in order. */
  function Parsed(lines: seq<string>): (r: seq<Option<(string, string)>>)
    ensures |r| == |lines|
    ensures forall i :: 0 <= i < |lines| ==> r[i] == ParseLine(lines[i])
  {
    seq(|lines|, i requires 0 <= i < |lines| => ParseLine(lines[i]))
  }

  /** The `forEach` over the parsed lines, threading the variables so far. */
  function Fold(env: map<string, string>, entries: seq<Option<(string, string)>>): map<string, string>
    decreases |entries|
  {
    if entries == [] then env else Fold(Apply(env, entries[0]), entries[1..])
  }

  /** The variables a `.env` text defines. */
  function ParseEnv(content: string): map<string, string> {
    Fold(map[], Parsed(Split(content, '\n')))
  }

  function Lookup(env: map<string, string>, k: string): Option<string> {
    if k in env then Some(env[k]) else None
  }

  predicate DefinesKey(entry: Option<(string, string)>, k: string) {
    entry.Some? && entry.value.0 == k
  }

  /** Reference meaning of the parser: the value of the LAST entry that
      defines `k`, if any entry does. */
  function LastDefinition(entries: seq<Option<(string, string)>>, k: string): (r: Option<string>)
    decreases |entries|
    ensures r.Some? ==>
              exists i :: 0 <= i < |entries| && entries[i] == Some((k, r.value))
                          && forall j :: i < j < |entries| ==> !DefinesKey(entries[j], k)
    ensures r.None? ==> forall j :: 0 <= j < |entries| ==> !DefinesKey(entries[j], k)
  {
    if entries == [] then None
    else
      var later := LastDefinition(entries[1..], k);
      if later.Some? then
        var i :| 0 <= i < |entries[1..]| && entries[1..][i] == Some((k, later.value))
                 && forall j :: i < j < |entries[1..]| ==> !DefinesKey(entries[1..][j], k);
        assert entries[i + 1] == Some((k, later.value));
        assert forall j :: i + 1 < j < |entries| ==> entries[j] == entries[1..][j - 1];
        later
      else if DefinesKey(entries[0], k) then
        assert forall j :: 1 <= j < |entries| ==> entries[j] == entries[1..][j - 1];
        Some(entries[0].value.1)
      else
        assert forall j :: 1 <= j < |entries| ==> entries[j] == entries[1..][j - 1];
        None
  }

  /** Later definitions win: after folding `entries` into `env`, a key holds
      the value of its last definition, or its old value when nothing
      defines it. */
  lemma {:induction false} FoldLastWins(env: map<string, string>, entries: seq<Option<(string, string)>>, k: string)
    decreases |entries|
    ensures Lookup(Fold(env, entries), k)
            == (if LastDefinition(entries, k).Some? then LastDefinition(entries, k) else Lookup(env, k))
  {
    if entries != [] {
      FoldLastWins(Apply(env, entries[0]), entries[1..], k);
    }
  }

  /** A key of the parsed file holds the value of the last line defining it. */
  lemma ParseEnvLastWins(content: string, k: string)
    ensures Lookup(ParseEnv(content), k) == LastDefinition(Parsed(Split(content, '\n')), k)
  {
    FoldLastWins(map[], Parsed(Split(content, '\n')), k);
  }

  lemma {:induction false} FoldAppend(env: map<string, string>, a: seq<Option<(string, string)>>,
                                      b: seq<Option<(string, string)>>)
    decreases |a|
    ensures Fold(env, a + b) == Fold(Fold(env, a), b)
  {
    if a != [] {
      assert (a + b)[0] == a[0];
      assert (a + b)[1..] == a[1..] + b;
      FoldAppend(Apply(env, a[0]), a[1..], b);
    } else {
      assert a + b == b;
    }
  }

  /** Entries that define nothing leave the variables alone. */
  lemma {:induction false} FoldInert(env: map<string, string>, entries: seq<Option<(string, string)>>)
    requires forall i :: 0 <= i < |entries| ==> entries[i].None?
    decreases |entries|
    ensures Fold(env, entries) == env
  {
    if entries != [] {
      FoldInert(env, entries[1..]);
    }
  }

  lemma FoldOne(env: map<string, string>, entry: Option<(string, string)>)
    ensures Fold(env, [entry]) == Apply(env, entry)
  {
    assert [entry][1..] == [];
  }

  lemma FoldTwoInert(env: map<string, string>, entries: seq<Option<(string, string)>>)
    requires |entries| == 2 && entries[0].None? && entries[1].None?
    ensures Fold(env, entries) == env
  {
    var rest := entries[1..];
    assert rest[0] == entries[1] && rest[1..] == [];
    assert Fold(env, entries) == Fold(env, rest);
    assert Fold(env, rest) == Fold(env, []);
  }

  lemma ParsedAppend(a: seq<string>, b: seq<string>)
    ensures Parsed(a + b) == Parsed(a) + Parsed(b)
  {
  }

  // ---------------------------------------------------------------------
  // Writing
  // ---------------------------------------------------------------------

  /** `getCategoryName`: the display name of a configuration category. */
  function CategoryName(category: string): (r: string)
    ensures category in {"database", "api", "oss", "server", "business"} ==> r != category
    ensures category !in {"database", "api", "oss", "server", "business"} ==> r == category
    ensures '\n' !in category ==> '\n' !in r
  {
    match category
    case "database" => "数据库配置"
    case "api" => "API配置"
    case "oss" => "对象存储配置"
    case "server" => "服务器配置"
    case "business" => "业务配置"
    case _ => category
  }

  const CategoryLabels: set<string> := {"数据库配置", "API配置", "对象存储配置", "服务器配置", "业务配置"}

  /** Outside the display names themselves, distinct categories get
      distinct headings: the five known ones are labelled apart and the
      others pass through. */
  lemma CategoryNameInjective(a: string, b: string)
    requires a !in CategoryLabels && b !in CategoryLabels
    ensures CategoryName(a) == CategoryName(b) <==> a == b
    ensures a in {"database", "api", "oss", "server", "business"} <==> CategoryName(a) in CategoryLabels
  {
  }

  /** The columns of an active configuration row the writer reads. */
  datatype ConfigRow = ConfigRow(key: string, value: Option<string>, category: string, description: Option<string>)

  /** Where a row's description goes: after the value on the same line, as
      the writer does it, or on a comment line of its own above the row. */
  datatype Layout = Inline | Above

  const Title := "环境变量配置文件"
  const Notice := "此文件由后台管理系统自动生成，请勿手动修改"
  const StampLabel := "最后更新时间: "

  /** The three comment lines and the blank line that open the file. */
  function HeaderLines(stamp: string): seq<string> {
    TitleLines() + StampLines(stamp)
  }

  function TitleLines(): seq<string> {
    ["# " + Title, "# " + Notice]
  }

  /** The time stamp line and the blank line after it. */
  function StampLines(stamp: string): seq<string> {
    ["# " + (StampLabel + stamp), ""]
  }

  /** The text after `KEY=`: `config_value || ''`, followed by ` # description`
      in the inline layout when the description is truthy. */
  function EmittedValue(c: ConfigRow, layout: Layout): string {
    var v := c.value.GetOr("");
    if layout == Inline && TruthyStr(c.description) then v + " # " + c.description.value else v
  }

  /** The `# 分类名` heading written when the category changes. */
  function HeadingLines(category: string, current: string): seq<string> {
    if category != current then ["", "# " + CategoryName(category)] else []
  }

  /** The comment line holding a truthy description, in the `Above` layout. */
  function DescriptionLines(c: ConfigRow, layout: Layout): seq<string> {
    if layout == Above && TruthyStr(c.description) then ["# " + c.description.value] else []
  }

  /** The `forEach` over the rows: a category heading precedes a row whose
      category differs from the previous row's (the first compares with ''). */
  function BodyLines(rows: seq<ConfigRow>, current: string, layout: Layout): seq<string>
    decreases |rows|
  {
    if rows == [] then []
    else
      ChunkLines(rows[0], current, layout) + BodyLines(rows[1..], rows[0].category, layout)
  }

  /** The lines one row contributes, given the category of the row before. */
  function ChunkLines(c: ConfigRow, current: string, layout: Layout): seq<string> {
    HeadingLines(c.category, current) + DescriptionLines(c, layout) + [c.key + "=" + EmittedValue(c, layout)]
  }

  /** Each piece of the file is appended with its own line terminator. */
  function Terminated(lines: seq<string>): (r: string)
    decreases |lines|
  {
    if lines == [] then "" else lines[0] + "\n" + Terminated(lines[1..])
  }

  lemma {:induction false} TerminatedIsJoin(lines: seq<string>)
    decreases |lines|
    ensures Terminated(lines) == Join(lines + [""], '\n')
  {
    if lines != [] {
      TerminatedIsJoin(lines[1..]);
      assert (lines + [""])[1..] == lines[1..] + [""];
    }
  }

  /** The whole file `updateEnvFile` writes; `stamp` is the local time text. */
  function EnvText(stamp: string, rows: seq<ConfigRow>, layout: Layout): (r: string)
    ensures r != [] && r[|r| - 1] == '\n'
  {
    var lines := HeaderLines(stamp) + BodyLines(rows, "", layout);
    assert lines[|lines| - 1..] + [] == lines[|lines| - 1..];
    TerminatedEnds(lines);
    Terminated(lines)
  }

  lemma {:induction false} TerminatedEnds(lines: seq<string>)
    requires lines != []
    decreases |lines|
    ensures Terminated(lines) != [] && Terminated(lines)[|Terminated(lines)| - 1] == '\n'
  {
    if |lines| > 1 {
      TerminatedEnds(lines[1..]);
    }
  }

  // ---------------------------------------------------------------------
  // Reading back what was written
  // ---------------------------------------------------------------------

  predicate KeyOk(k: string) {
    k != [] && '=' !in k && '\n' !in k && k[0] != '#' && !IsSpace(k[0]) && !IsSpace(k[|k| - 1])
  }

  predicate ValueOk(v: string) {
    '\n' !in v && (v == [] || (!IsSpace(v[|v| - 1]) && !IsQuote(v[0]) && !IsQuote(v[|v| - 1])))
  }

  /** A row the file can carry: a plain key, a value that neither ends in
      white space nor is quoted at either end, and single-line texts. */
  predicate Writable(c: ConfigRow, layout: Layout) {
    KeyOk(c.key) && ValueOk(EmittedValue(c, layout)) && '\n' !in c.category
    && (c.description.Some? ==> '\n' !in c.description.value)
  }

  /** The value the file gives back for `k`: that of the last row with this
      key. */
  function Expected(rows: seq<ConfigRow>, k: string, layout: Layout): Option<string>
    decreases |rows|
  {
    if rows == [] then None
    else
      var later := Expected(rows[1..], k, layout);
      if later.Some? then later
      else if rows[0].key == k then Some(EmittedValue(rows[0], layout))
      else None
  }

  /** A trimmed line that starts with a non-space character keeps it. */
  lemma TrimFirst(s: string)
    requires s != [] && !IsSpace(s[0])
    ensures Trim(s) != [] && Trim(s)[0] == s[0]
  {
    assert TrimStart(s) == s;
    assert IsSpace(s[0]) || TrimEnd(s) != [];
  }

  lemma CommentIgnored(text: string)
    ensures ParseLine("# " + text).None?
  {
    TrimFirst("# " + text);
  }

  lemma BlankIgnored()
    ensures ParseLine("").None?
  {
    TrimNoop("");
  }

  /** The first `=` of a row line is the one after the key. */
  lemma FirstEquals(k: string, v: string)
    requires k != [] && '=' !in k
    ensures IndexOf(k + "=" + v, "=") == Some(|k|)
  {
    var line := k + "=" + v;
    assert line[|k|..|k| + 1] == "=";
    forall j | 0 <= j < |k|
      ensures !OccursAt(line, "=", j)
    {
      assert line[j..j + 1] == [k[j]];
    }
    var r := IndexOf(line, "=");
    assert OccursAt(line, "=", |k|);
    assert r.Some?;
    assert r.value == |k|;
  }

  /** A row line has no white space at either end. */
  lemma RowLineTrimmed(k: string, v: string)
    requires KeyOk(k) && ValueOk(v)
    ensures Trim(k + "=" + v) == k + "=" + v
  {
    var line := k + "=" + v;
    assert line[0] == k[0];
    assert line[|line| - 1] == if v == [] then '=' else v[|v| - 1];
    TrimNoop(line);
  }

  /** A row line reads back as its key and value. */
  lemma RowLineParses(k: string, v: string)
    requires KeyOk(k) && ValueOk(v)
    ensures ParseLine(k + "=" + v) == Some((k, v))
  {
    var line := k + "=" + v;
    RowLineTrimmed(k, v);
    FirstEquals(k, v);
    assert line[..|k|] == k;
    assert line[|k| + 1..] == v;
    TrimNoop(k);
    assert StripQuotes(v) == v;
    assert ParseTrimmed(line) == Some((Trim(k), StripQuotes(v)));
  }

  lemma HeadingParsed(category: string, current: string)
    requires '\n' !in category
    ensures forall i :: 0 <= i < |Parsed(HeadingLines(category, current))| ==>
              Parsed(HeadingLines(category, current))[i].None?
  {
    if category != current {
      BlankIgnored();
      CommentIgnored(CategoryName(category));
    }
  }

  lemma DescriptionParsed(c: ConfigRow, layout: Layout)
    requires c.description.Some? ==> '\n' !in c.description.value
    ensures forall i :: 0 <= i < |Parsed(DescriptionLines(c, layout))| ==>
              Parsed(DescriptionLines(c, layout))[i].None?
  {
    if layout == Above && TruthyStr(c.description) {
      CommentIgnored(c.description.value);
    }
  }

  /** The heading and description lines in front of a row define nothing. */
  lemma ChunkPrefixInert(c: ConfigRow, current: string, layout: Layout)
    requires Writable(c, layout)
    ensures var p := Parsed(HeadingLines(c.category, current) + DescriptionLines(c, layout));
            forall i :: 0 <= i < |p| ==> p[i].None?
  {
    ParsedAppend(HeadingLines(c.category, current), DescriptionLines(c, layout));
    HeadingParsed(c.category, current);
    DescriptionParsed(c, layout);
  }

  /** One row's lines set its key to its written value and nothing else. */
  lemma ChunkReadsBack(env: map<string, string>, c: ConfigRow, current: string, layout: Layout)
    requires Writable(c, layout)
    ensures Fold(env, Parsed(ChunkLines(c, current, layout))) == env[c.key := EmittedValue(c, layout)]
  {
    var hd := HeadingLines(c.category, current) + DescriptionLines(c, layout);
    var e := [c.key + "=" + EmittedValue(c, layout)];
    ParsedAppend(hd, e);
    ChunkPrefixInert(c, current, layout);
    FoldAppend(env, Parsed(hd), Parsed(e));
    FoldInert(env, Parsed(hd));
    RowLineParses(c.key, EmittedValue(c, layout));
    assert Parsed(e) == [Some((c.key, EmittedValue(c, layout)))];
    FoldOne(env, Some((c.key, EmittedValue(c, layout))));
    assert ChunkLines(c, current, layout) == hd + e;
  }

  lemma {:induction false} BodyReadsBack(env: map<string, string>, rows: seq<ConfigRow>, current: string,
                                          layout: Layout, k: string)
    requires forall j :: 0 <= j < |rows| ==> Writable(rows[j], layout)
    decreases |rows|
    ensures Lookup(Fold(env, Parsed(BodyLines(rows, current, layout))), k)
            == (if Expected(rows, k, layout).Some? then Expected(rows, k, layout) else Lookup(env, k))
  {
    if rows != [] {
      var c := rows[0];
      var chunk := ChunkLines(c, current, layout);
      var rest := BodyLines(rows[1..], c.category, layout);
      ParsedAppend(chunk, rest);
      FoldAppend(env, Parsed(chunk), Parsed(rest));
      ChunkReadsBack(env, c, current, layout);
      BodyReadsBack(env[c.key := EmittedValue(c, layout)], rows[1..], c.category, layout, k);
    }
  }

  /** The lines of a written file, as `split('\n')` sees them. */
  lemma EnvTextLines(stamp: string, rows: seq<ConfigRow>, layout: Layout)
    requires '\n' !in stamp
    requires forall j :: 0 <= j < |rows| ==> Writable(rows[j], layout)
    ensures Split(EnvText(stamp, rows, layout), '\n')
            == HeaderLines(stamp) + (BodyLines(rows, "", layout) + [""])
  {
    var h := HeaderLines(stamp);
    var b := BodyLines(rows, "", layout);
    TerminatedIsJoin(h + b);
    HeaderSingleLines(stamp);
    BodyNoNewline(rows, "", layout);
    SingleLinesAppend(h, b);
    SingleLinesAppend(h + b, [""]);
    SplitJoin(h + b + [""], '\n');
    assert h + b + [""] == h + (b + [""]);
  }

  /** No element of `lines` spans a line break. */
  predicate SingleLines(lines: seq<string>) {
    forall i :: 0 <= i < |lines| ==> '\n' !in lines[i]
  }

  lemma SingleLinesAppend(a: seq<string>, b: seq<string>)
    requires SingleLines(a) && SingleLines(b)
    ensures SingleLines(a + b)
  {
    assert forall i :: |a| <= i < |a + b| ==> (a + b)[i] == b[i - |a|];
  }

  lemma HeaderSingleLines(stamp: string)
    requires '\n' !in stamp
    ensures SingleLines(HeaderLines(stamp))
  {
    assert SingleLines(TitleLines());
    assert SingleLines(StampLines(stamp));
    SingleLinesAppend(TitleLines(), StampLines(stamp));
  }

  lemma TitleInert(env: map<string, string>)
    ensures Fold(env, Parsed(TitleLines())) == env
  {
    CommentIgnored(Title);
    CommentIgnored(Notice);
    FoldTwoInert(env, Parsed(TitleLines()));
  }

  lemma StampInert(env: map<string, string>, stamp: string)
    requires '\n' !in stamp
    ensures Fold(env, Parsed(StampLines(stamp))) == env
  {
    CommentIgnored(StampLabel + stamp);
    BlankIgnored();
    FoldTwoInert(env, Parsed(StampLines(stamp)));
  }

  lemma HeaderInert(env: map<string, string>, stamp: string)
    requires '\n' !in stamp
    ensures Fold(env, Parsed(HeaderLines(stamp))) == env
  {
    ParsedAppend(TitleLines(), StampLines(stamp));
    FoldAppend(env, Parsed(TitleLines()), Parsed(StampLines(stamp)));
    TitleInert(env);
    StampInert(env, stamp);
  }

  lemma BlankInert(env: map<string, string>)
    ensures Fold(env, Parsed([""])) == env
  {
    BlankIgnored();
    FoldInert(env, Parsed([""]));
  }

  /** Reading a written file gives, for every key, the value written for its
      last row, and nothing for any other key. */
  lemma ReadsBack(stamp: string, rows: seq<ConfigRow>, layout: Layout, k: string)
    requires '\n' !in stamp
    requires forall j :: 0 <= j < |rows| ==> Writable(rows[j], layout)
    ensures Lookup(ParseEnv(EnvText(stamp, rows, layout)), k) == Expected(rows, k, layout)
  {
    var h := HeaderLines(stamp);
    var b := BodyLines(rows, "", layout);
    EnvTextLines(stamp, rows, layout);
    ParsedAppend(h, b + [""]);
    ParsedAppend(b, [""]);
    FoldAppend(map[], Parsed(h), Parsed(b) + Parsed([""]));
    HeaderInert(map[], stamp);
    FoldAppend(map[], Parsed(b), Parsed([""]));
    BlankInert(Fold(map[], Parsed(b)));
    BodyReadsBack(map[], rows, "", layout, k);
  }

  lemma {:induction false} BodyNoNewline(rows: seq<ConfigRow>, current: string, layout: Layout)
    requires forall j :: 0 <= j < |rows| ==> Writable(rows[j], layout)
    decreases |rows|
    ensures SingleLines(BodyLines(rows, current, layout))
  {
    if rows != [] {
      var c := rows[0];
      assert Writable(c, layout);
      BodyNoNewline(rows[1..], c.category, layout);
    }
  }

  /** With each description on its own comment line, every row reads back as
      exactly the value stored in the database (`config_value || ''`). */
  lemma CorrectedRoundTrip(stamp: string, rows: seq<ConfigRow>, k: string)
    requires '\n' !in stamp
    requires forall j :: 0 <= j < |rows| ==> Writable(rows[j], Above)
    ensures Lookup(ParseEnv(EnvText(stamp, rows, Above)), k)
            == Expected(rows, k, Above)
    ensures forall j :: 0 <= j < |rows| ==> EmittedValue(rows[j], Above) == rows[j].value.GetOr("")
  {
    ReadsBack(stamp, rows, Above, k);
  }

  /** As written, a described row's description is read back as part of its
      value: importing the file the writer produced changes the value. */
  lemma InlineDescriptionLeaks(stamp: string, c: ConfigRow)
    requires '\n' !in stamp
    requires Writable(c, Inline) && TruthyStr(c.description)
    ensures Lookup(ParseEnv(EnvText(stamp, [c], Inline)), c.key)
            == Some(c.value.GetOr("") + " # " + c.description.value)
    ensures Lookup(ParseEnv(EnvText(stamp, [c], Inline)), c.key) != Some(c.value.GetOr(""))
  {
    ReadsBack(stamp, [c], Inline, c.key);
    assert |c.value.GetOr("") + " # " + c.description.value| > |c.value.GetOr("")|;
  }

  /** A concrete row that shows it: `PORT=3000 # 服务端口` reads back as
      `3000 # 服务端口`. */
  lemma InlineDescriptionExample()
    ensures Writable(ConfigRow("PORT", Some("3000"), "server", Some("服务端口")), Inline)
    ensures Lookup(ParseEnv(EnvText("", [ConfigRow("PORT", Some("3000"), "server", Some("服务端口"))], Inline)), "PORT")
            == Some("3000 # 服务端口")
  {
    var c := ConfigRow("PORT", Some("3000"), "server", Some("服务端口"));
    ExampleRowWritable(c);
    InlineDescriptionLeaks("", c);
  }

  lemma ExampleRowWritable(c: ConfigRow)
    requires c == ConfigRow("PORT", Some("3000"), "server", Some("服务端口"))
    ensures EmittedValue(c, Inline) == "3000 # 服务端口" && Writable(c, Inline)
  {
    assert EmittedValue(c, Inline) == "3000 # 服务端口";
    assert KeyOk(c.key);
    assert ValueOk(EmittedValue(c, Inline));
  }
}

=== FILE: env_service.dfy ===
/** The configuration service's pure parts: masking and classifying
    sensitive values, checking a submitted value against its configuration,
    and the bookkeeping of importing a `.env` file into the stored
    configurations. */
module EnvService {
  import opened Wrappers
  import opened Js
  import opened Strings
  import opened EnvFile

  // ---------------------------------------------------------------------
  // Masking and sensitive keys
  // ---------------------------------------------------------------------

  function Stars(n: nat): (r: string)
    ensures |r| == n && forall i :: 0 <= i < n ==> r[i] == '*'
  {
    seq(n, _ => '*')
  }

  const Masked := "***"

  /** `maskSensitiveValue`: short or missing values become `***`; longer
      ones keep three characters at each end and star the rest. */
  function MaskSensitiveValue(value: Option<string>): (r: string)
    ensures !TruthyStr(value) || |value.value| <= 6 ==> r == Masked
    ensures TruthyStr(value) && |value.value| > 6 ==>
              var v := value.value;
              |r| == |v| && r[..3] == v[..3] && r[|r| - 3..] == v[|v| - 3..]
              && forall i :: 3 <= i < |v| - 3 ==> r[i] == '*'
  {
    if !TruthyStr(value) || |value.value| <= 6 then Masked
    else
      var v := value.value;
      var r := v[..3] + Stars(|v| - 6) + v[|v| - 3..];
      assert r[..3] == v[..3];
      assert r[|r| - 3..] == v[|v| - 3..];
      r
  }

  /** Masking a masked value changes nothing more: no character beyond the
      three at each end is ever revealed again. */
  lemma MaskIdempotent(value: Option<string>)
    ensures MaskSensitiveValue(Some(MaskSensitiveValue(value))) == MaskSensitiveValue(value)
  {
    var m := MaskSensitiveValue(value);
    if TruthyStr(value) && |value.value| > 6 {
      var r := MaskSensitiveValue(Some(m));
      assert |r| == |m|;
      assert r[..3] == m[..3];
      assert r[|r| - 3..] == m[|m| - 3..];
      forall i | 0 <= i < |r|
        ensures r[i] == m[i]
      {
        if i < 3 {
          assert r[i] == r[..3][i];
        } else if i >= |r| - 3 {
          assert r[i] == r[|r| - 3..][i - (|r| - 3)];
        }
      }
    }
  }

  const SensitiveKeywords: seq<string> := ["PASSWORD", "SECRET", "KEY", "TOKEN", "API_KEY"]

  /** `isSensitiveKey`: the upper-cased key contains one of the keywords. */
  predicate IsSensitiveKey(key: string) {
    exists i :: 0 <= i < |SensitiveKeywords| && Contains(ToUpper(key), SensitiveKeywords[i])
  }

  /** `API_KEY` in the keyword list adds nothing: a key is sensitive exactly
      when it contains one of the four shorter keywords. */
  lemma SensitiveKeyIff(key: string)
    ensures IsSensitiveKey(key)
            <==> (Contains(ToUpper(key), "PASSWORD") || Contains(ToUpper(key), "SECRET")
                  || Contains(ToUpper(key), "KEY") || Contains(ToUpper(key), "TOKEN"))
  {
    var u := ToUpper(key);
    if Contains(u, "API_KEY") {
      assert "API_KEY"[4..4 + 3] == "KEY";
      ContainsInner(u, "API_KEY", "KEY", 4);
    }
    if Contains(u, "KEY") {
      assert Contains(u, SensitiveKeywords[2]);
    }
    if Contains(u, "PASSWORD") {
      assert Contains(u, SensitiveKeywords[0]);
    }
    if Contains(u, "SECRET") {
      assert Contains(u, SensitiveKeywords[1]);
    }
    if Contains(u, "TOKEN") {
      assert Contains(u, SensitiveKeywords[3]);
    }
  }

  // ---------------------------------------------------------------------
  // Validating a submitted value
  // ---------------------------------------------------------------------

  /** The `config_type` column. */
  datatype ConfigType = StringType | NumberType | BooleanType | JsonType | PasswordType

  /** The columns `validateConfigValue` reads. */
  datatype ConfigSpec = ConfigSpec(isRequired: bool, configType: ConfigType, validationRule: Option<string>)

  datatype Verdict = Accepted | Rejected(error: string)

  const ErrRequired := "该配置项为必需项，不能为空"
  const ErrNumber := "必须是有效的数字"
  const ErrBoolean := "必须是布尔值 (true/false)"
  const ErrJson := "必须是有效的JSON格式"
  const ErrFormat := "配置值格式不正确"
  const ErrCrashed := "验证过程中发生错误"

  /** The spellings a boolean configuration accepts, compared lower-cased. */
  predicate IsBooleanText(s: string) {
    ToLower(s) in {"true", "false", "1", "0"}
  }

  /** A value the required check lets through: truthy and, when a string,
      not blank. */
  predicate Present(value: Value) {
    Truthy(value) && (value.Str? ==> Trim(value.s) != "")
  }

  /** `validateConfigValue`. The number, JSON and regular-expression tests
      are library calls and arrive as inputs: `numeric` is whether
      `Number(value)` is a number, `json` whether `JSON.parse(value)`
      succeeds, and `ruleMatches` the result of testing the configured rule
      (`None` when the rule does not compile, which the code ignores). A
      truthy non-string value reaches `trim()` or `toLowerCase()` and the
      resulting exception is reported as a crash. */
  function ValidateConfigValue(config: ConfigSpec, value: Value, numeric: bool, json: bool,
                               ruleMatches: Option<bool>): (r: Verdict)
    ensures r == Rejected(ErrRequired) <==> config.isRequired && (!Truthy(value) || (value.Str? && Trim(value.s) == ""))
    ensures r == Rejected(ErrCrashed) ==> Truthy(value) && !value.Str?
    ensures r.Accepted? && config.isRequired ==> Present(value)
    ensures r.Accepted? && config.configType == BooleanType && Truthy(value) ==>
              value.Str? && IsBooleanText(value.s)
    ensures r == Rejected(ErrBoolean) ==> config.configType == BooleanType && value.Str? && !IsBooleanText(value.s)
    ensures r.Rejected? ==> r.error in {ErrRequired, ErrNumber, ErrBoolean, ErrJson, ErrFormat, ErrCrashed}
  {
    if config.isRequired && !Truthy(value) then Rejected(ErrRequired)
    else if config.isRequired && !value.Str? then Rejected(ErrCrashed)
    else if config.isRequired && Trim(value.s) == "" then Rejected(ErrRequired)
    else
      var typed :=
        match config.configType
        case NumberType => if Truthy(value) && !numeric then Rejected(ErrNumber) else Accepted
        case BooleanType =>
          if !Truthy(value) then Accepted
          else if !value.Str? then Rejected(ErrCrashed)
          else if !IsBooleanText(value.s) then Rejected(ErrBoolean)
          else Accepted
        case JsonType => if Truthy(value) && !json then Rejected(ErrJson) else Accepted
        case _ => Accepted;
      if typed.Rejected? then typed
      else if TruthyStr(config.validationRule) && Truthy(value) && ruleMatches == Some(false) then
        Rejected(ErrFormat)
      else Accepted
  }

  /** A boolean configuration accepts exactly its four spellings in any
      letter case, and rejects any other non-empty text. */
  lemma BooleanSpellings(required: bool, s: string, numeric: bool, json: bool)
    requires s != "" && Trim(s) != ""
    ensures var r := ValidateConfigValue(ConfigSpec(required, BooleanType, None), Str(s), numeric, json, None);
            (r == Accepted <==> IsBooleanText(s)) && (r != Accepted ==> r == Rejected(ErrBoolean))
  {
    assert Truthy(Str(s));
    assert ValidateConfigValue(ConfigSpec(required, BooleanType, None), Str(s), numeric, json, None)
        == if IsBooleanText(s) then Accepted else Rejected(ErrBoolean);
  }

  /** A required configuration rejects a value made of white space only. */
  lemma BlankRejected(type_: ConfigType, s: string, numeric: bool, json: bool, rule: Option<bool>)
    requires s != "" && forall i :: 0 <= i < |s| ==> IsSpace(s[i])
    ensures ValidateConfigValue(ConfigSpec(true, type_, None), Str(s), numeric, json, rule) == Rejected(ErrRequired)
  {
    TrimAllSpace(s);
  }

  lemma TrimAllSpace(s: string)
    requires forall i :: 0 <= i < |s| ==> IsSpace(s[i])
    ensures Trim(s) == ""
  {
    assert TrimStart(s) == [];
  }

  // ---------------------------------------------------------------------
  // Importing a `.env` file
  // ---------------------------------------------------------------------

  const ReasonUnchanged := "值未变更"
  const ReasonMissing := "配置项不存在"
  const ErrImport := "从.env文件导入配置失败: "

  /** One entry of `results`: updated, or skipped with a reason. */
  datatype ImportResult = ImportResult(key: string, updated: bool, reason: Option<string>)

  /** The state after importing some keys: the stored `config_value` per
      `config_key`, the results and the keys whose processing threw. */
  datatype ImportRun = ImportRun(stored: map<string, Option<string>>, results: seq<ImportResult>, errors: seq<string>)

  function CountUpdated(results: seq<ImportResult>): (n: nat)
    ensures n <= |results|
  {
    if results == [] then 0 else (if results[0].updated then 1 else 0) + CountUpdated(results[1..])
  }

  /** The value importing leaves for a stored key: the file's value when the
      key was imported without error and the stored value differed. */
  function Imported(k: string, keys: seq<string>, env: map<string, string>, stored: map<string, Option<string>>,
                    fails: set<string>): Option<string>
    requires k in stored
    requires forall j :: 0 <= j < |keys| ==> keys[j] in env
  {
    if k in keys && k !in fails then Some(env[k]) else stored[k]
  }

  /** One iteration of the loop: a key that threw is an error; otherwise a
      stored key whose value differs is updated, an equal one is skipped as
      unchanged, and an unknown one is skipped as missing. */
  function ImportOne(k: string, v: string, stored: map<string, Option<string>>, fails: set<string>): (r: ImportRun)
    ensures |r.results| + |r.errors| == 1
    ensures r.stored.Keys == stored.Keys
    ensures forall k' :: k' in stored ==> r.stored[k'] == if k' == k && k !in fails then Some(v) else stored[k']
    ensures forall i :: 0 <= i < |r.results| ==> r.results[i].key == k && k !in fails
    ensures forall i :: 0 <= i < |r.errors| ==> r.errors[i] == k && k in fails
    ensures |r.results| == 1 ==> (r.results[0].updated <==> k in stored && stored[k] != Some(v))
  {
    if k in fails then ImportRun(stored, [], [k])
    else if k in stored && stored[k] != Some(v) then
      ImportRun(stored[k := Some(v)], [ImportResult(k, true, None)], [])
    else if k in stored then ImportRun(stored, [ImportResult(k, false, Some(ReasonUnchanged))], [])
    else ImportRun(stored, [ImportResult(k, false, Some(ReasonMissing))], [])
  }

  /** The loop over the parsed variables, in the order given by `keys`.
      Keys in `fails` stand for a lookup or update that threw. */
  function ImportKeys(keys: seq<string>, env: map<string, string>, stored: map<string, Option<string>>,
                      fails: set<string>): (r: ImportRun)
    requires forall j :: 0 <= j < |keys| ==> keys[j] in env
    decreases |keys|
    ensures |r.results| + |r.errors| == |keys|
    ensures r.stored.Keys == stored.Keys
    ensures forall k :: k in stored ==> r.stored[k] == Imported(k, keys, env, stored, fails)
    ensures forall i :: 0 <= i < |r.results| ==> r.results[i].key in keys && r.results[i].key !in fails
    ensures forall i :: 0 <= i < |r.errors| ==> r.errors[i] in keys && r.errors[i] in fails
  {
    if keys == [] then ImportRun(stored, [], [])
    else
      var here := ImportOne(keys[0], env[keys[0]], stored, fails);
      assert forall j :: 1 <= j < |keys| ==> keys[j] == keys[1..][j - 1];
      var rest := ImportKeys(keys[1..], env, here.stored, fails);
      forall k | k in stored ensures rest.stored[k] == Imported(k, keys, env, stored, fails) {
        ImportedStep(keys, env, stored, fails, k);
      }
      ImportRun(rest.stored, here.results + rest.results, here.errors + rest.errors)
  }

  /** Importing the first key and then the others leaves each stored key
      where importing them all would. */
  lemma ImportedStep(keys: seq<string>, env: map<string, string>, stored: map<string, Option<string>>,
                     fails: set<string>, k: string)
    requires keys != [] && forall j :: 0 <= j < |keys| ==> keys[j] in env
    requires k in stored
    ensures var after := ImportOne(keys[0], env[keys[0]], stored, fails).stored;
            k in after && Imported(k, keys[1..], env, after, fails) == Imported(k, keys, env, stored, fails)
  {
    assert forall j :: 1 <= j < |keys| ==> keys[j] == keys[1..][j - 1];
    assert k in keys <==> k == keys[0] || k in keys[1..];
  }

  /** The report `importFromEnvFile` returns. */
  datatype ImportReport = ImportReport(success: nat, skipped: nat, failed: nat, run: ImportRun)

  predicate Distinct(keys: seq<string>) {
    forall i, j :: 0 <= i < j < |keys| ==> keys[i] != keys[j]
  }

  /** `importFromEnvFile`. `read` is the file read; `order` is the order in
      which `Object.entries` yields the parsed variables, every one once. */
  function ImportFromEnv(read: Result<string>, order: seq<string>, stored: map<string, Option<string>>,
                         fails: set<string>): (r: Result<ImportReport>)
    requires read.Ok? ==> Distinct(order) && forall k :: k in order <==> k in ParseEnv(read.value)
    ensures read.Err? <==> r.Err?
    ensures r.Err? ==> r.error == ErrImport + read.error
    ensures r.Ok? ==>
              r.value.success + r.value.skipped + r.value.failed == |ParseEnv(read.value)|
              && r.value.run.stored.Keys == stored.Keys
              && forall k :: k in stored ==>
                   r.value.run.stored[k]
                   == (if k in ParseEnv(read.value) && k !in fails then Some(ParseEnv(read.value)[k]) else stored[k])
  {
    match read
    case Err(e) => Err(ErrImport + e)
    case Ok(content) =>
      var env := ParseEnv(content);
      var run := ImportKeys(order, env, stored, fails);
      DistinctCard(order, env);
      var updated := CountUpdated(run.results);
      Ok(ImportReport(updated, |run.results| - updated, |run.errors|, run))
  }

  lemma TailDistinct(order: seq<string>)
    requires Distinct(order) && order != []
    ensures Distinct(order[1..])
  {
    var tail := order[1..];
    forall i, j | 0 <= i < j < |tail| ensures tail[i] != tail[j] {
      assert tail[i] == order[i + 1] && tail[j] == order[j + 1];
    }
  }

  lemma TailKeys(order: seq<string>, env: map<string, string>)
    requires Distinct(order) && order != [] && forall k :: k in order <==> k in env
    ensures forall k :: k in order[1..] <==> k in env - {order[0]}
  {
    var tail := order[1..];
    forall k ensures k in tail <==> k in env - {order[0]} {
      if k in tail {
        var j :| 0 <= j < |tail| && tail[j] == k;
        assert order[j + 1] == k;
      }
      if k in order && k != order[0] {
        var j :| 0 <= j < |order| && order[j] == k;
        assert tail[j - 1] == k;
      }
    }
  }

  /** An ordering that lists every key of `env` once has `|env|` entries. */
  lemma {:induction false} DistinctCard(order: seq<string>, env: map<string, string>)
    requires Distinct(order) && forall k :: k in order <==> k in env
    decreases |order|
    ensures |order| == |env|
  {
    if order == [] {
      assert env == map[];
    } else {
      var k := order[0];
      var rest := env - {k};
      TailDistinct(order);
      TailKeys(order, env);
      DistinctCard(order[1..], rest);
      assert env.Keys == rest.Keys + {k};
    }
  }
}

=== FILE: error_handler.dfy ===
/** Error classification (`utils/errorHandler.js`): the code table, the
    uniform error body, the mapping of provider failures onto it, the
    status-description table and the Express error middleware. The
    `timestamp` field of each body comes from the clock and is left out. */
module ErrorHandler {
  import opened Wrappers
  import opened Js
  import opened TaskStatus

  datatype ErrorInfo = ErrorInfo(status: int, message: string)

  /** `ERROR_CODES`. */
  const ErrorCodes: map<string, ErrorInfo> := map[
    "InvalidParameter" := ErrorInfo(400, "请求参数缺失或格式错误"),
    "InvalidURL" := ErrorInfo(400, "图片URL无效"),
    "InvalidPerson" := ErrorInfo(400, "模特图不合规，请确保输入图片中有且仅有一个完整的人"),
    "InvalidGarment" := ErrorInfo(400, "缺少服饰图片，请至少提供一张上装或下装的图片"),
    "InvalidInputLength" := ErrorInfo(400, "图片尺寸或文件大小不符合要求"),
    "InvalidApiKey" := ErrorInfo(401, "API密钥无效"),
    "RateLimitExceeded" := ErrorInfo(429, "请求频率超限"),
    "InternalError" := ErrorInfo(500, "服务器内部错误"),
    "APIError" := ErrorInfo(500, "调用AI试衣API失败"),
    "ConfigError" := ErrorInfo(500, "服务配置错误"),
    "Timeout" := ErrorInfo(408, "请求超时")
  ]

  /** Every table entry is an HTTP error status with a non-empty message. */
  lemma TableWellFormed(code: string)
    requires code in ErrorCodes
    ensures 400 <= ErrorCodes[code].status < 600 && ErrorCodes[code].message != ""
  {
  }

  /** The body every error path returns. `error` and `message` may carry
      whatever the provider sent, hence `Value`. */
  datatype ErrorResponse = ErrorResponse(success: bool, error: Value, message: Value, status: int)

  /** `formatErrorResponse`. An absent custom message is `Null`, the
      parameter's default. */
  function FormatErrorResponse(code: string, custom: Value): (r: ErrorResponse)
    ensures !r.success && r.error == Str(code)
    ensures code in ErrorCodes ==> r.status == ErrorCodes[code].status
    ensures code !in ErrorCodes ==> r.status == 500
    ensures Truthy(custom) ==> r.message == custom
    ensures !Truthy(custom) && code in ErrorCodes ==> r.message == Str(ErrorCodes[code].message)
    ensures !Truthy(custom) && code !in ErrorCodes ==> r.message == Str("服务器内部错误")
    ensures Truthy(r.message) && 400 <= r.status < 600
  {
    var info := if code in ErrorCodes then ErrorCodes[code] else ErrorCodes["InternalError"];
    TableWellFormed(if code in ErrorCodes then code else "InternalError");
    ErrorResponse(false, Str(code), Or(custom, Str(info.message)), info.status)
  }

  /** The fields of a provider error body that are read. */
  datatype ProviderBody = ProviderBody(code: Value, message: Value)

  /** An HTTP response attached to a failed request; `data` is `None` when
      the response had no body. */
  datatype HttpResponse = HttpResponse(status: int, data: Option<ProviderBody>)

  /** The parts of an axios error that are inspected. */
  datatype ProviderError = ProviderError(response: Option<HttpResponse>, code: Value, message: Value)

  predicate HasBody(e: ProviderError) {
    e.response.Some? && e.response.value.data.Some?
  }

  /** `handleDashscopeError`. */
  function HandleDashscopeError(e: ProviderError): (r: ErrorResponse)
    ensures !r.success && Truthy(r.error) && Truthy(r.message) && r.status != 0
    ensures HasBody(e) ==>
              var body := e.response.value.data.value;
              && r.error == (if Truthy(body.code) then body.code else Str("APIError"))
              && r.message == (if Truthy(body.message) then body.message else Str("调用AI试衣API失败"))
              && r.status == (if e.response.value.status != 0 then e.response.value.status else 500)
    ensures !HasBody(e) && e.code == Str("ECONNABORTED") ==>
              r.error == Str("Timeout") && r.status == 408
    ensures !HasBody(e) && (e.code == Str("ENOTFOUND") || e.code == Str("ECONNREFUSED")) ==>
              r.error == Str("APIError") && r.status == 500
              && r.message == Str("无法连接到AI试衣服务")
    ensures !HasBody(e) && e.code !in {Str("ECONNABORTED"), Str("ENOTFOUND"), Str("ECONNREFUSED")} ==>
              r.error == Str("InternalError") && r.status == 500
  {
    if HasBody(e) then
      var body := e.response.value.data.value;
      var status := e.response.value.status;
      ErrorResponse(false, Or(body.code, Str("APIError")),
                    Or(body.message, Str("调用AI试衣API失败")),
                    if status != 0 then status else 500)
    else if e.code == Str("ECONNABORTED") then
      FormatErrorResponse("Timeout", Str("请求超时，请稍后重试"))
    else if e.code == Str("ENOTFOUND") || e.code == Str("ECONNREFUSED") then
      FormatErrorResponse("APIError", Str("无法连接到AI试衣服务"))
    else
      FormatErrorResponse("InternalError", e.message)
  }

  /** A transport failure without a provider body is always reported under
      one of the table's own codes, with that code's status. */
  lemma TransportErrorUsesTable(e: ProviderError)
    requires !HasBody(e)
    ensures var r := HandleDashscopeError(e);
            r.error.Str? && r.error.s in ErrorCodes && r.status == ErrorCodes[r.error.s].status
            && r.error.s in {"Timeout", "APIError", "InternalError"}
  {
  }

  /** `TASK_STATUS_DESCRIPTIONS`. */
  function Describe(s: Status): string {
    match s
    case Pending => "排队中"
    case PreProcessing => "前置处理中"
    case Running => "处理中"
    case PostProcessing => "后置处理中"
    case Succeeded => "成功"
    case Failed => "失败"
    case Unknown => "作业不存在或状态未知"
    case Canceled => "任务取消成功"
  }

  /** `getTaskStatusDescription`: known statuses get their text, anything
      else is returned as given. */
  function StatusDescription(x: string): (r: string)
    ensures Parse(x).None? ==> r == x
    ensures Parse(x).Some? ==> r == Describe(Parse(x).value) && r != x
  {
    match Parse(x)
    case Some(s) => Describe(s)
    case None => x
  }

  /** Different statuses get different descriptions. */
  lemma DescribeInjective(s: Status, t: Status)
    requires s != t
    ensures Describe(s) != Describe(t)
  {
  }

  datatype SuccessResponse = SuccessResponse(success: bool, data: Value, message: Value)

  /** `createSuccessResponse`: the default message applies only when the
      argument is `undefined`. */
  function CreateSuccessResponse(data: Value, message: Value): (r: SuccessResponse)
    ensures r.success && r.data == data
    ensures message.Undefined? ==> r.message == Str("操作成功")
    ensures !message.Undefined? ==> r.message == message
  {
    SuccessResponse(true, data, if message.Undefined? then Str("操作成功") else message)
  }

  /** The thrown value as the middleware sees it. */
  datatype ThrownError = ThrownError(code: Value, message: Value)

  datatype MiddlewareOutcome =
    | Defer
    | Respond(httpStatus: int, body: ErrorResponse)

  predicate KnownCode(code: Value) {
    code.Str? && code.s in ErrorCodes
  }

  /** `errorMiddleware`: defers once headers are out, otherwise answers with
      the table entry of a known code or with InternalError. */
  function ErrorMiddleware(err: ThrownError, headersSent: bool): (r: MiddlewareOutcome)
    ensures headersSent <==> r.Defer?
    ensures r.Respond? ==> r.httpStatus == r.body.status && !r.body.success
    ensures r.Respond? && KnownCode(err.code) ==>
              r.body.error == err.code && r.httpStatus == ErrorCodes[err.code.s].status
    ensures r.Respond? && !KnownCode(err.code) ==>
              r.body.error == Str("InternalError") && r.httpStatus == 500
    ensures r.Respond? && Truthy(err.message) ==> r.body.message == err.message
  {
    if headersSent then Defer
    else
      var body := if KnownCode(err.code) then FormatErrorResponse(err.code.s, err.message)
                  else FormatErrorResponse("InternalError", err.message);
      Respond(body.status, body)
  }
}

=== FILE: image_proxy.dfy ===
/** The private-URL resolver (`utils/imageProxy.js`): the remote provider
    cannot reach the server's own uploads, so a local image URL is replaced
    by an inline `data:` URI (section 3 of RFC 2397) carrying the file's
    bytes in base64. The upload directory is a map from file name to bytes. */
module ImageProxy {
  import opened Wrappers
  import opened Js
  import opened Strings
  import opened Urls
  import opened Base64
  import Validator

  /** `isLocalUrl`: a substring test for loopback names and a prefix test
      for three private ranges, written for plain `http://` only. */
  predicate IsLocalUrl(v: Value) {
    v.Str? && v.s != "" &&
    (|| Contains(v.s, "localhost")
     || Contains(v.s, "127.0.0.1")
     || StartsWith(v.s, "http://192.168.")
     || StartsWith(v.s, "http://10.")
     || StartsWith(v.s, "http://172."))
  }

  /** Anything that is not a non-empty string is not local. */
  lemma NonStringNotLocal(v: Value)
    requires !v.Str? || v.s == ""
    ensures !IsLocalUrl(v)
  {
  }

  /** Every `http://172.` address counts as local, including public ones
      outside 172.16.0.0/12. */
  lemma Any172IsLocal(rest: string)
    ensures IsLocalUrl(Str("http://172." + rest))
  {
    StartsWithAppend("http://172.", rest);
  }

  /** The `https://` form of a private address is local only through the
      loopback substrings. */
  lemma HttpsPrivateNotLocal(rest: string)
    ensures IsLocalUrl(Str("https://" + rest)) <==>
              Contains("https://" + rest, "localhost") || Contains("https://" + rest, "127.0.0.1")
  {
    var s := "https://" + rest;
    assert s[4] == 's';
    assert !StartsWith(s, "http://192.168.") by { assert "http://192.168."[4] == ':'; }
    assert !StartsWith(s, "http://10.") by { assert "http://10."[4] == ':'; }
    assert !StartsWith(s, "http://172.") by { assert "http://172."[4] == ':'; }
  }

  const UploadsPrefix := "/uploads/"
  const UrlErrorPrefix := "无法解析URL: "

  /** The error `getLocalPathFromUrl` rethrows, with the cause's message. */
  function UrlError(detail: string): (r: Result<string>)
    ensures r.Err? && StartsWith(r.error, UrlErrorPrefix)
  {
    StartsWithAppend(UrlErrorPrefix, detail);
    Err(UrlErrorPrefix + detail)
  }

  /** `getLocalPathFromUrl`: the file name inside the uploads directory,
      taken as the last segment of a path under `/uploads/`. */
  function GetLocalPathFromUrl(url: string): (r: Result<string>)
    ensures r.Ok? <==> ParseUrl(url).Some? && StartsWith(ParseUrl(url).value.pathname, UploadsPrefix)
    ensures r.Ok? ==> r.value == Basename(ParseUrl(url).value.pathname) && '/' !in r.value
    ensures r.Err? ==> StartsWith(r.error, UrlErrorPrefix)
  {
    match ParseUrl(url)
    case None => UrlError("Invalid URL")
    case Some(u) =>
      if StartsWith(u.pathname, UploadsPrefix) then Ok(Basename(u.pathname))
      else UrlError("不支持的URL格式")
  }

  /** The MIME table of `imageToBase64`, keyed by lower-cased extension. */
  function ProxyMimeType(ext: string): (m: string)
    ensures m in {"image/jpeg", "image/png", "image/bmp", "image/webp"}
    ensures ';' !in m
  {
    if ext == ".jpg" || ext == ".jpeg" then "image/jpeg"
    else if ext == ".png" then "image/png"
    else if ext == ".bmp" then "image/bmp"
    else if ext == ".webp" then "image/webp"
    else "image/jpeg"
  }

  /** The MIME type `imageToBase64` uses for a file. */
  function MimeOfFile(path: string): string {
    ProxyMimeType(ToLower(Extname(path)))
  }

  /** A data URI with a base64 payload. */
  function DataUriOf(mime: string, payload: string): string {
    "data:" + mime + ";base64," + payload
  }

  /** `imageToBase64` once the file has been read. */
  function DataUri(path: string, bytes: seq<byte>): string {
    DataUriOf(MimeOfFile(path), Encode(bytes))
  }

  /** Reads a data URI back into its MIME type and bytes: the inverse used
      to state what the provider receives. */
  function ParseDataUri(s: string): Option<(string, seq<byte>)> {
    if !StartsWith(s, "data:") then None
    else
      var rest := s[5..];
      match IndexOf(rest, ";base64,")
      case None => None
      case Some(i) =>
        match Decode(rest[i + 8..])
        case None => None
        case Some(bytes) => Some((rest[..i], bytes))
  }

  lemma DataUriStartsWithData(mime: string, payload: string)
    ensures StartsWith(DataUriOf(mime, payload), "data:")
  {
    assert DataUriOf(mime, payload) == "data:" + (mime + ";base64," + payload);
    StartsWithAppend("data:", mime + ";base64," + payload);
  }

  /** Splitting a data URI gives back its MIME type and payload when the
      type has no `;`. */
  lemma DataUriSplit(mime: string, payload: string)
    requires ';' !in mime
    ensures var s := DataUriOf(mime, payload);
            StartsWith(s, "data:") && IndexOf(s[5..], ";base64,") == Some(|mime|)
            && s[5..][..|mime|] == mime && s[5..][|mime| + 8..] == payload
  {
    var s := DataUriOf(mime, payload);
    DataUriStartsWithData(mime, payload);
    assert s[5..] == mime + ";base64," + payload;
    IndexAfter(mime, ";base64,", payload);
    assert (mime + ";base64," + payload)[|mime| + 8..] == payload;
    assert (mime + ";base64," + payload)[..|mime|] == mime;
  }

  /** The data URI carries the file's MIME type and exactly its bytes. */
  lemma DataUriRoundTrip(path: string, bytes: seq<byte>)
    ensures ParseDataUri(DataUri(path, bytes)) == Some((MimeOfFile(path), bytes))
  {
    DataUriSplit(MimeOfFile(path), Encode(bytes));
    DecodeEncode(bytes);
  }

  /** `processImageUrl`: falsy and non-local values pass through; a local URL
      becomes a data URI or the failure is propagated. `files` is the uploads
      directory. */
  function ProcessImageUrl(v: Value, files: map<string, seq<byte>>): (r: Result<Value>)
    ensures !Truthy(v) || !IsLocalUrl(v) ==> r == Ok(v)
    ensures IsLocalUrl(v) && r.Ok? ==> r.value.Str? && StartsWith(r.value.s, "data:")
    ensures IsLocalUrl(v) ==>
              (r.Ok? <==> GetLocalPathFromUrl(v.s).Ok? && GetLocalPathFromUrl(v.s).value in files)
  {
    if !Truthy(v) then Ok(v)
    else if IsLocalUrl(v) then
      match GetLocalPathFromUrl(v.s)
      case Err(e) => Err(e)
      case Ok(name) =>
        if name in files then
          DataUriStartsWithData(MimeOfFile(name), Encode(files[name]));
          Ok(Str(DataUri(name, files[name])))
        else Err("无法读取图片文件: ENOENT: no such file or directory")
    else Ok(v)
  }

  lemma LowerData()
    ensures ToLower("data:") == "data:"
  {
  }

  /** A data URI is not an `http:`/`https:` URL. */
  lemma DataUriNotHttp(mime: string, payload: string)
    ensures !Validator.IsValidUrl(Str(DataUriOf(mime, payload)))
  {
    var s := DataUriOf(mime, payload);
    DataUriStartsWithData(mime, payload);
    assert "data" + ":" == "data:";
    if ParseUrl(s).Some? {
      ProtocolOfPrefix(s, "data");
      LowerData();
    }
  }

  lemma LocalResolves(v: Value, files: map<string, seq<byte>>, name: string)
    requires IsLocalUrl(v) && GetLocalPathFromUrl(v.s) == Ok(name) && name in files
    ensures ProcessImageUrl(v, files) == Ok(Str(DataUri(name, files[name])))
  {
  }

  /** A resolved local image is self-contained: it is no longer an
      `http:`/`https:` URL and it decodes to the file's bytes. */
  lemma ResolvedIsInline(v: Value, files: map<string, seq<byte>>)
    requires IsLocalUrl(v) && ProcessImageUrl(v, files).Ok?
    ensures !Validator.IsValidUrl(ProcessImageUrl(v, files).value)
    ensures var name := GetLocalPathFromUrl(v.s).value;
            ParseDataUri(ProcessImageUrl(v, files).value.s) == Some((MimeOfFile(name), files[name]))
  {
    var name := GetLocalPathFromUrl(v.s).value;
    LocalResolves(v, files, name);
    DataUriRoundTrip(name, files[name]);
    DataUriNotHttp(MimeOfFile(name), Encode(files[name]));
  }
}

=== FILE: image_service.dfy ===
/** Image records (`services/ImageService.js`). The `images` table is a
    sequence whose position `i` holds the row with primary key `i + 1`; the
    uploads directory is a map from file name to file size. */
module ImageService {
  import opened Wrappers
  import opened Js
  import opened Strings
  import opened Urls
  import ImageProxy

  /** The `image_type` enum. */
  datatype ImageType = Person | TopGarment | BottomGarment | ResultImage

  function ImageTypeName(t: ImageType): string {
    match t
    case Person => "person"
    case TopGarment => "top_garment"
    case BottomGarment => "bottom_garment"
    case ResultImage => "result"
  }

  datatype Image = Image(
    id: nat,
    userId: Option<int>,
    filename: string,
    originalName: Option<string>,
    filePath: string,
    fileUrl: Option<string>,
    fileSize: Option<nat>,
    mimeType: Option<string>,
    imageType: ImageType,
    uploadSource: string,
    status: int)

  /** Row `i` has primary key `i + 1`. */
  predicate Valid(images: seq<Image>) {
    forall i :: 0 <= i < |images| ==> images[i].id == i + 1
  }

  /** The fields `saveImage` takes; `None` is an absent property. */
  datatype ImageData = ImageData(
    userId: Option<int>,
    filename: Option<string>,
    originalName: Option<string>,
    filePath: Option<string>,
    fileUrl: Option<string>,
    fileSize: Option<nat>,
    mimeType: Option<string>,
    imageType: ImageType,
    uploadSource: Option<string>)

  const ErrSaveImage := "保存图片失败: "

  /** The text of the validation error for a missing NOT NULL column. */
  function NotNullViolation(column: string): string {
    "notNull Violation: Image." + column + " cannot be null"
  }

  /** `saveImage`: the new row copies the given columns, is active, and is
      from the mini program unless another source is named. `filename` and
      `file_path` are NOT NULL columns, so the insert fails without them,
      with one violation per missing column in column order. */
  function SaveImage(images: seq<Image>, data: ImageData): (r: Result<(seq<Image>, Image)>)
    requires Valid(images)
    ensures r.Err? <==> data.filename.None? || data.filePath.None?
    ensures data.filename.None? ==> StartsWith(r.error, ErrSaveImage + NotNullViolation("filename"))
    ensures data.filename.Some? && data.filePath.None? ==> r.error == ErrSaveImage + NotNullViolation("file_path")
    ensures r.Ok? ==>
              var (images', img) := r.value;
              && Valid(images') && images' == images + [img]
              && img.id == |images| + 1 && img.status == 1
              && Some(img.filename) == data.filename && Some(img.filePath) == data.filePath
              && img.userId == data.userId && img.originalName == data.originalName
              && img.fileUrl == data.fileUrl && img.fileSize == data.fileSize
              && img.mimeType == data.mimeType && img.imageType == data.imageType
              && img.uploadSource == (if data.uploadSource.Some? then data.uploadSource.value else "miniprogram")
  {
    if data.filename.None? && data.filePath.None? then
      Err(ErrSaveImage + NotNullViolation("filename") + ",\n" + NotNullViolation("file_path"))
    else if data.filename.None? then Err(ErrSaveImage + NotNullViolation("filename"))
    else if data.filePath.None? then Err(ErrSaveImage + NotNullViolation("file_path"))
    else
      var img := Image(|images| + 1, data.userId, data.filename.value, data.originalName, data.filePath.value,
                       data.fileUrl, data.fileSize, data.mimeType, data.imageType,
                       data.uploadSource.GetOr("miniprogram"), 1);
      Ok((images + [img], img))
  }

  /** `getImageById`: a soft-deleted row counts as missing. */
  function GetImageById(images: seq<Image>, id: int): (r: Result<Image>)
    requires Valid(images)
    ensures r.Ok? <==> 1 <= id <= |images| && images[id - 1].status != 0
    ensures r.Ok? ==> r.value.id == id && r.value == images[id - 1]
    ensures r.Err? ==> r.error == "获取图片失败: 图片不存在"
  {
    if 1 <= id <= |images| && images[id - 1].status != 0 then Ok(images[id - 1])
    else Err("获取图片失败: 图片不存在")
  }

  /** `getImageByFilename`: the first active row with that file name. */
  function GetImageByFilename(images: seq<Image>, filename: string): (r: Option<Image>)
    ensures r.Some? ==> r.value in images && r.value.filename == filename && r.value.status == 1
    ensures r.None? <==> forall i :: 0 <= i < |images| ==> !(images[i].filename == filename && images[i].status == 1)
  {
    if images == [] then None
    else if images[0].filename == filename && images[0].status == 1 then Some(images[0])
    else GetImageByFilename(images[1..], filename)
  }

  /** `deleteImage`: a soft delete that only clears `status`. */
  function DeleteImage(images: seq<Image>, id: int): (r: Result<seq<Image>>)
    requires Valid(images)
    ensures r.Ok? <==> 1 <= id <= |images|
    ensures r.Ok? ==> Valid(r.value) && |r.value| == |images|
                      && r.value[id - 1] == images[id - 1].(status := 0)
                      && forall i :: 0 <= i < |images| && i != id - 1 ==> r.value[i] == images[i]
    ensures r.Err? ==> r.error == "删除图片失败: 图片不存在"
  {
    if 1 <= id <= |images| then Ok(images[id - 1 := images[id - 1].(status := 0)])
    else Err("删除图片失败: 图片不存在")
  }

  /** A deleted image can no longer be fetched, but its row remains. */
  lemma DeletedIsMissing(images: seq<Image>, id: int)
    requires Valid(images) && 1 <= id <= |images|
    ensures var after := DeleteImage(images, id).value;
            GetImageById(after, id).Err? && |after| == |images| && after[id - 1].filename == images[id - 1].filename
  {
  }

  const UploadsMarker := "/uploads/"

  /** The text after the marker found at `i`, up to the next marker or the
      end: element 1 of `split('/uploads/')`. */
  function SegmentAfter(s: string, i: nat): (r: string)
    requires i + |UploadsMarker| <= |s|
    ensures OccursAt(s, r, i + |UploadsMarker|)
    ensures !Contains(r, UploadsMarker)
    ensures i + |UploadsMarker| + |r| == |s| || OccursAt(s, UploadsMarker, i + |UploadsMarker| + |r|)
  {
    var start := i + |UploadsMarker|;
    var rest := s[start..];
    match IndexOf(rest, UploadsMarker)
    case Some(j) =>
      assert rest[j..j + |UploadsMarker|] == s[start + j..start + j + |UploadsMarker|];
      assert s[start..start + j] == rest[..j];
      NoMarkerBefore(rest, j);
      rest[..j]
    case None =>
      assert s[start..start + |rest|] == rest;
      NoMarkerBefore(rest, |rest|);
      rest
  }

  /** A prefix that ends before the first marker contains none. */
  lemma NoMarkerBefore(s: string, j: nat)
    requires j <= |s|
    requires forall k :: 0 <= k < j ==> !OccursAt(s, UploadsMarker, k)
    ensures !Contains(s[..j], UploadsMarker)
  {
    forall k: nat | OccursAt(s[..j], UploadsMarker, k) ensures false {
      assert k + |UploadsMarker| <= j;
      assert s[..j][k..k + |UploadsMarker|] == s[k..k + |UploadsMarker|];
      assert OccursAt(s, UploadsMarker, k);
    }
  }

  /** `extractFilenameFromUrl`. A URL containing `/uploads/` yields the text
      between its first and second occurrence (or the end); any other URL
      yields the basename of its path; failures yield `None`. */
  function ExtractFilenameFromUrl(v: Value): (r: Option<string>)
    ensures !Truthy(v) || !v.Str? ==> r.None?
    ensures v.Str? && IndexOf(v.s, UploadsMarker).Some? ==>
              var i := IndexOf(v.s, UploadsMarker).value;
              && r.Some?
              && OccursAt(v.s, r.value, i + |UploadsMarker|)
              && !Contains(r.value, UploadsMarker)
              && (i + |UploadsMarker| + |r.value| == |v.s| || OccursAt(v.s, UploadsMarker, i + |UploadsMarker| + |r.value|))
    ensures v.Str? && IndexOf(v.s, UploadsMarker).None? ==>
              r == (if v.s != "" && ParseUrl(v.s).Some? then Some(Basename(ParseUrl(v.s).value.pathname)) else None)
  {
    if !Truthy(v) || !v.Str? then None
    else
      match IndexOf(v.s, UploadsMarker)
      case Some(i) => Some(SegmentAfter(v.s, i))
      case None =>
        match ParseUrl(v.s)
        case Some(u) => Some(Basename(u.pathname))
        case None => None
  }

  /** `getMimeTypeFromExtension`'s table, keyed by lower-cased extension. */
  function MimeOfExt(ext: string): (m: string)
    ensures m in {"image/jpeg", "image/png", "image/bmp", "image/webp", "image/heic"}
  {
    if ext == ".jpg" || ext == ".jpeg" then "image/jpeg"
    else if ext == ".png" then "image/png"
    else if ext == ".bmp" then "image/bmp"
    else if ext == ".webp" then "image/webp"
    else if ext == ".heic" then "image/heic"
    else "image/jpeg"
  }

  /** `getMimeTypeFromExtension`. */
  function MimeTypeFromExtension(filename: string): string {
    MimeOfExt(ToLower(Extname(filename)))
  }

  /** The two MIME tables of the code base agree on every extension except
      `.heic`, which only this table knows. */
  lemma MimeTablesAgree(ext: string)
    ensures ext != ".heic" ==> MimeOfExt(ext) == ImageProxy.ProxyMimeType(ext)
    ensures ext == ".heic" ==> MimeOfExt(ext) == "image/heic" && ImageProxy.ProxyMimeType(ext) == "image/jpeg"
  {
  }

  /** `findOrCreateImageFromUrl`: an active record with the extracted file
      name is reused; otherwise a record is created exactly for an uploads
      URL whose file exists, and there is none for any other URL. */
  function FindOrCreateImageFromUrl(images: seq<Image>, url: Value, imageType: ImageType,
                                    userId: Option<int>, uploads: map<string, nat>)
    : (r: (seq<Image>, Option<Image>))
    requires Valid(images)
    ensures Valid(r.0)
    ensures var name := ExtractFilenameFromUrl(url);
            name.None? || name.value == "" ==> r == (images, None)
    ensures var name := ExtractFilenameFromUrl(url);
            name.Some? && name.value != "" && GetImageByFilename(images, name.value).Some? ==>
              r == (images, GetImageByFilename(images, name.value))
    ensures r.0 != images ==>
              && url.Str? && Contains(url.s, UploadsMarker)
              && var name := ExtractFilenameFromUrl(url).value;
              && name in uploads
              && r.1.Some? && r.0 == images + [r.1.value]
              && r.1.value.filename == name && r.1.value.status == 1 && r.1.value.fileUrl == Some(url.s)
              && r.1.value.filePath == "uploads/" + name && r.1.value.userId == userId
              && r.1.value.imageType == imageType
              && r.1.value.fileSize == Some(uploads[name])
              && r.1.value.mimeType == Some(MimeTypeFromExtension(name))
    ensures var name := ExtractFilenameFromUrl(url);
            name.Some? && name.value != "" && GetImageByFilename(images, name.value).None? ==>
              (r.0 != images <==> url.Str? && Contains(url.s, UploadsMarker) && name.value in uploads)
              && (r.0 == images ==> r.1.None?)
  {
    match ExtractFilenameFromUrl(url)
    case None => (images, None)
    case Some(name) =>
      if name == "" then (images, None)
      else match GetImageByFilename(images, name)
        case Some(img) => (images, Some(img))
        case None =>
          if Contains(url.s, UploadsMarker) && name in uploads then
            match SaveImage(images, ImageData(
              userId, Some(name), Some(name), Some("uploads/" + name), Some(url.s), Some(uploads[name]),
              Some(MimeTypeFromExtension(name)), imageType, None))
            case Ok((images', img)) => (images', Some(img))
            case Err(_) => (images, None)
          else (images, None)
  }

  /** Only uploads URLs ever add a row. */
  lemma OnlyUploadsCreate(images: seq<Image>, url: Value, imageType: ImageType,
                          userId: Option<int>, uploads: map<string, nat>)
    requires Valid(images)
    requires !url.Str? || !Contains(url.s, UploadsMarker)
    ensures FindOrCreateImageFromUrl(images, url, imageType, userId, uploads).0 == images
  {
  }
}

=== FILE: init_env_configs.dfy ===
/** The initialisation script for the configuration table: it reads the
    current `.env` file and creates or refreshes one row per predefined
    configuration. */
module InitEnvConfigs {
  import opened Wrappers
  import opened Js
  import opened Strings
  import opened EnvFile
  import EnvService

  /** `readEnvFile`: the variables of the file, parsed by the same line rules
      as the configuration service; a file that cannot be read gives none. */
  function ReadEnvFile(read: Result<string>): (r: map<string, string>)
    ensures read.Err? ==> r == map[]
    ensures read.Ok? ==> forall k :: Lookup(r, k) == LastDefinition(Parsed(Split(read.value, '\n')), k)
  {
    match read
    case Err(_) => map[]
    case Ok(content) =>
      forall k ensures Lookup(ParseEnv(content), k) == LastDefinition(Parsed(Split(content, '\n')), k) {
        ParseEnvLastWins(content, k);
      }
      ParseEnv(content)
  }

  /** One entry of `predefinedConfigs`. */
  datatype ConfigDef = ConfigDef(key: string, configType: EnvService.ConfigType, category: string,
                                 description: string, isRequired: bool, isSensitive: bool,
                                 defaultValue: string, sortOrder: int)

  /** A stored `EnvConfig` row, keyed by `config_key` in the store. */
  datatype Config = Config(configType: EnvService.ConfigType, category: string, description: Option<string>,
                           isRequired: bool, isSensitive: bool, defaultValue: Option<string>,
                           sortOrder: int, isActive: bool, value: Option<string>, validationRule: Option<string>)

  /** `env[key] || default_value || ''`. */
  function CandidateValue(env: map<string, string>, def: ConfigDef): (r: string)
    ensures TruthyStr(Lookup(env, def.key)) ==> r == env[def.key]
    ensures !TruthyStr(Lookup(env, def.key)) && def.defaultValue != "" ==> r == def.defaultValue
    ensures !TruthyStr(Lookup(env, def.key)) && def.defaultValue == "" ==> r == ""
  {
    StrOr(OrElse(Lookup(env, def.key), Some(def.defaultValue)), "")
  }

  /** The row created for a missing configuration: the definition spread
      over the model's defaults, with the candidate value. */
  function Created(def: ConfigDef, value: string): Config {
    Config(def.configType, def.category, Some(def.description), def.isRequired, def.isSensitive,
           Some(def.defaultValue), def.sortOrder, true, Some(value), None)
  }

  /** The metadata refresh of an existing row: every column the definition
      carries is overwritten, the row is re-activated, and the value and the
      validation rule are kept. */
  function Refreshed(c: Config, def: ConfigDef): Config {
    c.(configType := def.configType, category := def.category, description := Some(def.description),
       isRequired := def.isRequired, isSensitive := def.isSensitive, defaultValue := Some(def.defaultValue),
       sortOrder := def.sortOrder, isActive := true)
  }

  /** Where processing one definition throws, if it does: at the lookup, at
      the first write (the metadata update or the create) or at the value
      update. */
  datatype Fault = NoFault | LookupFails | FirstWriteFails | ValueWriteFails

  datatype Outcome = CreatedRow | UpdatedRow | SkippedRow | Failed

  /** One iteration of the loop in `initEnvConfigs`. */
  function InitOne(store: map<string, Config>, def: ConfigDef, env: map<string, string>, fault: Fault)
    : (r: (map<string, Config>, Outcome))
    ensures r.0.Keys == store.Keys + (if r.1 == CreatedRow then {def.key} else {})
    ensures forall k :: k in store && k != def.key ==> r.0[k] == store[k]
    ensures r.1 == CreatedRow <==> def.key !in store && fault != LookupFails && fault != FirstWriteFails
    ensures r.1 == CreatedRow ==> r.0[def.key] == Created(def, CandidateValue(env, def))
    ensures def.key in store && r.1 != Failed ==>
              r.0[def.key] == Refreshed(store[def.key], def).(value := r.0[def.key].value)
    ensures r.1 == UpdatedRow <==>
              (def.key in store && fault == NoFault && CandidateValue(env, def) != ""
               && store[def.key].value != Some(CandidateValue(env, def)))
    ensures r.1 == UpdatedRow ==> r.0[def.key].value == Some(CandidateValue(env, def))
    ensures r.1 == SkippedRow ==> def.key in store && r.0[def.key] == Refreshed(store[def.key], def)
    ensures r.1 == Failed && fault != ValueWriteFails ==> r.0 == store
  {
    var value := CandidateValue(env, def);
    if fault == LookupFails then (store, Failed)
    else if def.key in store then
      if fault == FirstWriteFails then (store, Failed)
      else
        var refreshed := Refreshed(store[def.key], def);
        if value != "" && store[def.key].value != Some(value) then
          if fault == ValueWriteFails then (store[def.key := refreshed], Failed)
          else
            assert fault == NoFault;
            (store[def.key := refreshed.(value := Some(value))], UpdatedRow)
        else (store[def.key := refreshed], SkippedRow)
    else if fault == FirstWriteFails then (store, Failed)
    else (store[def.key := Created(def, value)], CreatedRow)
  }

  /** The three counters the script prints, and the number of failures it
      only logs. */
  datatype Counters = Counters(created: nat, updated: nat, skipped: nat, failed: nat)

  function Count(c: Counters, o: Outcome): Counters {
    match o
    case CreatedRow => c.(created := c.created + 1)
    case UpdatedRow => c.(updated := c.updated + 1)
    case SkippedRow => c.(skipped := c.skipped + 1)
    case Failed => c.(failed := c.failed + 1)
  }

  function Total(c: Counters): nat {
    c.created + c.updated + c.skipped + c.failed
  }

  /** `initEnvConfigs` over the definitions, with `faults` saying where each
      one's processing throws. Every definition lands in exactly one of
      created, updated, skipped or failed, so the counters grow by the number
      of definitions. */
  function InitAll(store: map<string, Config>, defs: seq<ConfigDef>, env: map<string, string>,
                   faults: string -> Fault, counters: Counters): (r: (map<string, Config>, Counters))
    decreases |defs|
    ensures Total(r.1) == Total(counters) + |defs|
  {
    if defs == [] then (store, counters)
    else
      var step := InitOne(store, defs[0], env, faults(defs[0].key));
      InitAll(step.0, defs[1..], env, faults, Count(counters, step.1))
  }

  /** Rows are only ever added, every added row is named by a definition,
      and rows no definition names are left alone. */
  lemma {:induction false} InitAllFrame(store: map<string, Config>, defs: seq<ConfigDef>, env: map<string, string>,
                                        faults: string -> Fault, counters: Counters)
    decreases |defs|
    ensures var r := InitAll(store, defs, env, faults, counters).0;
            && store.Keys <= r.Keys
            && (forall k :: k in r && k !in store ==> exists j :: 0 <= j < |defs| && defs[j].key == k)
            && (forall k :: k in store && (forall j :: 0 <= j < |defs| ==> defs[j].key != k) ==> r[k] == store[k])
  {
    if defs != [] {
      var step := InitOne(store, defs[0], env, faults(defs[0].key));
      InitAllFrame(step.0, defs[1..], env, faults, Count(counters, step.1));
      assert forall j :: 1 <= j < |defs| ==> defs[j] == defs[1..][j - 1];
    }
  }

  /** Without faults, running the script a second time on the same file
      creates nothing and updates nothing. */
  lemma SecondRunQuiet(store: map<string, Config>, def: ConfigDef, env: map<string, string>)
    ensures var once := InitOne(store, def, env, NoFault).0;
            InitOne(once, def, env, NoFault).1 == SkippedRow
  {
    var once := InitOne(store, def, env, NoFault).0;
    assert def.key in once;
    var v := CandidateValue(env, def);
    assert v != "" ==> once[def.key].value == Some(v);
  }
}

=== FILE: js.dfy ===
/** The few JavaScript value semantics the services rely on: a dynamically
    typed request field, its truthiness, and the `x || fallback` idiom. */
module Js {
  import opened Wrappers

  /** A JSON request field after body parsing. Numbers are the integral ones
      the services compare against; `Undefined` is a missing property. */
  datatype Value = Undefined | Null | Bool(b: bool) | Num(n: int) | Str(s: string)

  /** JavaScript truthiness: `false`, `0`, `""`, `null` and `undefined` are falsy. */
  predicate Truthy(v: Value) {
    match v
    case Undefined => false
    case Null => false
    case Bool(b) => b
    case Num(n) => n != 0
    case Str(s) => s != ""
  }

  /** `a || b` on dynamic values: the first operand when truthy, else the
      second. */
  function Or(a: Value, b: Value): (r: Value)
    ensures Truthy(a) ==> r == a
    ensures !Truthy(a) ==> r == b
  {
    if Truthy(a) then a else b
  }

  /** An optional string column or property: `None` stands for null or
      undefined; the empty string is present but falsy. */
  predicate TruthyStr(o: Option<string>) {
    o.Some? && o.value != ""
  }

  /** `o || null` on an optional string: the empty string collapses to null. */
  function OrNull(o: Option<string>): (r: Option<string>)
    ensures r.Some? <==> TruthyStr(o)
    ensures r.Some? ==> r == o
  {
    if TruthyStr(o) then o else None
  }

  /** `a || b` on optional strings. */
  function OrElse(a: Option<string>, b: Option<string>): (r: Option<string>)
    ensures TruthyStr(a) ==> r == a
    ensures !TruthyStr(a) ==> r == b
  {
    if TruthyStr(a) then a else b
  }

  /** `o || fallback` producing a plain string. */
  function StrOr(o: Option<string>, fallback: string): (r: string)
    ensures TruthyStr(o) ==> r == o.value
    ensures !TruthyStr(o) ==> r == fallback
  {
    if TruthyStr(o) then o.value else fallback
  }
}

=== FILE: pagination.dfy ===
/** The page arithmetic shared by the list endpoints: `offset =
    (page - 1) * limit` and `pages = Math.ceil(total / limit)`. */
module Pagination {
  import opened Wrappers

  function Offset(page: int, limit: int): int {
    (page - 1) * limit
  }

  /** `Math.ceil(total / limit)`. With a zero limit the division gives
      `NaN` or `Infinity` and a negative limit makes the query fail, so
      both are `None`. */
  function Pages(total: nat, limit: int): (r: Option<nat>)
    ensures r.Some? <==> limit > 0
    ensures r.Some? ==> (r.value - 1) * limit < total <= r.value * limit || (total == 0 && r.value == 0)
  {
    if limit <= 0 then None else Some((total + limit - 1) / limit)
  }

  /** The rows a `LIMIT limit OFFSET offset` query returns from the ordered
      rows; a negative offset or limit is rejected by the database. */
  function PageOf<T>(rows: seq<T>, page: int, limit: int): (r: Option<seq<T>>)
    ensures r.Some? <==> Offset(page, limit) >= 0 && limit >= 0
    ensures r.Some? ==> |r.value| <= limit
    ensures r.Some? ==> forall i :: 0 <= i < |r.value| ==>
              Offset(page, limit) + i < |rows| && r.value[i] == rows[Offset(page, limit) + i]
  {
    var off := Offset(page, limit);
    if off < 0 || limit < 0 then None
    else
      var lo := if off < |rows| then off else |rows|;
      var hi := if off + limit < |rows| then off + limit else |rows|;
      Some(rows[lo..hi])
  }

  /** Position `i` of a page holds the row `i` places after the page's
      offset, as long as that row exists. */
  lemma InPage<T>(rows: seq<T>, page: int, limit: int, i: nat)
    requires limit > 0 && Offset(page, limit) >= 0
    requires i < limit && Offset(page, limit) + i < |rows|
    ensures PageOf(rows, page, limit).Some?
    ensures i < |PageOf(rows, page, limit).value|
    ensures PageOf(rows, page, limit).value[i] == rows[Offset(page, limit) + i]
  {
  }

  /** Row `k` is on page `k / limit + 1`, which is within `pages`. */
  lemma RowOnPage<T>(rows: seq<T>, limit: int, k: nat)
    requires limit > 0 && k < |rows|
    ensures var p := k / limit + 1;
            && 1 <= p <= Pages(|rows|, limit).value
            && PageOf(rows, p, limit).Some?
            && k - Offset(p, limit) < |PageOf(rows, p, limit).value|
            && PageOf(rows, p, limit).value[k - Offset(p, limit)] == rows[k]
  {
    var p := k / limit + 1;
    PageWithinCount(|rows|, limit, k);
    OffsetOfRow(limit, k);
    InPage(rows, p, limit, k - Offset(p, limit));
  }

  lemma OffsetOfRow(limit: int, k: nat)
    requires limit > 0
    ensures 0 <= Offset(k / limit + 1, limit) <= k < Offset(k / limit + 1, limit) + limit
  {
    assert Offset(k / limit + 1, limit) == (k / limit) * limit;
  }

  /** No other page holds row `k`. */
  lemma RowOnOnlyOnePage(limit: int, k: nat, q: int)
    requires limit > 0
    requires Offset(q, limit) <= k < Offset(q, limit) + limit
    ensures q == k / limit + 1
  {
    DivUnique(k, limit, q - 1, k - Offset(q, limit));
  }

  /** The page of row `k` is at most the page count. */
  lemma PageWithinCount(total: nat, limit: int, k: nat)
    requires limit > 0 && k < total
    ensures k / limit + 1 <= Pages(total, limit).value
  {
    var p0 := k / limit;
    var r0 := k % limit;
    assert k + limit == (p0 + 1) * limit + r0;
    DivUnique(k + limit, limit, p0 + 1, r0);
    DivMono(k + limit, total + limit - 1, limit);
  }

  lemma MulMono(a: int, b: int, limit: int)
    requires a <= b && limit > 0
    ensures a * limit <= b * limit
  {
  }

  lemma DivMono(a: int, b: int, d: int)
    requires a <= b && d > 0
    ensures a / d <= b / d
  {
    var qa, qb := a / d, b / d;
    assert qa * d + a % d == a && qb * d + b % d == b;
    if qa > qb {
      MulMono(qb + 1, qa, d);
    }
  }

  /** Division by a positive divisor has one quotient and remainder. */
  lemma DivUnique(n: int, d: int, q: int, r: int)
    requires d > 0 && n == q * d + r && 0 <= r < d
    ensures n / d == q
  {
    var q0 := n / d;
    var r0 := n % d;
    assert n == q0 * d + r0 && 0 <= r0 < d;
    if q0 < q {
      MulMono(q0 + 1, q, d);
    } else if q < q0 {
      MulMono(q + 1, q0, d);
    }
  }
}

=== FILE: stats_service.dfy ===
/** Dashboard statistics (`services/StatsService.js`): the bucketing of the
    grouped status and mode counts, the stat-type check, and the summary of
    stored daily/weekly/monthly rows. Rates are floating point and left out. */
module StatsService {
  import opened Wrappers
  import opened Counting
  import opened TryonTask
  import TryonService
  import Pagination

  datatype StatusStats = StatusStats(pending: nat, processing: nat, succeeded: nat, failed: nat)

  /** The real-time status buckets. PENDING, SUCCEEDED and FAILED are
      assigned (the last row wins); the three processing statuses are added
      up; other statuses are ignored. */
  function RealtimeStatusStats(rows: seq<GroupCount>): (r: StatusStats)
    ensures r.processing == SumIn(rows, TryonService.ProcessingNames)
  {
    if rows == [] then StatusStats(0, 0, 0, 0)
    else
      var init := RealtimeStatusStats(rows[..|rows| - 1]);
      var row := rows[|rows| - 1];
      assert rows == rows[..|rows| - 1] + [row];
      SumInSnoc(rows[..|rows| - 1], row, TryonService.ProcessingNames);
      if row.key == "PENDING" then init.(pending := row.count)
      else if row.key in TryonService.ProcessingNames then init.(processing := init.processing + row.count)
      else if row.key == "SUCCEEDED" then init.(succeeded := row.count)
      else if row.key == "FAILED" then init.(failed := row.count)
      else init
  }

  lemma {:induction false} SumInSnoc(rows: seq<GroupCount>, row: GroupCount, keys: set<string>)
    ensures SumIn(rows + [row], keys) == SumIn(rows, keys) + (if row.key in keys then row.count else 0)
  {
    if rows == [] {
      assert [row][1..] == [];
    } else {
      assert (rows + [row])[1..] == rows[1..] + [row];
      SumInSnoc(rows[1..], row, keys);
    }
  }

  /** The keys of a grouped result are distinct. */
  predicate DistinctKeys(rows: seq<GroupCount>) {
    forall i, j :: 0 <= i < j < |rows| ==> rows[i].key != rows[j].key
  }

  /** With the distinct keys of a `GROUP BY`, the counts a key owns lie in its
      one row, so assigning equals adding. */
  lemma {:induction false} AssignIsSum(rows: seq<GroupCount>, key: string)
    requires DistinctKeys(rows)
    ensures SumIn(rows, {key}) == (if exists i :: 0 <= i < |rows| && rows[i].key == key
                                  then LastCount(rows, key) else 0)
  {
    if rows != [] {
      var last := rows[|rows| - 1];
      var init := rows[..|rows| - 1];
      assert rows == init + [last];
      SumInSnoc(init, last, {key});
      AssignIsSum(init, key);
      if last.key == key {
        forall i | 0 <= i < |init| ensures init[i].key != key {
          assert rows[i] == init[i];
        }
      } else {
        if exists i :: 0 <= i < |rows| && rows[i].key == key {
          var i :| 0 <= i < |rows| && rows[i].key == key;
          assert i < |init| && init[i].key == key;
        }
        if exists i :: 0 <= i < |init| && init[i].key == key {
          var i :| 0 <= i < |init| && init[i].key == key;
          assert rows[i].key == key;
        }
      }
    }
  }

  /** The count of the last row with this key. */
  function LastCount(rows: seq<GroupCount>, key: string): nat {
    if rows == [] then 0
    else if rows[|rows| - 1].key == key then rows[|rows| - 1].count
    else LastCount(rows[..|rows| - 1], key)
  }

  /** The assigned buckets hold the last count for their status. */
  lemma {:induction false} AssignedBuckets(rows: seq<GroupCount>)
    ensures var r := RealtimeStatusStats(rows);
            && r.pending == LastCount(rows, "PENDING")
            && r.succeeded == LastCount(rows, "SUCCEEDED")
            && r.failed == LastCount(rows, "FAILED")
  {
    if rows != [] {
      AssignedBuckets(rows[..|rows| - 1]);
    }
  }

  /** On a grouped result the real-time buckets equal the task statistics'
      buckets, although the code assigns where the task service adds. */
  lemma RealtimeMatchesTaskStats(rows: seq<GroupCount>)
    requires DistinctKeys(rows)
    ensures var r := RealtimeStatusStats(rows);
            var t := TryonService.GetTaskStats(rows);
            r == StatusStats(t.pending, t.processing, t.succeeded, t.failed)
  {
    AssignedBuckets(rows);
    AssignIsSum(rows, "PENDING");
    AssignIsSum(rows, "SUCCEEDED");
    AssignIsSum(rows, "FAILED");
    LastCountAbsent(rows, "PENDING");
    LastCountAbsent(rows, "SUCCEEDED");
    LastCountAbsent(rows, "FAILED");
  }

  lemma {:induction false} LastCountAbsent(rows: seq<GroupCount>, key: string)
    ensures !(exists i :: 0 <= i < |rows| && rows[i].key == key) ==> LastCount(rows, key) == 0
  {
    if rows != [] && !(exists i :: 0 <= i < |rows| && rows[i].key == key) {
      var init := rows[..|rows| - 1];
      assert !(exists i :: 0 <= i < |init| && init[i].key == key) by {
        forall i | 0 <= i < |init| ensures init[i].key != key {
          assert rows[i] == init[i];
        }
      }
      LastCountAbsent(init, key);
    }
  }

  const ModeNames: set<string> := {"top", "bottom", "outfit", "dress"}

  /** The keys the grouped rows carry. */
  function GroupKeys(rows: seq<GroupCount>): set<string> {
    set i | 0 <= i < |rows| :: rows[i].key
  }

  /** The mode counters: the four modes start at zero and each grouped row
      assigns its count under its mode. */
  function ModeStats(rows: seq<GroupCount>): (r: map<string, nat>)
    ensures r.Keys == ModeNames + GroupKeys(rows)
    ensures forall m :: m in r ==> r[m] == LastCount(rows, m)
  {
    if rows == [] then map["top" := 0, "bottom" := 0, "outfit" := 0, "dress" := 0]
    else
      var front := rows[..|rows| - 1];
      var init := ModeStats(front);
      var row := rows[|rows| - 1];
      KeysSnoc(rows);
      init[row.key := row.count]
  }

  lemma KeysSnoc(rows: seq<GroupCount>)
    requires rows != []
    ensures GroupKeys(rows) == GroupKeys(rows[..|rows| - 1]) + {rows[|rows| - 1].key}
  {
    var front := rows[..|rows| - 1];
    assert forall i :: 0 <= i < |front| ==> front[i] == rows[i];
  }

  /** Grouped over the mode enum, each mode counter is exactly that mode's
      count. */
  lemma ModeCounts(rows: seq<GroupCount>, m: TryonMode)
    requires DistinctKeys(rows)
    ensures ModeName(m) in ModeStats(rows)
    ensures ModeStats(rows)[ModeName(m)] == SumIn(rows, {ModeName(m)})
  {
    AssignIsSum(rows, ModeName(m));
    LastCountAbsent(rows, ModeName(m));
  }

  /** The `stat_type` enum. */
  datatype StatType = Daily | Weekly | Monthly

  function StatTypeName(t: StatType): string {
    match t
    case Daily => "daily"
    case Weekly => "weekly"
    case Monthly => "monthly"
  }

  /** The `switch (statType)` of `generateStats`: only the three enum
      values select a date range. */
  function CheckStatType(x: string): (r: Result<StatType>)
    ensures r.Ok? <==> x in {"daily", "weekly", "monthly"}
    ensures r.Ok? ==> StatTypeName(r.value) == x
    ensures r.Err? ==> r.error == "生成统计数据失败: 无效的统计类型"
  {
    if x == "daily" then Ok(Daily)
    else if x == "weekly" then Ok(Weekly)
    else if x == "monthly" then Ok(Monthly)
    else Err("生成统计数据失败: 无效的统计类型")
  }

  lemma StatTypeRoundTrip(t: StatType)
    ensures CheckStatType(StatTypeName(t)) == Ok(t)
  {
  }

  /** One stored row of `system_stats`; `statDate` is a day number. */
  datatype SystemStat = SystemStat(
    statDate: int, statType: StatType,
    newUsers: int, newTasks: int, completedTasks: int, failedTasks: int)

  datatype Summary = Summary(
    start: int, end: int, days: nat,
    newUsers: int, newTasks: int, completedTasks: int, failedTasks: int,
    newUsersPerDay: int, newTasksPerDay: int)

  function SumNewUsers(stats: seq<SystemStat>): int {
    if stats == [] then 0 else stats[0].newUsers + SumNewUsers(stats[1..])
  }

  function SumNewTasks(stats: seq<SystemStat>): int {
    if stats == [] then 0 else stats[0].newTasks + SumNewTasks(stats[1..])
  }

  function SumCompleted(stats: seq<SystemStat>): int {
    if stats == [] then 0 else stats[0].completedTasks + SumCompleted(stats[1..])
  }

  function SumFailed(stats: seq<SystemStat>): int {
    if stats == [] then 0 else stats[0].failedTasks + SumFailed(stats[1..])
  }

  /** `Math.round(a / n)`: the nearest integer, halves rounded up. */
  function RoundDiv(a: int, n: int): (r: int)
    requires n > 0
    ensures 2 * n * r - n <= 2 * a < 2 * n * r + n
  {
    (2 * a + n) / (2 * n)
  }

  /** `calculateStatsSummary`. */
  function CalculateStatsSummary(stats: seq<SystemStat>): (r: Option<Summary>)
    ensures r.None? <==> stats == []
    ensures r.Some? ==>
              && r.value.days == |stats|
              && r.value.start == stats[0].statDate && r.value.end == stats[|stats| - 1].statDate
              && r.value.newUsers == SumNewUsers(stats) && r.value.newTasks == SumNewTasks(stats)
              && r.value.completedTasks == SumCompleted(stats) && r.value.failedTasks == SumFailed(stats)
              && 2 * |stats| * r.value.newUsersPerDay - |stats| <= 2 * r.value.newUsers
              && 2 * r.value.newUsers < 2 * |stats| * r.value.newUsersPerDay + |stats|
              && 2 * |stats| * r.value.newTasksPerDay - |stats| <= 2 * r.value.newTasks
              && 2 * r.value.newTasks < 2 * |stats| * r.value.newTasksPerDay + |stats|
  {
    if stats == [] then None
    else
      var users := SumNewUsers(stats);
      var tasks := SumNewTasks(stats);
      Some(Summary(stats[0].statDate, stats[|stats| - 1].statDate, |stats|,
                   users, tasks, SumCompleted(stats), SumFailed(stats),
                   RoundDiv(users, |stats|), RoundDiv(tasks, |stats|)))
  }

  /** A per-day average is the exact quotient when the total divides evenly. */
  lemma RoundDivExact(q: int, n: int)
    requires n > 0
    ensures RoundDiv(q * n, n) == q
  {
    assert 2 * (q * n) + n == q * (2 * n) + n;
    Pagination.DivUnique(2 * (q * n) + n, 2 * n, q, n);
  }

  function Reverse<T>(s: seq<T>): (r: seq<T>)
    ensures |r| == |s|
    ensures forall i :: 0 <= i < |s| ==> r[i] == s[|s| - 1 - i]
  {
    if s == [] then [] else Reverse(s[1..]) + [s[0]]
  }

  datatype HistoryStats = HistoryStats(stats: seq<SystemStat>, summary: Option<Summary>)

  /** `getHistoryStats` on the rows in the query's order (newest first):
      keeps the first `limit`, returns them oldest first, and summarises the
      returned order. */
  function GetHistoryStats(newestFirst: seq<SystemStat>, limit: nat): (r: HistoryStats)
    ensures var fetched := if limit < |newestFirst| then newestFirst[..limit] else newestFirst;
            && |r.stats| == |fetched|
            && (forall i :: 0 <= i < |fetched| ==> r.stats[i] == fetched[|fetched| - 1 - i])
            && r.summary == CalculateStatsSummary(r.stats)
  {
    var fetched := if limit < |newestFirst| then newestFirst[..limit] else newestFirst;
    var oldestFirst := Reverse(fetched);
    HistoryStats(oldestFirst, CalculateStatsSummary(oldestFirst))
  }

  predicate Descending(s: seq<SystemStat>) {
    forall i, j :: 0 <= i < j < |s| ==> s[i].statDate > s[j].statDate
  }

  /** Rows fetched newest first come back oldest first, so the summary's
      period runs forward from its start to its end. */
  lemma HistoryAscending(newestFirst: seq<SystemStat>, limit: nat)
    requires Descending(newestFirst)
    ensures var r := GetHistoryStats(newestFirst, limit);
            && (forall i, j :: 0 <= i < j < |r.stats| ==> r.stats[i].statDate < r.stats[j].statDate)
            && (r.summary.Some? ==> r.summary.value.start <= r.summary.value.end)
  {
    var r := GetHistoryStats(newestFirst, limit);
    var fetched := if limit < |newestFirst| then newestFirst[..limit] else newestFirst;
    forall i, j | 0 <= i < j < |r.stats| ensures r.stats[i].statDate < r.stats[j].statDate {
      assert r.stats[i] == fetched[|fetched| - 1 - i] && r.stats[j] == fetched[|fetched| - 1 - j];
      assert fetched[|fetched| - 1 - j] == newestFirst[|fetched| - 1 - j];
      assert fetched[|fetched| - 1 - i] == newestFirst[|fetched| - 1 - i];
    }
    if |r.stats| > 1 {
      assert r.stats[0].statDate < r.stats[|r.stats| - 1].statDate;
    }
  }
}

=== FILE: status.dfy ===
/** The provider's task-status vocabulary. The database column is free
    text, so records keep the raw string and this closed enum is what the
    known strings parse to. */
module TaskStatus {
  import opened Wrappers

  datatype Status =
    | Pending | PreProcessing | Running | PostProcessing
    | Succeeded | Failed | Unknown | Canceled

  function Name(s: Status): string {
    match s
    case Pending => "PENDING"
    case PreProcessing => "PRE-PROCESSING"
    case Running => "RUNNING"
    case PostProcessing => "POST-PROCESSING"
    case Succeeded => "SUCCEEDED"
    case Failed => "FAILED"
    case Unknown => "UNKNOWN"
    case Canceled => "CANCELED"
  }

  function Parse(x: string): (r: Option<Status>) {
    if x == "PENDING" then Some(Pending)
    else if x == "PRE-PROCESSING" then Some(PreProcessing)
    else if x == "RUNNING" then Some(Running)
    else if x == "POST-PROCESSING" then Some(PostProcessing)
    else if x == "SUCCEEDED" then Some(Succeeded)
    else if x == "FAILED" then Some(Failed)
    else if x == "UNKNOWN" then Some(Unknown)
    else if x == "CANCELED" then Some(Canceled)
    else None
  }

  /** Every status parses back from its name. */
  lemma ParseName(s: Status)
    ensures Parse(Name(s)) == Some(s)
  {
  }

  /** A string parses only when it is exactly a status name. */
  lemma NameParse(x: string)
    ensures Parse(x).Some? ==> Name(Parse(x).value) == x
    ensures Parse(x).None? ==> forall s: Status :: Name(s) != x
  {
  }

  /** The provider's final states. */
  predicate IsTerminal(s: Status) {
    s == Succeeded || s == Failed
  }

  /** The four states in which the provider is still working on a task. */
  predicate InProgress(s: Status) {
    s == Pending || s == PreProcessing || s == Running || s == PostProcessing
  }

  /** The three states counted as "processing" in the statistics. */
  predicate IsProcessing(s: Status) {
    s == PreProcessing || s == Running || s == PostProcessing
  }

  /** The statuses fall into three disjoint groups: in progress, terminal,
      and the two (UNKNOWN, CANCELED) that are neither. */
  lemma StatusGroups(s: Status)
    ensures !(InProgress(s) && IsTerminal(s))
    ensures !InProgress(s) && !IsTerminal(s) <==> s == Unknown || s == Canceled
    ensures IsProcessing(s) <==> InProgress(s) && s != Pending
  {
  }
}

=== FILE: strings.dfy ===
/** String primitives the JavaScript code uses through `String.prototype`:
    `startsWith`, `includes`, `indexOf`, `toLowerCase`, `toUpperCase`,
    `trim`, `split` on one character and `join`. Case mapping is ASCII-only;
    white space is ASCII plus the no-break space and the byte-order mark. */
module Strings {
  import opened Wrappers

  predicate StartsWith(s: string, p: string) {
    |p| <= |s| && s[..|p|] == p
  }

  predicate EndsWith(s: string, p: string) {
    |p| <= |s| && s[|s| - |p|..] == p
  }

  /** `p` occurs in `s` starting at index `i`. */
  predicate OccursAt(s: string, p: string, i: nat) {
    i + |p| <= |s| && s[i..i + |p|] == p
  }

  /** Index of the first occurrence of `p` in `s` at or after `from`. */
  function IndexFrom(s: string, p: string, from: nat): (r: Option<nat>)
    decreases |s| - from
    ensures r.Some? ==> from <= r.value && OccursAt(s, p, r.value)
    ensures r.Some? ==> forall j :: from <= j < r.value ==> !OccursAt(s, p, j)
    ensures r.None? ==> forall j :: from <= j ==> !OccursAt(s, p, j)
  {
    if from + |p| > |s| then None
    else if s[from..from + |p|] == p then Some(from)
    else IndexFrom(s, p, from + 1)
  }

  /** `s.indexOf(p)`, with -1 as `None`. */
  function IndexOf(s: string, p: string): (r: Option<nat>)
    ensures r.Some? ==> OccursAt(s, p, r.value)
    ensures r.Some? ==> forall j :: 0 <= j < r.value ==> !OccursAt(s, p, j)
    ensures r.None? ==> forall j :: !OccursAt(s, p, j)
  {
    IndexFrom(s, p, 0)
  }

  /** `s.includes(p)`. */
  predicate Contains(s: string, p: string) {
    IndexOf(s, p).Some?
  }

  lemma ContainsAt(s: string, p: string, i: nat)
    requires OccursAt(s, p, i)
    ensures Contains(s, p)
  {
  }

  /** A needle contained in a longer needle is found wherever the longer one is. */
  lemma ContainsInner(s: string, p: string, q: string, k: nat)
    requires OccursAt(p, q, k)
    requires Contains(s, p)
    ensures Contains(s, q)
  {
    var i := IndexOf(s, p).value;
    assert s[i + k..i + k + |q|] == p[k..k + |q|];
    ContainsAt(s, q, i + k);
  }

  /** A pattern whose first character does not occur in `a` is first
      found right after `a`. */
  lemma IndexAfter(a: string, p: string, b: string)
    requires |p| > 0 && p[0] !in a
    ensures IndexOf(a + p + b, p) == Some(|a|)
  {
    var s := a + p + b;
    assert OccursAt(s, p, |a|) by { assert s[|a|..|a| + |p|] == p; }
    forall j | 0 <= j < |a| ensures !OccursAt(s, p, j) {
      assert s[j] == a[j];
    }
  }

  lemma StartsWithContains(s: string, p: string)
    requires StartsWith(s, p)
    ensures Contains(s, p)
  {
    ContainsAt(s, p, 0);
  }

  lemma StartsWithAppend(p: string, rest: string)
    ensures StartsWith(p + rest, p)
  {
    assert (p + rest)[..|p|] == p;
  }

  function LowerChar(c: char): char {
    if 'A' <= c <= 'Z' then (c as int + 32) as char else c
  }

  function UpperChar(c: char): char {
    if 'a' <= c <= 'z' then (c as int - 32) as char else c
  }

  /** `s.toLowerCase()` on ASCII letters. */
  function ToLower(s: string): (r: string)
    ensures |r| == |s|
    ensures forall i :: 0 <= i < |s| ==> r[i] == LowerChar(s[i])
  {
    seq(|s|, i requires 0 <= i < |s| => LowerChar(s[i]))
  }

  /** `s.toUpperCase()` on ASCII letters. */
  function ToUpper(s: string): (r: string)
    ensures |r| == |s|
    ensures forall i :: 0 <= i < |s| ==> r[i] == UpperChar(s[i])
  {
    seq(|s|, i requires 0 <= i < |s| => UpperChar(s[i]))
  }

  /** The white space `String.prototype.trim` removes, restricted to ASCII
      plus the no-break space and the byte-order mark. */
  predicate IsSpace(c: char) {
    c == ' ' || c == '\t' || c == '\n' || c == '\r' || c == '\U{000B}' || c == '\U{000C}'
    || c == '\U{00A0}' || c == '\U{FEFF}'
  }

  function TrimStart(s: string): (r: string)
    ensures |r| <= |s| && r == s[|s| - |r|..]
    ensures forall i :: 0 <= i < |s| - |r| ==> IsSpace(s[i])
    ensures r == [] || !IsSpace(r[0])
  {
    if |s| > 0 && IsSpace(s[0]) then TrimStart(s[1..]) else s
  }

  function TrimEnd(s: string): (r: string)
    ensures |r| <= |s| && r == s[..|r|]
    ensures forall i :: |r| <= i < |s| ==> IsSpace(s[i])
    ensures r == [] || !IsSpace(r[|r| - 1])
  {
    if |s| > 0 && IsSpace(s[|s| - 1]) then TrimEnd(s[..|s| - 1]) else s
  }

  /** `s.trim()`. */
  function Trim(s: string): (r: string)
    ensures |r| <= |s|
    ensures r == [] || (!IsSpace(r[0]) && !IsSpace(r[|r| - 1]))
  {
    TrimEnd(TrimStart(s))
  }

  /** `r` occurs in `s` at `a` with only white space before and after it. */
  predicate Framed(s: string, r: string, a: nat) {
    OccursAt(s, r, a)
    && (forall i :: 0 <= i < a ==> IsSpace(s[i]))
    && (forall i :: a + |r| <= i < |s| ==> IsSpace(s[i]))
  }

  /** The trimmed string is `s` with only white space cut off either side. */
  lemma TrimFrames(s: string)
    ensures exists a: nat :: Framed(s, Trim(s), a)
  {
    var t := TrimStart(s);
    var r := TrimEnd(t);
    var a := |s| - |t|;
    assert t == s[a..];
    assert r == t[..|r|];
    assert s[a..a + |r|] == r;
    forall i | a + |r| <= i < |s| ensures IsSpace(s[i]) {
      assert s[i] == t[i - a];
    }
    assert r == Trim(s);
    assert Framed(s, Trim(s), a);
  }

  /** Trimming a string with no white space at either end leaves it alone. */
  lemma TrimNoop(s: string)
    requires s == [] || (!IsSpace(s[0]) && !IsSpace(s[|s| - 1]))
    ensures Trim(s) == s
  {
  }

  /** A character is absent exactly when it occurs at no index. */
  lemma CharAbsent(s: string, c: char)
    ensures c !in s <==> forall j :: !OccursAt(s, [c], j)
  {
    forall j: nat | j < |s|
      ensures OccursAt(s, [c], j) <==> s[j] == c
    {
      assert s[j..j + 1] == [s[j]];
    }
  }

  /** `s.split(c)` for a one-character separator. */
  function Split(s: string, c: char): (r: seq<string>)
    decreases |s|
    ensures |r| >= 1
    ensures forall k :: 0 <= k < |r| ==> c !in r[k]
  {
    match IndexOf(s, [c])
    case None =>
      CharAbsent(s, c);
      [s]
    case Some(i) =>
      forall j: nat | j < i ensures s[..i][j] != c {
        assert !OccursAt(s, [c], j);
        assert s[j..j + 1] == [s[j]];
      }
      [s[..i]] + Split(s[i + 1..], c)
  }

  /** `xs.join(c)`; joining the empty array gives the empty string. */
  function Join(xs: seq<string>, c: char): string
  {
    if |xs| == 0 then ""
    else if |xs| == 1 then xs[0]
    else xs[0] + [c] + Join(xs[1..], c)
  }

  lemma {:induction false} JoinSplit(s: string, c: char)
    ensures Join(Split(s, c), c) == s
    decreases |s|
  {
    match IndexOf(s, [c])
    case None =>
    case Some(i) =>
      var rest := Split(s[i + 1..], c);
      assert Split(s, c) == [s[..i]] + rest;
      assert ([s[..i]] + rest)[1..] == rest;
      JoinSplit(s[i + 1..], c);
      assert s[i..i + 1] == [c];
      assert s == s[..i] + [c] + s[i + 1..];
  }

  lemma {:induction false} SplitJoin(xs: seq<string>, c: char)
    requires |xs| >= 1
    requires forall k :: 0 <= k < |xs| ==> c !in xs[k]
    ensures Split(Join(xs, c), c) == xs
    decreases |xs|
  {
    if |xs| == 1 {
      CharAbsent(xs[0], c);
    } else {
      var s := Join(xs, c);
      var h := xs[0];
      assert s == h + [c] + Join(xs[1..], c);
      IndexAfter(h, [c], Join(xs[1..], c));
      assert s[..|h|] == h;
      assert s[|h| + 1..] == Join(xs[1..], c);
      SplitJoin(xs[1..], c);
    }
  }
}

=== FILE: tryon_service.dfy ===
/** Task persistence rules (`services/TryonService.js`) over the task table.
    "now" is a parameter. Image-record lookups go through `lookup`, which
    stands for `ImageService.findOrCreateImageFromUrl`: `Err` is a thrown
    error, `Ok(None)` no record. */
module TryonService {
  import opened Wrappers
  import opened Js
  import opened TaskStatus
  import opened TryonTask
  import opened Counting
  import opened Strings

  type ImageLookup = (string, string) -> Result<Option<nat>>

  /** `findImageIdFromUrl`: no lookup for an absent or empty URL, and a
      failed lookup is swallowed as null. */
  function FindImageId(url: Option<string>, kind: string, lookup: ImageLookup): (r: Option<nat>)
    ensures !TruthyStr(url) ==> r.None?
    ensures r.Some? <==> TruthyStr(url) && lookup(url.value, kind).Ok? && lookup(url.value, kind).value.Some?
    ensures r.Some? ==> lookup(url.value, kind) == Ok(r)
  {
    if !TruthyStr(url) then None
    else match lookup(url.value, kind)
      case Err(_) => None
      case Ok(found) => found
  }

  /** The object the route hands to `createTask`. `None` in `resolution` or
      `restoreFace` is an absent property. */
  datatype TaskData = TaskData(
    taskId: string,
    userId: Option<int>,
    personImageUrl: Option<string>,
    topGarmentUrl: Option<string>,
    bottomGarmentUrl: Option<string>,
    mode: TryonMode,
    resolution: Option<int>,
    restoreFace: Option<bool>,
    requestId: Option<string>)

  /** `createTask`: inserts a PENDING row submitted at `now`. A second row
      with the same `task_id` violates the unique index. */
  function CreateTask(st: Store, data: TaskData, now: int, lookup: ImageLookup): (r: Result<(Store, Task)>)
    ensures r.Err? <==> data.taskId in st.rows
    ensures r.Err? ==> StartsWith(r.error, "创建试衣任务失败: ")
    ensures r.Ok? ==>
              var (st', t) := r.value;
              && st'.rows == st.rows[data.taskId := t] && st'.nextId == st.nextId + 1
              && t.id == st.nextId && t.taskId == data.taskId && t.userId == data.userId
              && Parse(t.status) == Some(Pending) && t.submitTime == Some(now)
              && t.startTime.None? && t.endTime.None? && t.mode == data.mode
              && t.resolution == (if data.resolution.Some? then data.resolution.value else -1)
              && t.restoreFace == (data.restoreFace.None? || data.restoreFace.value)
              && t.personImageUrl == data.personImageUrl
              && t.topGarmentUrl == data.topGarmentUrl && t.bottomGarmentUrl == data.bottomGarmentUrl
              && t.personImageId == FindImageId(data.personImageUrl, "person", lookup)
              && t.topGarmentImageId == FindImageId(data.topGarmentUrl, "top_garment", lookup)
              && t.bottomGarmentImageId == FindImageId(data.bottomGarmentUrl, "bottom_garment", lookup)
              && t.requestId == data.requestId
              && t.imageCount == 0 && t.statusDescription.None? && t.scheduledTime.None?
              && t.resultImageUrl.None? && t.resultImageId.None?
              && t.errorCode.None? && t.errorMessage.None?
  {
    if data.taskId in st.rows then Err("创建试衣任务失败: Validation error")
    else
      var t := NewRow(st.nextId, data.taskId, data.mode).(
        userId := data.userId,
        personImageId := FindImageId(data.personImageUrl, "person", lookup),
        personImageUrl := data.personImageUrl,
        topGarmentImageId := FindImageId(data.topGarmentUrl, "top_garment", lookup),
        topGarmentUrl := data.topGarmentUrl,
        bottomGarmentImageId := FindImageId(data.bottomGarmentUrl, "bottom_garment", lookup),
        bottomGarmentUrl := data.bottomGarmentUrl,
        resolution := data.resolution.GetOr(DefaultResolution),
        restoreFace := data.restoreFace.GetOr(DefaultRestoreFace),
        submitTime := Some(now),
        requestId := data.requestId);
      Ok((Store(st.rows[data.taskId := t], st.nextId + 1), t))
  }

  /** Creating a task keeps the table well-formed and `task_id` unique. */
  lemma CreatePreservesValid(st: Store, data: TaskData, now: int, lookup: ImageLookup)
    requires Valid(st)
    requires CreateTask(st, data, now, lookup).Ok?
    ensures Valid(CreateTask(st, data, now, lookup).value.0)
  {
    var st' := CreateTask(st, data, now, lookup).value.0;
    forall k1, k2 | k1 in st'.rows && k2 in st'.rows && k1 != k2
      ensures st'.rows[k1].id != st'.rows[k2].id
    {
      if k1 != data.taskId && k2 != data.taskId {
        assert st'.rows[k1] == st.rows[k1] && st'.rows[k2] == st.rows[k2];
      }
    }
  }

  /** One optional field of an update object: `Keep` when the key is absent,
      `Set(v)` when present (`v` may itself be null). */
  datatype Patch<T> = Keep | Set(value: T)

  function Apply<T>(p: Patch<T>, current: T): T {
    match p
    case Keep => current
    case Set(v) => v
  }

  /** The update object passed to `updateTaskStatus`. */
  datatype UpdateData = UpdateData(
    status: Patch<string>,
    statusDescription: Patch<Option<string>>,
    submitTime: Patch<Option<int>>,
    scheduledTime: Patch<Option<int>>,
    startTime: Patch<Option<int>>,
    endTime: Patch<Option<int>>,
    resultImageUrl: Patch<Option<string>>,
    resultImageId: Patch<Option<nat>>,
    imageCount: Patch<int>,
    errorCode: Patch<Option<string>>,
    errorMessage: Patch<Option<string>>)

  /** The record `createHistoryRecord` inserts into `user_tryon_history`. */
  datatype History = History(
    userId: Option<int>,
    taskRowId: nat,
    mode: TryonMode,
    personImageUrl: Option<string>,
    garmentImageUrl: Option<string>,
    resultImageUrl: Option<string>,
    isSuccessful: bool,
    processingTime: Option<int>)

  /** `createHistoryRecord`: the top garment wins over the bottom one, and
      the processing time is the whole seconds (rounded down) between
      submission and completion when both are known. */
  function CreateHistoryRecord(t: Task): (h: History)
    ensures h.taskRowId == t.id && h.userId == t.userId && h.mode == t.mode
    ensures h.personImageUrl == t.personImageUrl && h.resultImageUrl == t.resultImageUrl
    ensures h.garmentImageUrl == (if TruthyStr(t.topGarmentUrl) then t.topGarmentUrl else t.bottomGarmentUrl)
    ensures h.isSuccessful <==> Parse(t.status) == Some(Succeeded)
    ensures h.processingTime.Some? <==> t.submitTime.Some? && t.endTime.Some?
    ensures h.processingTime.Some? ==>
              var d := t.endTime.value - t.submitTime.value;
              h.processingTime.value * 1000 <= d < h.processingTime.value * 1000 + 1000
  {
    var processing :=
      if t.submitTime.Some? && t.endTime.Some? then Some((t.endTime.value - t.submitTime.value) / 1000)
      else None;
    var garment := OrElse(t.topGarmentUrl, t.bottomGarmentUrl);
    var garment' := if TruthyStr(t.topGarmentUrl) && TruthyStr(t.bottomGarmentUrl) then t.topGarmentUrl else garment;
    History(t.userId, t.id, t.mode, t.personImageUrl, garment', t.resultImageUrl,
            t.status == "SUCCEEDED", processing)
  }

  const ErrTaskMissing := "更新任务状态失败: 任务不存在"

  /** The row after the update object has been written, before the clock
      and image-lookup adjustments. */
  function Patched(t: Task, upd: UpdateData): Task {
    t.(status := Apply(upd.status, t.status),
       statusDescription := Apply(upd.statusDescription, t.statusDescription),
       submitTime := Apply(upd.submitTime, t.submitTime),
       scheduledTime := Apply(upd.scheduledTime, t.scheduledTime),
       startTime := Apply(upd.startTime, t.startTime),
       endTime := Apply(upd.endTime, t.endTime),
       resultImageUrl := Apply(upd.resultImageUrl, t.resultImageUrl),
       resultImageId := Apply(upd.resultImageId, t.resultImageId),
       imageCount := Apply(upd.imageCount, t.imageCount),
       errorCode := Apply(upd.errorCode, t.errorCode),
       errorMessage := Apply(upd.errorMessage, t.errorMessage))
  }

  datatype UpdateOutcome = UpdateOutcome(store: Store, task: Task, history: Option<History>)

  function UpdatedTime(p: Patch<Option<int>>, current: Option<int>, stamped: bool, now: int): Option<int> {
    if stamped then Some(now) else Apply(p, current)
  }

  /** `updateTaskStatus`: writes every supplied field as given, stamps
      `start_time` on RUNNING and `end_time` on SUCCEEDED/FAILED, links the
      result image when one is found, and records history on SUCCEEDED.
      Nothing guards a finished task against a later update. */
  function UpdateTaskStatus(st: Store, taskId: string, upd: UpdateData, now: int, lookup: ImageLookup)
    : (r: Result<UpdateOutcome>)
    ensures r.Err? <==> taskId !in st.rows
    ensures r.Err? ==> r.error == ErrTaskMissing
    ensures r.Ok? ==>
              var t := st.rows[taskId];
              var t' := r.value.task;
              && r.value.store == Store(st.rows[taskId := t'], st.nextId)
              && t'.id == t.id && t'.taskId == t.taskId && t'.userId == t.userId && t'.mode == t.mode
              && t'.status == Apply(upd.status, t.status)
              && t'.imageCount == Apply(upd.imageCount, t.imageCount)
              && t'.errorCode == Apply(upd.errorCode, t.errorCode)
              && t'.errorMessage == Apply(upd.errorMessage, t.errorMessage)
              && t'.resultImageUrl == Apply(upd.resultImageUrl, t.resultImageUrl)
              && (upd.status == Set("RUNNING") ==> t'.startTime == Some(now))
              && (upd.status != Set("RUNNING") ==> t'.startTime == Apply(upd.startTime, t.startTime))
              && (upd.status in {Set("SUCCEEDED"), Set("FAILED")} ==> t'.endTime == Some(now))
              && (upd.status !in {Set("SUCCEEDED"), Set("FAILED")} ==> t'.endTime == Apply(upd.endTime, t.endTime))
              && (r.value.history.Some? <==> upd.status == Set("SUCCEEDED"))
              && (r.value.history.Some? ==> r.value.history == Some(CreateHistoryRecord(t')))
    ensures r.Ok? ==>
              var t := st.rows[taskId];
              var t' := r.value.task;
              t' == Patched(t, upd).(startTime := t'.startTime, endTime := t'.endTime,
                                     resultImageId := t'.resultImageId)
    ensures r.Ok? ==>
              var t := st.rows[taskId];
              var found := if upd.resultImageUrl.Set? then FindImageId(upd.resultImageUrl.value, "result", lookup) else None;
              r.value.task.resultImageId
              == (if found.Some? && found.value != 0 then found else Apply(upd.resultImageId, t.resultImageId))
  {
    if taskId !in st.rows then Err(ErrTaskMissing)
    else
      var t := st.rows[taskId];
      var p := Patched(t, upd);
      var running := upd.status.Set? && upd.status.value == "RUNNING";
      var finished := upd.status.Set? && (upd.status.value == "SUCCEEDED" || upd.status.value == "FAILED");
      var resultId :=
        if upd.resultImageUrl.Set? then FindImageId(upd.resultImageUrl.value, "result", lookup) else None;
      var t' := p.(startTime := UpdatedTime(upd.startTime, t.startTime, running, now),
                   endTime := UpdatedTime(upd.endTime, t.endTime, finished, now),
                   resultImageId := if resultId.Some? && resultId.value != 0 then resultId else p.resultImageId);
      var history := if upd.status == Set("SUCCEEDED") then Some(CreateHistoryRecord(t')) else None;
      Ok(UpdateOutcome(Store(st.rows[taskId := t'], st.nextId), t', history))
  }

  /** A SUCCEEDED report always records history, and the record is the
      finished task's: successful, with its mode, its images and a
      processing time whenever its submission time is known. */
  lemma SucceededRecordsHistory(st: Store, taskId: string, upd: UpdateData, now: int, lookup: ImageLookup)
    requires taskId in st.rows && upd.status == Set("SUCCEEDED")
    ensures var r := UpdateTaskStatus(st, taskId, upd, now, lookup);
            && r.Ok? && r.value.history.Some?
            && var h := r.value.history.value;
               var t := st.rows[taskId];
               && h.isSuccessful && h.mode == t.mode && h.taskRowId == t.id && h.userId == t.userId
               && h.personImageUrl == t.personImageUrl
               && h.resultImageUrl == Apply(upd.resultImageUrl, t.resultImageUrl)
               && (h.processingTime.Some? <==> Apply(upd.submitTime, t.submitTime).Some?)
  {
    assert Parse("SUCCEEDED") == Some(Succeeded);
  }

  /** An update keeps the table well-formed. */
  lemma UpdatePreservesValid(st: Store, taskId: string, upd: UpdateData, now: int, lookup: ImageLookup)
    requires Valid(st)
    requires UpdateTaskStatus(st, taskId, upd, now, lookup).Ok?
    ensures Valid(UpdateTaskStatus(st, taskId, upd, now, lookup).value.store)
  {
    var st' := UpdateTaskStatus(st, taskId, upd, now, lookup).value.store;
    forall k1, k2 | k1 in st'.rows && k2 in st'.rows && k1 != k2
      ensures st'.rows[k1].id != st'.rows[k2].id
    {
      assert st'.rows[k1].id == st.rows[k1].id && st'.rows[k2].id == st.rows[k2].id;
    }
  }

  /** No terminal-state guard: a finished task can be moved back to RUNNING,
      and every RUNNING report stamps a new `start_time`, replacing the one
      written before. */
  lemma RunningAfterFinishRestamps(st: Store, taskId: string, upd: UpdateData,
                                   now1: int, now2: int, lookup: ImageLookup)
    requires taskId in st.rows && Parse(st.rows[taskId].status) == Some(Succeeded)
    requires upd.status == Set("RUNNING")
    ensures var r1 := UpdateTaskStatus(st, taskId, upd, now1, lookup);
            && r1.Ok? && r1.value.task.status == "RUNNING"
            && var r2 := UpdateTaskStatus(r1.value.store, taskId, upd, now2, lookup);
            && r2.Ok? && r2.value.task.startTime == Some(now2)
            && r2.value.task.endTime == Apply(upd.endTime, r1.value.task.endTime)
  {
    var r1 := UpdateTaskStatus(st, taskId, upd, now1, lookup);
    assert taskId in r1.value.store.rows;
  }

  /** `getTaskStats`' buckets. */
  datatype TaskStats = TaskStats(total: nat, pending: nat, processing: nat, succeeded: nat, failed: nat)

  const ProcessingNames: set<string> := {"PRE-PROCESSING", "RUNNING", "POST-PROCESSING"}
  const KnownSix: set<string> := {"PENDING", "SUCCEEDED", "FAILED"} + ProcessingNames

  /** `getTaskStats` over the grouped rows: every count goes to total, and
      the switch adds it to at most one bucket. */
  function GetTaskStats(rows: seq<GroupCount>): (r: TaskStats)
    ensures r.total == SumAll(rows)
    ensures r.pending == SumIn(rows, {"PENDING"})
    ensures r.processing == SumIn(rows, ProcessingNames)
    ensures r.succeeded == SumIn(rows, {"SUCCEEDED"})
    ensures r.failed == SumIn(rows, {"FAILED"})
  {
    if rows == [] then TaskStats(0, 0, 0, 0, 0)
    else
      var s := GetTaskStats(rows[1..]);
      var row := rows[0];
      var s' := s.(total := s.total + row.count);
      if row.key == "PENDING" then s'.(pending := s'.pending + row.count)
      else if row.key in ProcessingNames then s'.(processing := s'.processing + row.count)
      else if row.key == "SUCCEEDED" then s'.(succeeded := s'.succeeded + row.count)
      else if row.key == "FAILED" then s'.(failed := s'.failed + row.count)
      else s'
  }

  /** The total is the sum of the buckets plus whatever has a status outside
      the six known ones, which reaches no bucket. */
  lemma TaskStatsTotal(rows: seq<GroupCount>)
    ensures var r := GetTaskStats(rows);
            r.total == r.pending + r.processing + r.succeeded + r.failed + SumOutside(rows, KnownSix)
  {
    SumSplit(rows, KnownSix);
    SumUnion(rows, {"PENDING"}, ProcessingNames);
    SumUnion(rows, {"PENDING"} + ProcessingNames, {"SUCCEEDED"});
    SumUnion(rows, {"PENDING"} + ProcessingNames + {"SUCCEEDED"}, {"FAILED"});
    assert KnownSix == {"PENDING"} + ProcessingNames + {"SUCCEEDED"} + {"FAILED"};
  }

  predicate Owned(st: Store, id: string, userId: Option<int>) {
    id in st.rows && st.rows[id].userId == userId
  }

  /** `deleteTask`: removes one row the user owns. */
  function DeleteTask(st: Store, taskId: string, userId: Option<int>): (r: Result<Store>)
    ensures r.Ok? <==> Owned(st, taskId, userId)
    ensures r.Ok? ==> r.value.rows.Keys == st.rows.Keys - {taskId}
                      && forall k :: k in r.value.rows ==> r.value.rows[k] == st.rows[k]
    ensures r.Err? ==> r.error == "删除任务失败: 任务不存在或无权限删除"
  {
    if !Owned(st, taskId, userId) then Err("删除任务失败: 任务不存在或无权限删除")
    else Ok(st.(rows := st.rows - {taskId}))
  }

  /** The requested ids the user does not own, in request order. */
  function NotFoundIds(st: Store, ids: seq<string>, userId: Option<int>): (r: seq<string>)
    ensures |r| <= |ids|
    ensures forall x :: x in r <==> x in ids && !Owned(st, x, userId)
  {
    if ids == [] then []
    else (if Owned(st, ids[0], userId) then [] else [ids[0]]) + NotFoundIds(st, ids[1..], userId)
  }

  datatype DeleteSummary = DeleteSummary(deleted: nat, notFound: nat, notFoundTaskIds: seq<string>)

  /** `deleteTasks`: `None` stands for a value that is not an array. */
  function DeleteTasks(st: Store, ids: Option<seq<string>>, userId: Option<int>): (r: Result<(Store, DeleteSummary)>)
    ensures r.Err? <==> ids.None? || ids.value == []
    ensures r.Err? ==> r.error == "批量删除任务失败: 任务ID列表不能为空"
    ensures r.Ok? ==>
              var (st', sum) := r.value;
              && (forall k :: k in st'.rows <==> k in st.rows && !(k in ids.value && Owned(st, k, userId)))
              && (forall k :: k in st'.rows ==> st'.rows[k] == st.rows[k])
              && sum.deleted + |st'.rows.Keys| == |st.rows.Keys|
              && sum.notFoundTaskIds == NotFoundIds(st, ids.value, userId)
              && sum.notFound == |sum.notFoundTaskIds|
  {
    if ids.None? || ids.value == [] then Err("批量删除任务失败: 任务ID列表不能为空")
    else
      var gone := set k | k in st.rows && k in ids.value && st.rows[k].userId == userId;
      var kept := map k | k in st.rows && k !in gone :: st.rows[k];
      assert kept.Keys == st.rows.Keys - gone;
      var missing := NotFoundIds(st, ids.value, userId);
      Ok((st.(rows := kept), DeleteSummary(|gone|, |missing|, missing)))
  }

  /** Every requested id is either deleted or reported as not found, never
      both, and nothing outside the request is touched. */
  lemma DeletePartition(st: Store, ids: seq<string>, userId: Option<int>, x: string)
    requires ids != []
    ensures var (st', sum) := DeleteTasks(st, Some(ids), userId).value;
            && (x in ids ==> (x in sum.notFoundTaskIds <==> !Owned(st, x, userId)))
            && (x in ids && x !in sum.notFoundTaskIds ==> x in st.rows && x !in st'.rows)
            && (x !in ids && x in st.rows ==> x in st'.rows && st'.rows[x] == st.rows[x])
  {
  }
}

=== FILE: tryon_task.dfy ===
/** The try-on task record (`models/TryonTask.js`) and the table that holds
    it. Times are milliseconds since the epoch; `None` is a null column. */
module TryonTask {
  import opened Wrappers
  import opened TaskStatus

  /** The `tryon_mode` enum. */
  datatype TryonMode = Top | Bottom | Outfit | Dress

  function ModeName(m: TryonMode): string {
    match m
    case Top => "top"
    case Bottom => "bottom"
    case Outfit => "outfit"
    case Dress => "dress"
  }

  function ParseMode(x: string): Option<TryonMode> {
    if x == "top" then Some(Top)
    else if x == "bottom" then Some(Bottom)
    else if x == "outfit" then Some(Outfit)
    else if x == "dress" then Some(Dress)
    else None
  }

  /** The enum column accepts exactly the four mode names. */
  lemma ModeRoundTrip(m: TryonMode, x: string)
    ensures ParseMode(ModeName(m)) == Some(m)
    ensures ParseMode(x).Some? ==> ModeName(ParseMode(x).value) == x
  {
  }

  /** One row of `tryon_tasks`. `status` is the raw `task_status` text. */
  datatype Task = Task(
    id: nat,
    taskId: string,
    userId: Option<int>,
    personImageId: Option<nat>,
    personImageUrl: Option<string>,
    topGarmentImageId: Option<nat>,
    topGarmentUrl: Option<string>,
    bottomGarmentImageId: Option<nat>,
    bottomGarmentUrl: Option<string>,
    mode: TryonMode,
    resolution: int,
    restoreFace: bool,
    status: string,
    statusDescription: Option<string>,
    submitTime: Option<int>,
    scheduledTime: Option<int>,
    startTime: Option<int>,
    endTime: Option<int>,
    resultImageUrl: Option<string>,
    resultImageId: Option<nat>,
    imageCount: int,
    requestId: Option<string>,
    errorCode: Option<string>,
    errorMessage: Option<string>)

  const DefaultResolution := -1
  const DefaultRestoreFace := true
  const DefaultImageCount := 0
  const DefaultStatus := "PENDING"

  /** A row as the table's column defaults create it: only the mandatory
      columns are given, every optional column is null. */
  function NewRow(id: nat, taskId: string, mode: TryonMode): (t: Task)
    ensures t.taskId == taskId && t.mode == mode && t.id == id
    ensures t.resolution == -1 && t.restoreFace && t.imageCount == 0
    ensures Parse(t.status) == Some(Pending)
    ensures t.submitTime.None? && t.startTime.None? && t.endTime.None?
    ensures t.resultImageUrl.None? && t.errorCode.None? && t.errorMessage.None?
    ensures t.userId.None? && t.statusDescription.None? && t.scheduledTime.None?
    ensures t.personImageId.None? && t.personImageUrl.None?
    ensures t.topGarmentImageId.None? && t.topGarmentUrl.None?
    ensures t.bottomGarmentImageId.None? && t.bottomGarmentUrl.None?
    ensures t.resultImageId.None? && t.requestId.None?
  {
    Task(id, taskId, None, None, None, None, None, None, None, mode,
         DefaultResolution, DefaultRestoreFace, DefaultStatus, None,
         None, None, None, None, None, None, DefaultImageCount, None, None, None)
  }

  /** The table: rows keyed by their unique `task_id`, and the next value
      of the auto-increment primary key. */
  datatype Store = Store(rows: map<string, Task>, nextId: nat)

  /** Every row sits under its own `task_id` and has a primary key already
      handed out; primary keys are distinct. */
  predicate Valid(st: Store) {
    && (forall k :: k in st.rows ==> st.rows[k].taskId == k && st.rows[k].id < st.nextId)
    && (forall k1, k2 :: k1 in st.rows && k2 in st.rows && k1 != k2 ==> st.rows[k1].id != st.rows[k2].id)
  }

  const EmptyStore := Store(map[], 1)

  lemma EmptyStoreValid()
    ensures Valid(EmptyStore)
  {
  }
}

=== FILE: urls.dfy ===
/** The slice of WHATWG URL parsing and Node's `path.posix` helpers the
    services use: a scheme/authority/path splitter standing in for
    `new URL(...)`, and `path.basename` / `path.extname`. */
module Urls {
  import opened Wrappers
  import opened Strings

  /** What the services read from a parsed URL. */
  datatype Url = Url(protocol: string, authority: string, pathname: string)

  predicate IsAlpha(c: char) {
    ('a' <= c <= 'z') || ('A' <= c <= 'Z')
  }

  predicate IsSchemeChar(c: char) {
    IsAlpha(c) || ('0' <= c <= '9') || c == '+' || c == '-' || c == '.'
  }

  /** A scheme is a letter followed by letters, digits, `+`, `-` or `.`. */
  predicate ValidScheme(s: string) {
    |s| > 0 && IsAlpha(s[0]) && forall i :: 0 <= i < |s| ==> IsSchemeChar(s[i])
  }

  /** Length of the longest prefix of `s` free of characters in `stops`. */
  function SpanUntil(s: string, stops: set<char>): (n: nat)
    ensures n <= |s|
    ensures forall i :: 0 <= i < n ==> s[i] !in stops
    ensures n < |s| ==> s[n] in stops
  {
    if |s| == 0 || s[0] in stops then 0 else 1 + SpanUntil(s[1..], stops)
  }

  predicate IsHttpProtocol(protocol: string) {
    protocol == "http:" || protocol == "https:"
  }

  /** The part of `new URL(...)` after the scheme: the authority, when `//`
      introduces one, and the path up to any query or fragment. An
      `http`/`https` URL needs a non-empty authority, and its empty path
      reads as `/`. */
  function ParseAfterScheme(protocol: string, rest: string): (r: Option<Url>)
    ensures r.Some? ==> r.value.protocol == protocol
    ensures r.Some? && IsHttpProtocol(protocol) ==>
              r.value.authority != "" && StartsWith(r.value.pathname, "/")
  {
    var hasAuthority := StartsWith(rest, "//");
    var afterSlashes := if hasAuthority then rest[2..] else rest;
    var a := if hasAuthority then SpanUntil(afterSlashes, {'/', '?', '#'}) else 0;
    var authority := afterSlashes[..a];
    var tail := afterSlashes[a..];
    var path := tail[..SpanUntil(tail, {'?', '#'})];
    if IsHttpProtocol(protocol) && (!hasAuthority || authority == "") then None
    else
      assert IsHttpProtocol(protocol) ==> path == "" || path[0] == '/';
      Some(Url(protocol, authority, if IsHttpProtocol(protocol) && path == "" then "/" else path))
  }

  /** `new URL(s)`, abstracted: `None` is the thrown `TypeError`. The scheme,
      everything before the first colon, is lower-cased into `protocol`. */
  function ParseUrl(s: string): (r: Option<Url>)
    ensures r.Some? ==> EndsWith(r.value.protocol, ":")
    ensures r.Some? ==> |r.value.protocol| <= |s| && ToLower(s[..|r.value.protocol|]) == r.value.protocol
    ensures r.Some? ==> s[|r.value.protocol| - 1] == ':' && ':' !in s[..|r.value.protocol| - 1]
    ensures r.Some? && IsHttpProtocol(r.value.protocol) ==>
              r.value.authority != "" && StartsWith(r.value.pathname, "/")
  {
    match IndexOf(s, ":")
    case None => None
    case Some(i) =>
      if !ValidScheme(s[..i]) then None
      else
        var protocol := ToLower(s[..i]) + ":";
        assert s[..i + 1] == s[..i] + ":";
        assert ToLower(s[..i + 1]) == protocol;
        CharAbsent(s[..i], ':');
        ParseAfterScheme(protocol, s[i + 1..])
  }

  /** The first colon of `scheme + ":" + ...` is the one after the scheme. */
  lemma FirstColonAfter(s: string, scheme: string)
    requires StartsWith(s, scheme + ":") && ':' !in scheme
    ensures IndexOf(s, ":") == Some(|scheme|) && s[..|scheme|] == scheme
  {
    var n := |scheme|;
    assert s[..n] == scheme;
    assert OccursAt(s, ":", n) by {
      assert s[n..n + 1] == (scheme + ":")[n..n + 1];
    }
    forall j | 0 <= j < n ensures !OccursAt(s, ":", j) {
      assert s[j..j + 1] == [scheme[j]];
    }
  }

  /** The protocol of a URL is fixed by its text up to the first colon. */
  lemma ProtocolOfPrefix(s: string, scheme: string)
    requires StartsWith(s, scheme + ":") && ':' !in scheme
    requires ParseUrl(s).Some?
    ensures ParseUrl(s).value.protocol == ToLower(scheme + ":")
  {
    FirstColonAfter(s, scheme);
    assert ToLower(scheme + ":") == ToLower(scheme) + ":";
  }

  /** Index of the last occurrence of `c` in `s`. */
  function LastIndexOf(s: string, c: char): (r: Option<nat>)
    ensures r.Some? ==> r.value < |s| && s[r.value] == c
    ensures r.Some? ==> forall j :: r.value < j < |s| ==> s[j] != c
    ensures r.None? ==> c !in s
  {
    if |s| == 0 then None
    else if s[|s| - 1] == c then Some(|s| - 1)
    else LastIndexOf(s[..|s| - 1], c)
  }

  function StripTrailingSlashes(p: string): (r: string)
    ensures |r| <= |p| && r == p[..|r|]
    ensures forall i :: |r| <= i < |p| ==> p[i] == '/'
    ensures r == [] || r[|r| - 1] != '/'
  {
    if |p| > 0 && p[|p| - 1] == '/' then StripTrailingSlashes(p[..|p| - 1]) else p
  }

  /** `path.posix.basename(p)`: the last segment, trailing slashes ignored. */
  function Basename(p: string): (r: string)
    ensures '/' !in r
    ensures '/' !in p ==> r == p
  {
    var t := StripTrailingSlashes(p);
    match LastIndexOf(t, '/')
    case None => t
    case Some(i) => t[i + 1..]
  }

  /** The extension of one path segment, as `path.extname` defines it: from
      the last dot on, except for a leading dot and the name `..`. */
  function ExtOfName(name: string): (r: string)
    ensures r == [] || (r[0] == '.' && EndsWith(name, r) && |r| < |name|)
  {
    match LastIndexOf(name, '.')
    case None => ""
    case Some(i) => if i == 0 || name == ".." then "" else name[i..]
  }

  /** `path.posix.extname(p)`. */
  function Extname(p: string): string {
    ExtOfName(Basename(p))
  }
}

=== FILE: user_service.dfy ===
/** User accounts (`services/UserService.js`). The `users` table is a
    sequence whose position `i` holds the row with primary key `i + 1`. */
module UserService {
  import opened Wrappers
  import opened Js
  import opened Strings
  import opened Counting
  import opened Pagination
  import TryonService

  datatype User = User(
    id: nat,
    openid: string,
    unionid: Option<string>,
    nickname: Option<string>,
    avatarUrl: Option<string>,
    gender: Value,
    city: Option<string>,
    province: Option<string>,
    country: Option<string>,
    language: Option<string>,
    lastLoginAt: Option<int>,
    status: int)

  /** Primary keys follow positions and `openid` is unique. */
  predicate Valid(users: seq<User>) {
    && (forall i :: 0 <= i < |users| ==> users[i].id == i + 1)
    && (forall i, j :: 0 <= i < j < |users| ==> users[i].openid != users[j].openid)
  }

  /** The WeChat profile handed to `findOrCreateUser`; `None` is an absent
      property, and `gender` keeps its JavaScript value. */
  datatype UserInfo = UserInfo(
    openid: Option<string>,
    unionid: Option<string>,
    nickname: Option<string>,
    avatarUrl: Option<string>,
    gender: Value,
    city: Option<string>,
    province: Option<string>,
    country: Option<string>,
    language: Option<string>)

  /** The position of the user with this openid. */
  function FindByOpenid(users: seq<User>, openid: string): (r: Option<nat>)
    ensures r.Some? ==> r.value < |users| && users[r.value].openid == openid
    ensures r.None? <==> forall i :: 0 <= i < |users| ==> users[i].openid != openid
  {
    if users == [] then None
    else if users[0].openid == openid then Some(0)
    else match FindByOpenid(users[1..], openid)
      case None => None
      case Some(i) => Some(i + 1)
  }

  /** The login merge: a profile field is replaced only by a truthy new
      value, except `gender`, which is replaced by anything but `undefined`. */
  function Merge(u: User, info: UserInfo, now: int): (r: User)
    ensures r.id == u.id && r.openid == u.openid && r.unionid == u.unionid && r.status == u.status
    ensures r.nickname == (if TruthyStr(info.nickname) then info.nickname else u.nickname)
    ensures r.avatarUrl == (if TruthyStr(info.avatarUrl) then info.avatarUrl else u.avatarUrl)
    ensures r.city == (if TruthyStr(info.city) then info.city else u.city)
    ensures r.province == (if TruthyStr(info.province) then info.province else u.province)
    ensures r.country == (if TruthyStr(info.country) then info.country else u.country)
    ensures r.language == (if TruthyStr(info.language) then info.language else u.language)
    ensures r.gender == (if info.gender.Undefined? then u.gender else info.gender)
    ensures r.lastLoginAt == Some(now)
  {
    u.(nickname := OrElse(info.nickname, u.nickname),
       avatarUrl := OrElse(info.avatarUrl, u.avatarUrl),
       gender := if info.gender != Undefined then info.gender else u.gender,
       city := OrElse(info.city, u.city),
       province := OrElse(info.province, u.province),
       country := OrElse(info.country, u.country),
       language := OrElse(info.language, u.language),
       lastLoginAt := Some(now))
  }

  /** Logging in again with the same profile changes nothing but the login
      time: the merge is idempotent on the profile. */
  lemma MergeIdempotent(u: User, info: UserInfo, now1: int, now2: int)
    ensures Merge(Merge(u, info, now1), info, now2) == Merge(u, info, now2)
  {
  }

  /** `findOrCreateUser`: updates the user with this openid, or creates one
      with gender 0, language zh_CN and status 1 unless given. */
  function FindOrCreateUser(users: seq<User>, info: UserInfo, now: int): (r: Result<(seq<User>, User)>)
    requires Valid(users)
    ensures r.Err? <==> info.openid.None?
    ensures r.Ok? ==> Valid(r.value.0) && r.value.1.openid == info.openid.value
    ensures r.Ok? && FindByOpenid(users, info.openid.value).Some? ==>
              var i := FindByOpenid(users, info.openid.value).value;
              && |r.value.0| == |users|
              && r.value.0 == users[i := r.value.1]
              && r.value.1 == Merge(users[i], info, now)
    ensures r.Ok? && FindByOpenid(users, info.openid.value).None? ==>
              && r.value.0 == users + [r.value.1]
              && r.value.1.id == |users| + 1 && r.value.1.status == 1
              && r.value.1.gender == (if Truthy(info.gender) then info.gender else Num(0))
              && r.value.1.language == Some(StrOr(info.language, "zh_CN"))
  {
    match info.openid
    case None => Err("用户操作失败: WHERE parameter \"openid\" has invalid \"undefined\" value")
    case Some(openid) =>
      match FindByOpenid(users, openid)
      case Some(i) =>
        var u := Merge(users[i], info, now);
        Ok((users[i := u], u))
      case None =>
        var u := User(|users| + 1, openid, info.unionid, info.nickname, info.avatarUrl,
                      Or(info.gender, Num(0)), info.city, info.province, info.country,
                      Some(StrOr(info.language, "zh_CN")), Some(now), 1);
        Ok((users + [u], u))
  }

  /** Logging in twice with the same openid creates at most one user. */
  lemma NoSecondUser(users: seq<User>, info: UserInfo, now1: int, now2: int)
    requires Valid(users) && info.openid.Some?
    ensures var r1 := FindOrCreateUser(users, info, now1);
            && r1.Ok?
            && var r2 := FindOrCreateUser(r1.value.0, info, now2);
            && r2.Ok? && |r2.value.0| == |r1.value.0| <= |users| + 1
            && r2.value.1.id == r1.value.1.id
  {
    var r1 := FindOrCreateUser(users, info, now1);
    var users1 := r1.value.0;
    var k := match FindByOpenid(users, info.openid.value) case Some(i) => i case None => |users|;
    assert users1[k] == r1.value.1;
    var j := FindByOpenid(users1, info.openid.value).value;
    assert j == k;
  }

  /** `getUserById`. */
  function GetUserById(users: seq<User>, id: int): (r: Result<User>)
    requires Valid(users)
    ensures r.Ok? <==> 1 <= id <= |users|
    ensures r.Ok? ==> r.value.id == id
    ensures r.Err? ==> r.error == "获取用户失败: 用户不存在"
  {
    if 1 <= id <= |users| then Ok(users[id - 1]) else Err("获取用户失败: 用户不存在")
  }

  /** `updateUserStatus`: only the status of the one user changes. */
  function UpdateUserStatus(users: seq<User>, id: int, status: int): (r: Result<seq<User>>)
    requires Valid(users)
    ensures r.Ok? <==> 1 <= id <= |users|
    ensures r.Ok? ==> Valid(r.value) && |r.value| == |users|
                      && r.value[id - 1] == users[id - 1].(status := status)
                      && forall i :: 0 <= i < |users| && i != id - 1 ==> r.value[i] == users[i]
    ensures r.Err? ==> r.error == "更新用户状态失败: 用户不存在"
  {
    if 1 <= id <= |users| then Ok(users[id - 1 := users[id - 1].(status := status)])
    else Err("更新用户状态失败: 用户不存在")
  }

  datatype UserStats = UserStats(total: nat, successful: nat, failed: nat, pending: nat)

  const InProgressNames: set<string> := {"PENDING", "RUNNING", "PRE-PROCESSING", "POST-PROCESSING"}

  /** `getUserStats` over the user's grouped task counts. */
  function GetUserStats(rows: seq<GroupCount>): (r: UserStats)
    ensures r.total == SumAll(rows)
    ensures r.successful == SumIn(rows, {"SUCCEEDED"})
    ensures r.failed == SumIn(rows, {"FAILED"})
    ensures r.pending == SumIn(rows, InProgressNames)
  {
    if rows == [] then UserStats(0, 0, 0, 0)
    else
      var s := GetUserStats(rows[1..]);
      var row := rows[0];
      var s' := s.(total := s.total + row.count);
      if row.key == "SUCCEEDED" then s'.(successful := s'.successful + row.count)
      else if row.key == "FAILED" then s'.(failed := s'.failed + row.count)
      else if row.key in InProgressNames then s'.(pending := s'.pending + row.count)
      else s'
  }

  /** The per-user view agrees with the service-wide one: its pending bucket
      is the task statistics' pending plus processing. */
  lemma UserStatsMatchTaskStats(rows: seq<GroupCount>)
    ensures var u := GetUserStats(rows);
            var t := TryonService.GetTaskStats(rows);
            && u.total == t.total && u.successful == t.succeeded && u.failed == t.failed
            && u.pending == t.pending + t.processing
  {
    SumUnion(rows, {"PENDING"}, TryonService.ProcessingNames);
    assert InProgressNames == {"PENDING"} + TryonService.ProcessingNames;
  }

  /** `LIKE '%keyword%'` under a case-insensitive collation: the keyword
      occurs in the text, letter case aside. */
  predicate LikeInfix(text: string, keyword: string) {
    Contains(ToLower(text), ToLower(keyword))
  }

  /** The `WHERE` of `getUserList`: an exact status and a keyword found in
      the nickname or the openid. */
  predicate Matches(u: User, status: Option<int>, keyword: Option<string>) {
    && (status.None? || u.status == status.value)
    && (!TruthyStr(keyword)
        || (u.nickname.Some? && LikeInfix(u.nickname.value, keyword.value))
        || LikeInfix(u.openid, keyword.value))
  }

  /** The elements of `xs` that `keep` accepts, in their order. */
  function Select<T>(xs: seq<T>, keep: T -> bool): (r: seq<T>)
    ensures |r| <= |xs|
  {
    if xs == [] then [] else (if keep(xs[0]) then [xs[0]] else []) + Select(xs[1..], keep)
  }

  /** Selecting from a concatenation selects from each part in turn. */
  lemma {:induction false} SelectAppend<T>(a: seq<T>, b: seq<T>, keep: T -> bool)
    ensures Select(a + b, keep) == Select(a, keep) + Select(b, keep)
    decreases |a|
  {
    if a == [] {
      assert a + b == b;
    } else {
      var ab := a + b;
      var head := if keep(a[0]) then [a[0]] else [];
      assert ab[0] == a[0] && ab[1..] == a[1..] + b;
      assert Select(ab, keep) == head + Select(a[1..] + b, keep);
      SelectAppend(a[1..], b, keep);
      assert Select(a, keep) == head + Select(a[1..], keep);
    }
  }

  /** Selection keeps exactly the accepted elements. */
  lemma {:induction false} SelectMembers<T>(xs: seq<T>, keep: T -> bool)
    ensures forall x :: x in Select(xs, keep) <==> x in xs && keep(x)
    decreases |xs|
  {
    if xs != [] {
      SelectMembers(xs[1..], keep);
      assert xs == [xs[0]] + xs[1..];
    }
  }

  /** The matching users, in the order of the query. */
  function Filter(users: seq<User>, status: Option<int>, keyword: Option<string>): (r: seq<User>)
    ensures |r| <= |users|
  {
    Select(users, u => Matches(u, status, keyword))
  }

  /** The filter keeps exactly the matching users. */
  lemma FilterMembers(users: seq<User>, status: Option<int>, keyword: Option<string>)
    ensures forall u :: u in Filter(users, status, keyword) <==> u in users && Matches(u, status, keyword)
  {
    SelectMembers(users, u => Matches(u, status, keyword));
  }

  /** A single user is kept exactly when it matches. */
  lemma FilterOne(u: User, status: Option<int>, keyword: Option<string>)
    ensures Filter([u], status, keyword) == if Matches(u, status, keyword) then [u] else []
  {
    assert [u][1..] == [];
  }

  /** Filtering keeps the query's order: filtering a concatenation is
      filtering each part. */
  lemma FilterKeepsOrder(a: seq<User>, b: seq<User>, status: Option<int>, keyword: Option<string>)
    ensures Filter(a + b, status, keyword) == Filter(a, status, keyword) + Filter(b, status, keyword)
  {
    SelectAppend(a, b, u => Matches(u, status, keyword));
  }

  datatype PageInfo = PageInfo(total: nat, page: int, limit: int, pages: Option<nat>)

  /** `getUserList` over the users in the query's order (newest first). */
  function GetUserList(ordered: seq<User>, page: int, limit: int, status: Option<int>, keyword: Option<string>)
    : (r: Result<(seq<User>, PageInfo)>)
    ensures r.Ok? <==> Offset(page, limit) >= 0 && limit >= 0
    ensures r.Ok? ==>
              var matching := Filter(ordered, status, keyword);
              && r.value.1 == PageInfo(|matching|, page, limit, Pages(|matching|, limit))
              && |r.value.0| <= limit
              && forall u :: u in r.value.0 ==> u in ordered && Matches(u, status, keyword)
    ensures r.Ok? ==>
              var matching := Filter(ordered, status, keyword);
              forall i :: 0 <= i < |r.value.0| ==>
                Offset(page, limit) + i < |matching| && r.value.0[i] == matching[Offset(page, limit) + i]
    ensures r.Ok? ==>
              var matching := Filter(ordered, status, keyword);
              |r.value.0| == (if Offset(page, limit) + limit <= |matching| then limit
                              else if Offset(page, limit) <= |matching| then |matching| - Offset(page, limit)
                              else 0)
  {
    var matching := Filter(ordered, status, keyword);
    FilterMembers(ordered, status, keyword);
    match PageOf(matching, page, limit)
    case None => Err("获取用户列表失败: invalid LIMIT or OFFSET")
    case Some(rows) =>
      assert forall u :: u in rows ==> u in matching;
      Ok((rows, PageInfo(|matching|, page, limit, Pages(|matching|, limit))))
  }
}

=== FILE: validator.dfy ===
/** Request validation for the try-on endpoints (`utils/validator.js`). */
module Validator {
  import opened Js
  import opened Strings
  import opened Urls

  /** `isValidUrl`: a non-empty string that parses with protocol `http:` or `https:`. */
  predicate IsValidUrl(v: Value) {
    v.Str? && v.s != "" &&
    match ParseUrl(v.s)
    case None => false
    case Some(u) => IsHttpProtocol(u.protocol)
  }

  /** The `supportedFormats.some(...)` test over `.jpg .jpeg .png .bmp .heic
      .webp`: the lower-cased URL contains a format with or without its dot,
      anywhere. */
  predicate MentionsFormat(lower: string) {
    || Contains(lower, ".jpg") || Contains(lower, "jpg")
    || Contains(lower, ".jpeg") || Contains(lower, "jpeg")
    || Contains(lower, ".png") || Contains(lower, "png")
    || Contains(lower, ".bmp") || Contains(lower, "bmp")
    || Contains(lower, ".heic") || Contains(lower, "heic")
    || Contains(lower, ".webp") || Contains(lower, "webp")
  }

  /** The format names without their dot. */
  predicate MentionsFormatName(lower: string) {
    || Contains(lower, "jpg") || Contains(lower, "jpeg") || Contains(lower, "png")
    || Contains(lower, "bmp") || Contains(lower, "heic") || Contains(lower, "webp")
  }

  /** `isValidImageUrl`. */
  predicate IsValidImageUrl(v: Value) {
    IsValidUrl(v) && MentionsFormat(ToLower(v.s))
  }

  /** Dropping the dot: a text contains `.ext` only if it contains `ext`. */
  lemma DottedImpliesBare(lower: string, ext: string)
    requires Contains(lower, "." + ext)
    ensures Contains(lower, ext)
  {
    assert ("." + ext)[1..1 + |ext|] == ext;
    ContainsInner(lower, "." + ext, ext, 1);
  }

  /** The dotted spellings add nothing: an image URL is a valid URL whose
      lower-cased text contains one of the six bare format names anywhere,
      not necessarily as its extension. */
  lemma ImageUrlIff(v: Value)
    ensures IsValidImageUrl(v) <==> IsValidUrl(v) && MentionsFormatName(ToLower(v.s))
  {
    if v.Str? {
      MentionsIff(ToLower(v.s));
    }
  }

  lemma DotDrop(lower: string, dotted: string, ext: string)
    requires dotted == "." + ext
    ensures Contains(lower, dotted) ==> Contains(lower, ext)
  {
    if Contains(lower, dotted) {
      DottedImpliesBare(lower, ext);
    }
  }

  lemma MentionsIff(lower: string)
    ensures MentionsFormat(lower) <==> MentionsFormatName(lower)
  {
    DotDrop(lower, ".jpg", "jpg");
    DotDrop(lower, ".jpeg", "jpeg");
    DotDrop(lower, ".png", "png");
    DotDrop(lower, ".bmp", "bmp");
    DotDrop(lower, ".heic", "heic");
    DotDrop(lower, ".webp", "webp");
  }

  /** An image URL is in particular a valid URL. */
  lemma ImageUrlIsUrl(v: Value)
    requires IsValidImageUrl(v)
    ensures v.Str? && v.s != ""
    ensures ParseUrl(v.s).Some? && IsHttpProtocol(ParseUrl(v.s).value.protocol)
  {
  }

  /** `isValidResolution`: `[-1, 1024, 1280].includes(resolution)`. */
  predicate IsValidResolution(v: Value) {
    v == Num(-1) || v == Num(1024) || v == Num(1280)
  }

  lemma ResolutionIff(v: Value)
    ensures IsValidResolution(v) <==> v.Num? && v.n in {-1, 1024, 1280}
  {
  }

  /** The body fields `validateAiTryonParams` destructures. */
  datatype TryonParams = TryonParams(
    person: Value, top: Value, bottom: Value, resolution: Value, restoreFace: Value)

  datatype Validation = Valid | Invalid(error: string)

  const ErrPersonMissing := "模特图片URL是必需的"
  const ErrPersonInvalid := "模特图片URL格式无效"
  const ErrNoGarment := "至少需要提供一张上装或下装图片"
  const ErrTopInvalid := "上装图片URL格式无效"
  const ErrBottomInvalid := "下装图片URL格式无效"
  const ErrResolution := "分辨率参数无效，支持的值：-1, 1024, 1280"
  const ErrRestoreFace := "restore_face参数必须是布尔值"

  /** Destructuring defaults: only an absent (undefined) field is replaced. */
  function DefaultResolution(v: Value): Value {
    if v == Undefined then Num(-1) else v
  }

  function DefaultRestoreFace(v: Value): Value {
    if v == Undefined then Bool(true) else v
  }

  const NumChecks := 7

  /** Check `k` of `validateAiTryonParams`, in the order the checks are made:
      person present, person well-formed, some garment, top well-formed when
      present, bottom well-formed when present, resolution, restore_face. */
  predicate CheckPasses(p: TryonParams, k: nat)
    requires k < NumChecks
  {
    match k
    case 0 => Truthy(p.person)
    case 1 => IsValidImageUrl(p.person)
    case 2 => Truthy(p.top) || Truthy(p.bottom)
    case 3 => !Truthy(p.top) || IsValidImageUrl(p.top)
    case 4 => !Truthy(p.bottom) || IsValidImageUrl(p.bottom)
    case 5 => IsValidResolution(DefaultResolution(p.resolution))
    case _ => DefaultRestoreFace(p.restoreFace).Bool?
  }

  /** The message reported when check `k` is the first to fail. */
  function CheckMessage(k: nat): string
    requires k < NumChecks
  {
    [ErrPersonMissing, ErrPersonInvalid, ErrNoGarment, ErrTopInvalid,
     ErrBottomInvalid, ErrResolution, ErrRestoreFace][k]
  }

  /** `validateAiTryonParams`: valid exactly when every check passes,
      otherwise the message of the first failing check. */
  function ValidateAiTryonParams(p: TryonParams): (r: Validation)
    ensures r.Valid? <==> forall k :: 0 <= k < NumChecks ==> CheckPasses(p, k)
    ensures r.Invalid? ==>
              exists k :: 0 <= k < NumChecks && !CheckPasses(p, k) && r.error == CheckMessage(k)
                          && forall j :: 0 <= j < k ==> CheckPasses(p, j)
    ensures r.Invalid? ==> r.error != ""
  {
    if !CheckPasses(p, 0) then Invalid(CheckMessage(0))
    else if !CheckPasses(p, 1) then Invalid(CheckMessage(1))
    else if !CheckPasses(p, 2) then Invalid(CheckMessage(2))
    else if !CheckPasses(p, 3) then Invalid(CheckMessage(3))
    else if !CheckPasses(p, 4) then Invalid(CheckMessage(4))
    else if !CheckPasses(p, 5) then Invalid(CheckMessage(5))
    else if !CheckPasses(p, 6) then Invalid(CheckMessage(6))
    else Valid
  }

  /** The first failing check decides the message. */
  lemma FailsAt(p: TryonParams, k: nat)
    requires k < NumChecks && !CheckPasses(p, k)
    requires forall j :: 0 <= j < k ==> CheckPasses(p, j)
    ensures ValidateAiTryonParams(p) == Invalid(CheckMessage(k))
  {
    var r := ValidateAiTryonParams(p);
    var i :| 0 <= i < NumChecks && !CheckPasses(p, i) && r.error == CheckMessage(i)
             && forall j :: 0 <= j < i ==> CheckPasses(p, j);
    assert i == k;
  }

  /** The seven messages are distinct, so a rejection names its check. */
  lemma MessagesDistinct(j: nat, k: nat)
    requires j < k < NumChecks
    ensures CheckMessage(j) != CheckMessage(k)
  {
  }

  /** A request with neither garment is never accepted. */
  lemma NoGarmentNeverValid(p: TryonParams)
    requires !Truthy(p.top) && !Truthy(p.bottom)
    ensures ValidateAiTryonParams(p).Invalid?
    ensures CheckPasses(p, 0) && CheckPasses(p, 1) ==>
              ValidateAiTryonParams(p) == Invalid(ErrNoGarment)
  {
    assert !CheckPasses(p, 2);
  }

  /** The outcome depends on the request only through its seven checks. */
  lemma SameChecksSameResult(p: TryonParams, q: TryonParams)
    requires forall k :: 0 <= k < NumChecks ==> CheckPasses(p, k) == CheckPasses(q, k)
    ensures ValidateAiTryonParams(p) == ValidateAiTryonParams(q)
  {
    assert CheckPasses(p, 0) == CheckPasses(q, 0);
    assert CheckPasses(p, 1) == CheckPasses(q, 1);
    assert CheckPasses(p, 2) == CheckPasses(q, 2);
    assert CheckPasses(p, 3) == CheckPasses(q, 3);
    assert CheckPasses(p, 4) == CheckPasses(q, 4);
    assert CheckPasses(p, 5) == CheckPasses(q, 5);
    assert CheckPasses(p, 6) == CheckPasses(q, 6);
  }

  /** Leaving out resolution and restore_face is the same as sending -1 and true. */
  lemma DefaultsNeverReject(p: TryonParams)
    ensures ValidateAiTryonParams(p.(resolution := Undefined, restoreFace := Undefined))
         == ValidateAiTryonParams(p.(resolution := Num(-1), restoreFace := Bool(true)))
    ensures ValidateAiTryonParams(p.(resolution := Undefined, restoreFace := Undefined)).Invalid? ==>
              ValidateAiTryonParams(p.(resolution := Undefined, restoreFace := Undefined)).error
              !in {ErrResolution, ErrRestoreFace}
  {
    var omitted := p.(resolution := Undefined, restoreFace := Undefined);
    var explicit := p.(resolution := Num(-1), restoreFace := Bool(true));
    assert CheckPasses(omitted, 5) && CheckPasses(omitted, 6);
    assert CheckPasses(explicit, 5) && CheckPasses(explicit, 6);
    forall k | 0 <= k < NumChecks ensures CheckPasses(omitted, k) == CheckPasses(explicit, k) {
    }
    SameChecksSameResult(omitted, explicit);
    var r := ValidateAiTryonParams(omitted);
    if r.Invalid? {
      var k :| 0 <= k < NumChecks && !CheckPasses(omitted, k) && r.error == CheckMessage(k);
      MessagesDistinct(k, 5);
      MessagesDistinct(k, 6);
    }
  }

  /** A null resolution or restore_face is not defaulted and is rejected. */
  lemma NullIsNotDefaulted(p: TryonParams)
    requires forall k :: 0 <= k < 5 ==> CheckPasses(p, k)
    ensures p.resolution == Null ==> ValidateAiTryonParams(p) == Invalid(ErrResolution)
    ensures IsValidResolution(p.resolution) && p.restoreFace == Null ==>
              ValidateAiTryonParams(p) == Invalid(ErrRestoreFace)
  {
    if p.resolution == Null {
      FailsAt(p, 5);
    }
    if IsValidResolution(p.resolution) && p.restoreFace == Null {
      FailsAt(p, 6);
    }
  }

  function IsHexDigit(c: char): bool {
    ('0' <= c <= '9') || ('a' <= c <= 'f') || ('A' <= c <= 'F')
  }

  /** The 8-4-4-4-12 hexadecimal shape of the `uuidRegex`, case-insensitive. */
  predicate UuidShape(s: string) {
    |s| == 36 &&
    forall i :: 0 <= i < 36 ==>
      if i == 8 || i == 13 || i == 18 || i == 23 then s[i] == '-' else IsHexDigit(s[i])
  }

  /** `isValidTaskId`. */
  predicate IsValidTaskId(v: Value) {
    v.Str? && v.s != "" && (UuidShape(v.s) || (10 < |v.s| < 100))
  }

  /** The UUID alternative is subsumed by the length test: a task id is
      valid exactly when it is a string of 11 to 99 characters. */
  lemma TaskIdIff(v: Value)
    ensures IsValidTaskId(v) <==> v.Str? && 10 < |v.s| < 100
  {
  }
}

=== FILE: wrappers.dfy ===
/** Failure-compatible wrappers shared by every module of the model:
    `Option` for JavaScript's null/undefined results and `Result` for a
    thrown `Error`, whose message is kept as the failure value. */
module Wrappers {

  datatype Option<+T> = None | Some(value: T) {
    function GetOr(default: T): T {
      match this
      case Some(v) => v
      case None => default
    }
  }

  datatype Result<+T> = Ok(value: T) | Err(error: string) {
    predicate IsFailure() {
      Err?
    }

    function PropagateFailure<U>(): Result<U>
      requires Err?
    {
      Err(error)
    }

    function Extract(): T
      requires Ok?
    {
      value
    }
  }
}
